=== FILE: README.md ===
# lighthouse-batch, modelled in Dafny

lighthouse-batch runs Lighthouse audits over a list of URLs. This project models its pure core:

- the resumable site queue;
- the enqueue phases of the A/B and plain batch commands;
- the controller's run loop, with the audit as a success/failure oracle;
- the runners' report-file naming;
- score extraction from a parsed report, and the summary script that groups, averages and saves the scores;
- the url-keyed metric stores;
- the legacy `index.js` batch runner: url normalisation, collision-free report names, average scores, budget checks and fail-fast skipping.

Every collection is an in-memory sequence of records. Every operation is a pure function of the old state, and the controller loop is also given as a method with loop invariants. Strings are `seq<char>`. Numbers are exact reals; rounding to two decimals is an explicit function.

The modules, one per concern of the source:

| module | file | models |
|---|---|---|
| `Wrappers` | wrappers.dfy | `Option` and `Result` (a thrown error is `Throws`) |
| `Text` | text.dfy | JavaScript `trim`, `split('\n')`, character-class replacement, decimal rendering of naturals |
| `UrlStore` | url_store.dfy | a collection keyed by url, upserting with first-write-wins |
| `SiteTracker` | site_tracker.dfy | src/site-tracker.ts: the queue keyed by (url, formFactor) |
| `UrlSiteTracker` | url_site_tracker.dfy | siteTracker.ts: the older queue keyed by url |
| `SiteMetrics` | site_metrics.dfy | src/site-metrics.ts |
| `SummaryMetrics` | summary_metrics.dfy | src/siteMetrics.ts, the store src/summary.ts saves into |
| `BatchExecutor` | batch_executor.dfy | the enqueue phases of src/batch-executor.ts |
| `SitesOnlyExecutor` | sites_only_executor.dfy | the enqueue phases of src/batchExecutor.ts |
| `LighthouseRunner` | lighthouse_runner.dfy | the run counter, output directory, report path and `getSiteName` of src/lighthouse-runner.ts and src/lighthouseRunner.ts |
| `BatchController` | batch_controller.dfy | src/batchController.ts |
| `ReportAnalyzer` | report_analyzer.dfy | src/lighthouse-report-analyzer.ts |
| `Summary` | summary.dfy | src/summary.ts |
| `LegacyBatch` | legacy_batch.dfy | index.js |

Modelling decisions:

- **Rebinding `update` callbacks.** siteTracker.ts, src/site-metrics.ts and src/siteMetrics.ts pass `update` a callback that only rebinds its parameter. Their `update` therefore leaves the stored record as it was, so the first write of a url wins.
- **Both runner classes share one naming model.** The two classes agree on the counter, the directory rule and the path format. Their site-name regexes accept the same strings and replace the same ten characters.
- **The controller's queue API.** src/batchController.ts imports `./siteTracker`, but it calls `updateSiteAsFinished(url, formFactor)`, which only src/site-tracker.ts has. The controller is modelled over the (url, formFactor) queue of src/site-tracker.ts. src/siteTracker.ts is not part of this model.
- **The older executor's queue.** src/batchExecutor.ts imports `Sites` from the same `./siteTracker` (src/batchExecutor.ts:5). Its `Site` records carry a `formFactor` (src/batchExecutor.ts:55-60), and the controller it hands over to calls `updateSiteAsFinished(url, formFactor)` on that module. So `SitesOnlyExecutor` is modelled over the queue of src/site-tracker.ts. Three facts in its contracts come from that queue rather than from src/batchExecutor.ts: the (url, formFactor) keying, under which `'both'` adds separate desktop and mobile records; the clearing of the error flag on re-enqueue (src/site-tracker.ts:32-39); and the one-record-per-identity invariant.
- **The summary script's analyzer.** src/summary.ts imports its analyzer from src/lighthouseReportAnalyzer.ts, which has none of the getters the script calls. The script is modelled over the analyzer of src/lighthouse-report-analyzer.ts.
- **`averageBy` is 1.** The summary script averages with `averageBy` 1 (src/summary.ts:111), not with the number of runs. The stored values are therefore rounded sums, and the model follows the code.
- **Budget checks after a failed audit.** `LegacyBatch.ProcessSite`, `Execute` and `Run` follow the code as written: a failed audit met by an enabled category threshold throws, and the run stops before the summary is written. The corrected check, which the Findings section describes, is modelled alongside as `LegacyBatch.ProcessSiteCorrected` and `LegacyBatch.ExecuteCorrected`.
- **Inherited keys in `existingNames`.** index.js keeps the taken report names in a plain object, so the names of `Object.prototype` members (`constructor`, `toString`, …) count as taken. The model includes them.

## Model

| member | source | states |
|---|---|---|
| Text.Trim | index.js:193 | the result is a slice of the input; only JavaScript whitespace is cut, and neither end of the result is whitespace |
| Text.JoinSplit | index.js:176 | joining the pieces of `split(sep)` with `sep` gives back the input |
| Text.SplitJoin | index.js:176 | splitting a join of separator-free pieces gives back the pieces |
| Text.Lines | src/batch-executor.ts:60 | the lines of `trim().split('\n')` hold no newline and join back to the trimmed content |
| Text.ReplaceChars | index.js:271 | a global character-class replace keeps the length, keeps every character outside the class and rewrites each one inside it |
| Text.ReplaceCharsRemovesClass | index.js:271 | when the replacement lies outside the class, no character of the class is left |
| Text.NatToString | index.js:209 | the decimal rendering of a counter is a nonempty digit string |
| Text.NatToStringInjective | index.js:209 | different counters render differently |
| UrlStore.Lookup | siteTracker.ts:42-44 | a lookup finds nothing iff no record has the url; a found record is stored and has the url |
| UrlStore.CreateOrUpdate | siteTracker.ts:19-25 | upsert keeps one record per url, adds the item's url, keeps an existing record (first write wins) and changes no other url's lookup |
| UrlStore.CreateOrUpdateAllLookup | siteTracker.ts:19-25 | after upserting a sequence, a url stored before keeps its record and any other url finds its first item |
| SiteTracker.Find | src/site-tracker.ts:67-69 | finds nothing iff no record matches both url and form factor; a found record matches both |
| SiteTracker.KeysMeansExists | src/site-tracker.ts:67-69 | `entryExists` holds iff the (url, formFactor) identity is among the store's keys |
| SiteTracker.Create | src/site-tracker.ts:28-30 | adds the identity; on a fresh identity the inserted record is found as given, the one-record-per-identity invariant is kept, and no other identity's lookup changes |
| SiteTracker.Update | src/site-tracker.ts:32-39 | keeps length and keys; the matching records lose their error flag, and `finished`, url and form factor stay as they were |
| SiteTracker.UpdateFind | src/site-tracker.ts:32-39 | after an update the matching identity finds its old record with errors cleared; other identities find what they found before |
| SiteTracker.CreateOrUpdate | src/site-tracker.ts:20-26 | updates iff the identity exists and appends otherwise; adds exactly that identity and keeps the invariant |
| SiteTracker.CreateOrUpdateRecord | src/site-tracker.ts:20-39 | with the invariant, the identity afterwards holds exactly one record: the old one with errors cleared (a finished site stays finished), or the new one |
| SiteTracker.EnqueueTwiceOneRecord | src/site-tracker.ts:20-26 | upserting the same site twice still leaves one record for its identity |
| SiteTracker.SetFlag | src/site-tracker.ts:41-57 | only records matching both keys get the flag; every other record, and every identity, is unchanged |
| SiteTracker.SetFlagKeepsKeys | src/site-tracker.ts:41-57 | setting a flag keeps the keys and the invariant, and does nothing when no record matches |
| SiteTracker.MarkFinished | src/site-tracker.ts:41-48 | sets `finished` on the matching record only and leaves its error flag alone |
| SiteTracker.MarkErrored | src/site-tracker.ts:50-57 | sets `errors` on the matching record only and never touches `finished` |
| SiteTracker.MarkKeepsKeys | src/site-tracker.ts:41-57 | both marks keep the keys and the invariant, and change nothing when no record matches |
| SiteTracker.StillUnprocessed | src/site-tracker.ts:59-61 | the result is exactly the unfinished records, each as often as it is stored |
| SiteTracker.StillUnprocessedConcat | src/site-tracker.ts:59-61 | the unfinished records keep the store's order: those of a concatenation are those of each part, in turn |
| SiteTracker.StillUnprocessedUnique | src/site-tracker.ts:59-61 | the unprocessed records of a store with the invariant have pairwise distinct identities |
| SiteTracker.Clean | src/site-tracker.ts:63-65 | afterwards no identity exists and nothing is unprocessed |
| UrlSiteTracker.Create | siteTracker.ts:27-29 | appends the site; on a fresh url the site is found as given; other urls are unaffected |
| UrlSiteTracker.Update | siteTracker.ts:31-36 | no lookup changes: the callback only rebinds its parameter |
| UrlSiteTracker.CreateOrUpdate | siteTracker.ts:19-25 | never duplicates a url; an existing record is kept, a new url finds the site; other urls are unaffected |
| UrlSiteTracker.Clean | siteTracker.ts:38-40 | afterwards no url is found |
| SiteMetrics.Create | src/site-metrics.ts:36-38 | appends the metric; on a fresh url it is found as given; other urls are unaffected |
| SiteMetrics.Update | src/site-metrics.ts:40-48 | no lookup changes: the callback only rebinds its parameter |
| SiteMetrics.CreateOrUpdate | src/site-metrics.ts:28-34 | never duplicates a url; first write wins; other urls are unaffected |
| SiteMetrics.GetSiteScores | src/site-metrics.ts:54-62 | nothing iff no record has the url; otherwise the first record with the url |
| SiteMetrics.FirstMatch | src/site-metrics.ts:54-62 | the first match equals the generic store lookup, and is the earliest record with the url |
| SiteMetrics.Clean | src/site-metrics.ts:50-52 | afterwards no url is found |
| SummaryMetrics.Create | src/siteMetrics.ts:34-36 | appends the metric; on a fresh url it is found as given; other urls are unaffected |
| SummaryMetrics.Update | src/siteMetrics.ts:38-43 | no lookup changes: the callback only rebinds its parameter |
| SummaryMetrics.CreateOrUpdate | src/siteMetrics.ts:26-32 | never duplicates a url; first write wins; other urls are unaffected |
| SummaryMetrics.Clean | src/siteMetrics.ts:45-47 | afterwards no url is found |
| BatchExecutor.EnqueuedOne | src/batch-executor.ts:73-83 | one upsert of a new item is an enqueue phase adding exactly that item's identity |
| BatchExecutor.EnqueuedKeepsUnique | src/batch-executor.ts:13-57 | every enqueue phase keeps the one-record-per-identity invariant |
| BatchExecutor.EnqueuedCompose | src/batch-executor.ts:13-57 | two enqueue phases in a row are one phase adding both key sets |
| BatchExecutor.RecordsAfterAreNew | src/batch-executor.ts:13-57 | a record appended by a phase has an identity that was not queued before and that the phase was asked to add |
| BatchExecutor.ParseSitesArrayAndQueue | src/batch-executor.ts:73-83 | adds exactly (url, formFactor) for each given url; new records are unfinished and error-free; re-enqueued ones keep `finished`; the records appended are the urls not yet queued at that form factor, once each, in first-occurrence order |
| BatchExecutor.ParseSitesFileAndQueue | src/batch-executor.ts:59-71 | the same, for the lines of the trimmed file, including the order of the appended records |
| BatchExecutor.QueuePaths | src/batch-executor.ts:85-105 | for each path adds baseline+path and comparison+path at the one form factor |
| BatchExecutor.ParsePathsFileAndQueue | src/batch-executor.ts:85-105 | the same, for the lines of the paths file |
| BatchExecutor.PathKeysMember | src/batch-executor.ts:85-105 | a url is added by path expansion iff it is baseline+p or comparison+p for a listed path p |
| BatchExecutor.AddHomePagesToQueue | src/batch-executor.ts:107-124 | adds exactly the baseline and comparison urls, unchanged |
| BatchExecutor.ExecuteABBatch | src/batch-executor.ts:13-38 | `clean` empties sites and metrics first; then exactly the A/B identities are added |
| BatchExecutor.ABFormFactors | src/batch-executor.ts:20-32 | with `both`, a url is enqueued at desktop iff at mobile; with one form factor, never at the other |
| BatchExecutor.ABPathKeysFormFactor | src/batch-executor.ts:20-32 | path expansion gives the same urls at either form factor and never crosses form factors |
| BatchExecutor.ABWithoutPaths | src/batch-executor.ts:20-32 | without a paths file only the two home pages per form factor are enqueued; after `clean` they are the whole queue |
| BatchExecutor.ExecuteBatch | src/batch-executor.ts:40-57 | `clean` empties sites and metrics first; then exactly the given sites and file lines are added at the form factor |
| BatchExecutor.SitesArrayBeforeFile | src/batch-executor.ts:47-53 | the sites array is queued before the file: every record after the first block is a new file line outside the array |
| SitesOnlyExecutor.ExecuteABBatch | src/batchExecutor.ts:13-34 | `clean` empties the site queue only; the A/B identities are added and the invariant kept |
| SitesOnlyExecutor.ExecuteBatch | src/batchExecutor.ts:36-49 | `clean` empties the site queue only; the sites and file lines are added and the invariant kept |
| SitesOnlyExecutor.SameQueueAsNewerExecutor | src/batchExecutor.ts:51-117 | both executors build the same queue from the same options; the model reuses one enqueue definition for both, since the two files enqueue in the same order, so this records that sharing rather than proving an independent fact |
| LighthouseRunner.DirAfter | src/lighthouse-runner.ts:26-28 | the first non-empty output directory sticks |
| LighthouseRunner.Construct | src/lighthouse-runner.ts:25-50 | construction advances the counter by exactly 1 and never overwrites a set directory; the runner captures the new counter |
| LighthouseRunner.ResetRunId | src/lighthouse-runner.ts:65-67 | the counter becomes 0 and the directory stays |
| LighthouseRunner.ConstructAll | src/lighthouseRunner.ts:21-40 | n constructions yield n runners and advance the counter by n |
| LighthouseRunner.ConstructAllRunners | src/lighthouseRunner.ts:21-40 | the k-th runner of a series captures counter start+k+1 and the directory the first construction fixed |
| LighthouseRunner.RunnersBetweenResets | src/lighthouseRunner.ts:37-39 | after a reset, the runners built before the next reset write pairwise distinct files |
| LighthouseRunner.RunnersShareDirectory | src/lighthouseRunner.ts:22-24 | every runner of a series writes into the directory the first construction fixed |
| LighthouseRunner.ReportPathInDirectory | src/lighthouse-runner.ts:49 | the report path starts with the directory and a slash |
| LighthouseRunner.ReportPathInjective | src/lighthouse-runner.ts:49 | within one directory, the path determines the site name, form factor and id |
| LighthouseRunner.SplitFrom | src/lighthouse-runner.ts:82 | finds the last position where the domain group may end before a `.` and the top-level part |
| LighthouseRunner.HostMatch | src/lighthouse-runner.ts:82 | a match it returns satisfies the regex's conditions |
| LighthouseRunner.HostMatchFirst | src/lighthouseRunner.ts:72 | no match iff the regex matches nowhere; otherwise the match backtracking reaches first (`www.` branch, then the last split) |
| LighthouseRunner.HostStage | src/lighthouse-runner.ts:82 | an unmatched url is unchanged; a matched one keeps the domain group and the rest after the top-level part |
| LighthouseRunner.SiteName | src/lighthouse-runner.ts:81-83 | the name has the first stage's length, none of `! # $ * + . / : ? @`, and each of them replaced by `-` |
| LighthouseRunner.SiteNameIgnoresTld | src/lighthouse-runner.ts:81-83 | `http://a.b.io` and `http://a.b.co` get the same name `a-b`, hence the same report path |
| LighthouseRunner.TwoLetterTldDropped | src/lighthouseRunner.ts:71-73 | any two-letter top-level domain is dropped from the name |
| LighthouseRunner.TwoLetterTldHost | src/lighthouseRunner.ts:72 | the first stage keeps `a.b` of `http://a.b.xy` |
| BatchController.Snapshot | src/batchController.ts:37-43 | a single record is wrapped as a one-element list; an array is kept |
| BatchController.NewController | src/batchController.ts:26-44 | the work list holds exactly the unfinished records, each as often as stored, and keeps the run count and directory |
| BatchController.RunLighthouseMarks | src/batchController.ts:73-83 | a successful trial marks the site finished; a failing one marks it errored |
| BatchController.RunLighthouseStore | src/batchController.ts:73-83 | one trial changes only the matching records and only their `finished` or `errors` flag |
| BatchController.RunLighthouseLog | src/batchController.ts:73-83 | one trial builds a runner with the next counter value and appends exactly that audit |
| BatchController.ProcessSitesLoop | src/batchController.ts:46-56 | the loop over the work list, one site at a time, ends in the state of the recursive run |
| BatchController.RunTrialsStatus | src/batchController.ts:58-71 | a site's trials leave a matching record finished iff some trial succeeded and errored iff some trial failed; nothing else changes |
| BatchController.ProcessFromStatus | src/batchController.ts:46-71 | from any site on, each record ends as its own trials decide |
| BatchController.RunStatus | src/batchController.ts:46-83 | after the run, a record is finished iff it was or one of its trials succeeded, and errored iff it was or one failed; errors are never cleared and keys kept |
| BatchController.FinishedUntouched | src/batchController.ts:37-56 | with the invariant, a record finished at construction is left exactly as it was |
| BatchController.NotQueued | src/batchController.ts:37-43 | with the invariant, a finished record shares its identity with no site of the work list |
| BatchController.RunTrialsStatics | src/batchController.ts:58-71 | a site's trials advance the counter once per trial and fix the directory |
| BatchController.RunTrialsLog | src/batchController.ts:58-71 | a site's trials append exactly `numberOfRuns` audits in trial order with consecutive ids |
| BatchController.LaunchAndRunLog | src/batchController.ts:58-71 | after a site, the counter is reset to 0 and its audits carry ids 1 to `numberOfRuns` |
| BatchController.ProcessFromLog | src/batchController.ts:46-71 | the audits of the run are the sites' audit blocks in work-list order |
| BatchController.RunLog | src/batchController.ts:46-83 | from a fresh process, the whole log is each site's `numberOfRuns` audits, in order, with ids 1 to `numberOfRuns` |
| BatchController.LogAt | src/batchController.ts:46-71 | the k-th audit of the i-th site is entry `i * numberOfRuns + k` of the log |
| BatchController.ReportsCollide | src/batchController.ts:58-71 | two sites with the same name and form factor write their k-th reports to the same path |
| ReportAnalyzer.PerformanceScore | src/lighthouse-report-analyzer.ts:56-58 | the category score, 0 when it is null; throws when the category is missing |
| ReportAnalyzer.GetAudit | src/lighthouse-report-analyzer.ts:100-102 | found iff the report has the audit |
| ReportAnalyzer.AuditScoreValue | src/lighthouse-report-analyzer.ts:91-94 | the floor of the numeric value, 0 when it is missing |
| ReportAnalyzer.AuditScoreType | src/lighthouse-report-analyzer.ts:96-98 | the numeric unit, `unitless` when it is missing |
| ReportAnalyzer.FirstRef | src/lighthouse-report-analyzer.ts:86-89 | nothing iff no reference has the id; otherwise the first one that does |
| ReportAnalyzer.AuditWeight | src/lighthouse-report-analyzer.ts:86-89 | the first matching reference's weight, 0 if none; throws when the performance category is missing |
| ReportAnalyzer.AuditScoreOf | src/lighthouse-report-analyzer.ts:71-84 | defined iff the audit and the performance category exist; it holds the floored value, the unit and the weight |
| ReportAnalyzer.AllAuditScores | src/lighthouse-report-analyzer.ts:71-84 | succeeds iff every named audit does; the keys are exactly the names; otherwise the first failure's reason |
| ReportAnalyzer.GetScores | src/lighthouse-report-analyzer.ts:49-54 | succeeds iff performance and all six audits exist; holds the performance score and exactly the six audits |
| ReportAnalyzer.NewReport | src/lighthouse-report-analyzer.ts:29-34 | construction succeeds iff the scores can be read, and keeps the report and its scores |
| ReportAnalyzer.GetSummarizedScores | src/lighthouse-report-analyzer.ts:60-69 | keys are `performance` plus the audits; each audit maps to its score; performance to the category score |
| ReportAnalyzer.SummarizedScores | src/lighthouse-report-analyzer.ts:16-23 | a summarized report has exactly seven keys, `performance` and the six fixed audits, holding the performance score (0 when null) and each audit's floored value |
| ReportAnalyzer.PerformanceNotAudit | src/lighthouse-report-analyzer.ts:16-23 | `performance` is not one of the six audit names |
| Summary.AllOk | src/summary.ts:10-19 | all results succeed iff each does; the values in order; otherwise the first failure |
| Summary.GetAllReportsSpec | src/summary.ts:10-19 | reading succeeds iff every file yields an analyzer; then one analyzer per file in order, otherwise the first rejected file's reason |
| Summary.GetSiteMetrics | src/summary.ts:21-29 | one entry per report, in order, with its url and form factor |
| Summary.SiteMetricsOfFiles | src/summary.ts:21-29 | each entry has the file's url and form factor and exactly seven scores, performance 0 when null |
| Summary.Aggregate | src/summary.ts:54-59 | each current audit becomes previous-or-0 plus current; audits absent from current are unchanged |
| Summary.AddScoreSlot | src/summary.ts:31-52 | adding a score aggregates into its (url, formFactor) slot or creates it; every other slot is unchanged |
| Summary.RsSlot | src/summary.ts:31-52 | the slot for (url, formFactor) exists iff some input has that pair, and holds each audit's sum over those inputs |
| Summary.RsUrls | src/summary.ts:31-52 | the grouped urls are the distinct input urls in first-seen order |
| Summary.RsUnique | src/summary.ts:31-52 | one group per url, and a url is grouped iff some input has it |
| Summary.Round2Error | src/summary.ts:72-77 | rounding to two decimals moves a value by at most half a hundredth |
| Summary.Round2Hundredths | src/summary.ts:72-77 | a whole number of hundredths is unchanged by rounding |
| Summary.Round2Negate | src/summary.ts:72-77 | rounding is symmetric about zero (half away from zero) |
| Summary.AverageMap | src/summary.ts:72-77 | dividing and rounding keeps every key |
| Summary.AverageMapError | src/summary.ts:72-77 | each averaged value is within half a hundredth of value divided by `averageBy` |
| Summary.AverageScores | src/summary.ts:61-70 | averaging keeps the groups' urls in order |
| Summary.AverageSlotOf | src/summary.ts:61-70 | every slot is averaged and no slot appears or disappears |
| Summary.AverageByOne | src/summary.ts:111 | averaging by 1 leaves two-decimal values unchanged |
| Summary.Transform | src/summary.ts:79-98 | one record per group, in order, with the group's url |
| Summary.TransformLookup | src/summary.ts:79-98 | a url's record has the desktop and mobile slots, a missing slot as an empty record |
| Summary.SaveScores | src/summary.ts:100-104 | saving keeps one record per url |
| Summary.SaveScoresFind | src/summary.ts:100-104 | a url already stored keeps its record; another url gets its first saved record, if any |
| Summary.Summarize | src/summary.ts:108-115 | the script succeeds iff every report file is accepted, and keeps one record per url |
| Summary.SaveSummary | src/summary.ts:108-115 | saving grouped, averaged records keeps one record per url |
| Summary.SummarizedFind | src/summary.ts:108-115 | a url has a record iff some report is for it, holding the rounded per-form-factor sums |
| Summary.SummarizeFind | src/summary.ts:108-115 | end to end: a new url gets its reports' rounded per-form-factor sums, a stored url is left alone, any other url stays absent |
| LegacyBatch.SiteList | index.js:173-187 | an unreadable file aborts; otherwise the trimmed file's lines come first and the command-line sites follow unchanged |
| LegacyBatch.AddScheme | index.js:195-198 | the result starts with `http:` or `https:`; one that already does is unchanged; otherwise at most `https://` is prepended |
| LegacyBatch.Normalize | index.js:192-199 | the result has a scheme and ends with the trimmed url, at most 8 characters longer |
| LegacyBatch.NormalizeIdempotent | index.js:192-199 | a trimmed url with a scheme is unchanged, and normalising twice equals normalising once |
| LegacyBatch.NormalizeBare | index.js:195-198 | a `//` url gets `https:`; any other url without a scheme gets `https://` |
| LegacyBatch.StripScheme | index.js:271 | the result is a suffix of the url |
| LegacyBatch.SiteName | index.js:270-272 | length kept after the scheme; none of `/ ? # : * $ @ ! .` is left, each replaced by `_` |
| LegacyBatch.CandidateInjective | index.js:207-210 | the `_j` candidates of one name are pairwise distinct |
| LegacyBatch.FreeIndex | index.js:205-211 | the search stops at the first free candidate at or after its start |
| LegacyBatch.UniqueName | index.js:202-212 | the chosen name is not taken |
| LegacyBatch.UniqueNameFirstFree | index.js:202-212 | a free name is kept; otherwise the first free `_j` variant is chosen |
| LegacyBatch.ConstructorRenamed | index.js:202-207 | a site named `constructor` becomes `constructor_1`, as the inherited key counts as taken |
| LegacyBatch.Info | index.js:214-218 | the site object keeps the url, takes an untaken name and names its file `name.report.json` |
| LegacyBatch.InfoFrom | index.js:192-222 | one site per url, in order; names pairwise distinct and untaken; each file is name plus extension |
| LegacyBatch.InfoFromName | index.js:202-212 | each site's name is the first free variant given the names of the sites before it |
| LegacyBatch.NormalizeAll | index.js:192-199 | each url is normalised, in order |
| LegacyBatch.SitesInfo | index.js:170-223 | aborts iff the file is unreadable; otherwise every url has a scheme, names are pairwise distinct and avoid inherited keys, and files are name plus extension |
| LegacyBatch.Detail | index.js:324-328 | the keys are exactly the categories' nonempty ids; each maps to the score of its last category |
| LegacyBatch.AverageScore | index.js:315-333 | throws iff the report has neither category list |
| LegacyBatch.AverageScoreMean | index.js:315-333 | NaN iff there are no categories; otherwise within half a hundredth of the mean category score |
| LegacyBatch.UpdateSummary | index.js:288-304 | a failed audit gives score 0, the error text and no detail; a completed one gives the average and detail, or throws `reduce`'s TypeError (index.js:324) when the report has neither `categories` nor `reportCategories` |
| LegacyBatch.Select | index.js:342-387 | picks only listed, kept checks |
| LegacyBatch.SelectComplete | index.js:342-387 | every listed, kept check is picked |
| LegacyBatch.SelectOrdered | index.js:342-387 | picking keeps the fixed order of the checks |
| LegacyBatch.ViolatedSet | index.js:342-387 | a check is in the set iff its threshold is positive and above the score times 100 |
| LegacyBatch.ViolatedChecks | index.js:342-387 | only violated checks are listed |
| LegacyBatch.ViolatedChecksAll | index.js:342-387 | a check is violated iff it is listed, and the list is in the fixed order |
| LegacyBatch.ErrorsOf | index.js:342-387 | one message per listed check, in order |
| LegacyBatch.BudgetErrors | index.js:342-387 | a check is violated iff some message is about it |
| LegacyBatch.BudgetErrorsFields | index.js:342-387 | messages are in the fixed check order and carry the site's url, the threshold and the score times 100 |
| LegacyBatch.CheckBudgets | index.js:342-387 | the corrected check: undefined iff no check is violated, otherwise the nonempty list of messages; a summary without detail scores 0 on each category, where index.js:352 throws (see `CheckBudgetsAsWritten`) |
| LegacyBatch.FailedViolatesAll | index.js:291-295 | after a failed audit every enabled threshold is violated (a missing score counts as 0) |
| LegacyBatch.CheckedScoreAsWritten | index.js:351-384 | reading a category score throws iff the summary has no detail; otherwise the corrected score |
| LegacyBatch.ViolatedChecksAsWritten | index.js:342-387 | throws iff some enabled category check reads missing detail; otherwise the corrected list |
| LegacyBatch.CheckBudgetsAsWritten | index.js:342-387 | when it does not throw, it agrees with the corrected check |
| LegacyBatch.AsWrittenAgrees | index.js:342-387 | with detail present, the code as written and the corrected check agree |
| LegacyBatch.FailedAuditCrashes | index.js:351-356 | a failed audit with an accessibility threshold makes the code as written throw |
| LegacyBatch.ProcessSite | index.js:106-127 | a site that is processed keeps its site and has the corrected processing's summary; a budget check that throws rejects the site |
| LegacyBatch.ProcessSiteCorrected | index.js:106-127 | with the corrected budget check, a site's summary exists iff its update does, and keeps the site |
| LegacyBatch.ProcessSiteBudget | index.js:106-127 | a site is processed iff its summary is built and, after a failed audit, no category threshold is enabled; a corrected site's budget list is empty iff nothing is violated, and otherwise the check's messages |
| LegacyBatch.Processed | index.js:81-126 | one result per site, each keeping its site |
| LegacyBatch.FailedSiteReported | index.js:291-295 | with the corrected check, a site whose audit failed is kept and its budget list names every enabled threshold |
| LegacyBatch.ProcessedCorrected | index.js:81-126 | one corrected result per site, succeeding iff the site's summary is built |
| LegacyBatch.GatherAgrees | index.js:81-131 | result lists that agree wherever the first succeeds gather to the same run whenever the first gathers |
| LegacyBatch.ExecuteCorrectedAgrees | index.js:81-131 | a run that completes as written equals the corrected run, and so does every run without failed audits |
| LegacyBatch.ExecuteFailedAuditThrows | index.js:81-131 | without fail-fast, one failed audit with an enabled category threshold rejects the run as written, while the corrected run completes when every summary is built |
| LegacyBatch.GatherPrefix | index.js:81-131 | the kept summaries are a prefix of the results; all sites unless fail-fast hit a budget error; the messages are the kept summaries' budgets in order |
| LegacyBatch.GatherAll | index.js:81-131 | without fail-fast every site is kept |
| LegacyBatch.GatherAllOk | index.js:81-131 | without fail-fast the run completes iff every site's processing does |
| LegacyBatch.GatherFailFast | index.js:81-131 | with fail-fast only the last kept summary may have budget errors, and sites are dropped only after one that has |
| LegacyBatch.ExecuteSites | index.js:81-131 | the kept summaries belong to a prefix of the sites, in order; without fail-fast all of them |
| LegacyBatch.AllBudgetsEmpty | index.js:126 | no messages iff no summary has budget errors |
| LegacyBatch.ExitCode | index.js:142-149 | exit code 1 iff some budget message was gathered, 0 otherwise |
| LegacyBatch.Run | index.js:77-131 | an unreadable file aborts; the summaries carry urls with a scheme and pairwise distinct report files; the messages are their budgets |
| LegacyBatch.RunReports | index.js:81-131 | the kept summaries carry the sites' normalised urls and pairwise distinct report files |

## Left out

- **File system and process effects.** Reading files, writing the summary or report files, `mkdir`, `rm` and `process.exit` are left out. File contents are parameters, and the exit code is a value. index.js's sites file is an `Option<Result<string>>`, so a failed read aborts the run. The executors' reads (src/batch-executor.ts:60, 86 and src/batchExecutor.ts:52, 78) are assumed to succeed: their file contents are plain strings. In the code a failed read throws after the earlier upserts have been made.
- **JSON parsing.** A parsed report is a datatype with optional fields. The parser itself is not modelled.
- **The browser and the audit.** The audit is an oracle. In the controller, `outcome(i, k)` says whether trial `k` of the `i`-th site succeeds. In the legacy runner, `audit(i)` gives the i-th site's outcome. Chrome start and stop (src/chrome-runner.ts, chromeRunner.ts) are left out.
- **The lighthouse command line.** `lighthouseScript` (index.js:232-260), the command string and the `--no-report` file removal are left out.
- **SimplDB.** Timestamps and backup files are left out. Each collection is an in-memory sequence of records. simpl.db is not part of this model. Its `get` with a filter is assumed to return an array, so `BatchController.Retrieve` always gives `Many`, and the single-record branch of `BatchController.Snapshot` is reached only by a direct call.
- **Scheduling and UI.** The promise pool has width 1, so a sequential loop replaces it. Progress bars, logging and the SIGINT handler are left out.
- **CLI parsing and message brokers.** run.js, run.ts, src/commands/, siteConsumer.js, sitePublisher.js, index.ts and custom-config.js are not part of this model.
- **Thin duplicates.** The root batchController.ts and lighthouseRunner.ts, and src/lighthouseReportAnalyzer.ts, only read or log. They are not part of this model.
- **The A/B diff.** The `summarizedScores` and `diffResults` calls of src/batch-executor.ts:36-37 name functions that src/summary.ts does not define. They are left out.
- **HTML and CSV outputs in index.js.** `HTML_EXT` and `CSV_EXT` are never defined (index.js:63, 219), so those options are left out.
- **The purge of old reports.** The loop at index.js:60-72 is left out.
- **Budget message text.** A message is a record of its check, threshold, score and url, not the rendered string.
- **`errors.other`.** index.js:117-124 copies `summary.errors`, but a failed audit stores its text in `summary.error`, so `errors.other` is never set. The model keeps the error text in the summary's `error` field.
- **Floating point.** Numbers are exact reals. `toFixed(2)` followed by `Number` or `parseFloat` is `Summary.Round2`, rounding half away from zero. Binary representation error, and `toFixed`'s exponent form for magnitudes of 1e21 and above, are not modelled.
- **Summary.AverageScores:** requires a nonzero divisor. The script only divides by 1, and a 0 divisor would produce NaN or Infinity, which exact reals cannot represent.
- **LighthouseRunner.HostMatch:** the regex's first stage is modelled by its leftmost-first characterisation, proved in `LighthouseRunner.HostMatchFirst`, rather than by simulating backtracking. The replacement stage is modelled exactly.
- **SitesOnlyExecutor.ExecuteABBatch:** runs on the (url, formFactor) queue of src/site-tracker.ts, because the src/siteTracker.ts it imports is not part of this model. Its keying, the error-flag reset on re-enqueue and the one-record-per-identity invariant are that queue's.
- **SitesOnlyExecutor.ExecuteBatch:** the same substitution as `SitesOnlyExecutor.ExecuteABBatch`, for the plain batch command.
- **LegacyBatch.CheckBudgets:** is the corrected check. A summary without detail, left by a failed audit, scores 0 on each category, whereas index.js:352 throws a TypeError. The code as written is `LegacyBatch.CheckBudgetsAsWritten`, and the run (`ProcessSite`, `Execute`, `Run`) is built on it.
- **LegacyBatch.Processed:** computes every site's result up front, whereas the code skips the audit of sites after a fail-fast stop. The audit is a pure parameter, so the kept summaries are the same.

## Findings

| source | as written | input that shows it | evidently intended | confidence | as-written member | corrected member |
|---|---|---|---|---|---|---|
| index.js:351-384 with index.js:291-295 | `checkBudgets` reads `summary.detail.<category>`, but after a failed audit `updateSummary` sets only `score` and `error`. `detail` is undefined, so the read throws a TypeError and the whole run stops. | A site whose audit exits non-zero, with `--accessibility 50` | A failed audit counts as score 0 on every category, as it does on the average, so every enabled threshold reports a violation | not executed | LegacyBatch.ExecuteFailedAuditThrows | LegacyBatch.FailedSiteReported |

=== FILE: batch_controller.dfy ===
/** The run loop of src/batchController.ts. The controller takes a snapshot
    of the unfinished sites when it is built, then audits them one at a
    time (the promise pool has width 1), running `numberOfRuns` trials per
    site. Each trial builds a runner (which advances the run counter and
    fixes the report path), runs the audit and marks the site finished on
    success or errored on failure; a failure never stops the loop. After a
    site's trials the run counter is reset.

    The audit itself is an oracle: `outcome(i, k)` says whether trial `k`
    of the `i`-th site in the snapshot succeeds. Browser start and stop,
    progress bars and logging are left out. */
module BatchController {
  import opened SiteTracker
  import LighthouseRunner

  /** What `Sites.getStillUnprocessed()` hands back: an array, or a single
      record, which the constructor wraps. */
  datatype Retrieved = One(site: Site) | Many(sites: seq<Site>)

  datatype Controller = Controller(sitesToProcess: seq<Site>, numberOfRuns: nat, outputDir: string)

  /** One audit as it happened: the runner that made it (which fixes the
      site and the report file) and whether it succeeded. */
  datatype Trial = Trial(runner: LighthouseRunner.Runner, succeeded: bool)

  /** Everything the loop changes: the site queue, the runner's static
      fields, and the audits made so far, in order. */
  datatype World = World(store: Store, statics: LighthouseRunner.Statics, trials: seq<Trial>)

  /** `retrievedSites instanceof Array ? retrievedSites : [retrievedSites]` */
  function Snapshot(r: Retrieved): (s: seq<Site>)
    ensures r.One? ==> s == [r.site]
    ensures r.Many? ==> s == r.sites
  {
    match r
    case One(site) => [site]
    case Many(sites) => sites
  }

  /** The collection's `get` with a filter yields the matching records as
      an array. */
  function Retrieve(store: Store): Retrieved {
    Many(StillUnprocessed(store))
  }

  /** The constructor: the work list is the snapshot of unfinished records,
      each as often as it is stored. */
  function NewController(store: Store, numberOfRuns: nat, outputDir: string): (c: Controller)
    ensures forall x :: multiset(c.sitesToProcess)[x] == (if x.finished then 0 else multiset(store)[x])
    ensures forall i :: 0 <= i < |c.sitesToProcess| ==> !c.sitesToProcess[i].finished
    ensures c.numberOfRuns == numberOfRuns && c.outputDir == outputDir
  {
    Controller(Snapshot(Retrieve(store)), numberOfRuns, outputDir)
  }

  /** `runLightHouse`: build a runner, audit, and mark the site finished on
      success or errored on failure. */
  function RunLighthouse(w: World, outputDir: string, site: Site, ok: bool): World {
    var c := LighthouseRunner.Construct(w.statics, outputDir, site.url, site.formFactor);
    var store := SetFlag(w.store, site.url, site.formFactor, OutcomeFlag(ok), true);
    World(store, c.statics, w.trials + [Trial(c.runner, ok)])
  }

  /** The flag an audit's outcome sets. */
  function OutcomeFlag(ok: bool): Flag {
    if ok then Finished else Errors
  }

  /** On success the queue update is `updateSiteAsFinished`, on failure
      `updateSiteAsErrorOccurred`. */
  lemma RunLighthouseMarks(w: World, outputDir: string, site: Site)
    ensures RunLighthouse(w, outputDir, site, true).store == MarkFinished(w.store, site.url, site.formFactor)
    ensures RunLighthouse(w, outputDir, site, false).store == MarkErrored(w.store, site.url, site.formFactor)
  {
  }

  /** One audit's effect on the queue: a record with the site's identity
      becomes finished on success and errored on failure; nothing else
      changes. */
  lemma RunLighthouseStore(w: World, outputDir: string, site: Site, ok: bool)
    ensures var r := RunLighthouse(w, outputDir, site, ok);
      && |r.store| == |w.store|
      && forall j :: 0 <= j < |w.store| ==>
           r.store[j] == Evolve(w.store[j], ok && Matches(w.store[j], site.url, site.formFactor),
                                !ok && Matches(w.store[j], site.url, site.formFactor))
  {
  }

  /** One audit's effect on the runner and the log: the counter advances,
      and the audit writes to the report path the runner derived from the
      site's name, form factor and the new counter. */
  lemma RunLighthouseLog(w: World, outputDir: string, site: Site, ok: bool)
    ensures var r := RunLighthouse(w, outputDir, site, ok);
      && r.statics.runId == w.statics.runId + 1
      && r.statics.outputDir == LighthouseRunner.DirAfter(w.statics.outputDir, outputDir)
      && r.trials == w.trials + [Trial(LighthouseRunner.Runner(site.url, site.formFactor, r.statics.outputDir, r.statics.runId), ok)]
  {
  }

  /** A record after some trials: finished if it was or `succ`, errored if
      it was or `fail`; its identity never changes. */
  function Evolve(rec: Site, succ: bool, fail: bool): Site {
    rec.(finished := rec.finished || succ, errors := rec.errors || fail)
  }

  /** The trial loop of `launchChromeAndRunLighthouse` for the `i`-th site,
      from trial `k` on. */
  function RunTrials(w: World, c: Controller, outcome: (nat, nat) -> bool, i: nat, site: Site, k: nat): World
    decreases c.numberOfRuns - k
  {
    if k >= c.numberOfRuns then w
    else RunTrials(RunLighthouse(w, c.outputDir, site, outcome(i, k)), c, outcome, i, site, k + 1)
  }

  /** `launchChromeAndRunLighthouse`: all trials, then `resetRunID`. */
  function LaunchAndRun(w: World, c: Controller, outcome: (nat, nat) -> bool, i: nat, site: Site): World {
    var after := RunTrials(w, c, outcome, i, site, 0);
    after.(statics := LighthouseRunner.ResetRunId(after.statics))
  }

  /** `processSites` from the `i`-th site of the snapshot on. */
  function ProcessFrom(w: World, c: Controller, outcome: (nat, nat) -> bool, i: nat): World
    decreases |c.sitesToProcess| - i
  {
    if i >= |c.sitesToProcess| then w
    else ProcessFrom(LaunchAndRun(w, c, outcome, i, c.sitesToProcess[i]), c, outcome, i + 1)
  }

  function ProcessSites(w: World, c: Controller, outcome: (nat, nat) -> bool): World {
    ProcessFrom(w, c, outcome, 0)
  }

  /** `processSites` as the source writes it: a loop over the sites with a
      loop over the trials inside. */
  method ProcessSitesLoop(w: World, c: Controller, outcome: (nat, nat) -> bool) returns (r: World)
    ensures r == ProcessSites(w, c, outcome)
  {
    r := w;
    var i := 0;
    while i < |c.sitesToProcess|
      invariant 0 <= i <= |c.sitesToProcess|
      invariant ProcessFrom(r, c, outcome, i) == ProcessSites(w, c, outcome)
      decreases |c.sitesToProcess| - i
    {
      var site := c.sitesToProcess[i];
      var cur := r;
      var k := 0;
      while k < c.numberOfRuns
        invariant 0 <= k <= c.numberOfRuns
        invariant RunTrials(cur, c, outcome, i, site, k) == RunTrials(r, c, outcome, i, site, 0)
        decreases c.numberOfRuns - k
      {
        cur := RunLighthouse(cur, c.outputDir, site, outcome(i, k));
        k := k + 1;
      }
      r := cur.(statics := LighthouseRunner.ResetRunId(cur.statics));
      i := i + 1;
    }
  }

  // ---- Status of each record after the run ----

  /** Some trial of the `i`-th site from trial `from` on has outcome `ok`. */
  predicate SomeTrial(outcome: (nat, nat) -> bool, i: nat, from: nat, n: nat, ok: bool) {
    exists k: nat :: from <= k < n && outcome(i, k) == ok
  }

  lemma SomeTrialStep(outcome: (nat, nat) -> bool, i: nat, k: nat, n: nat, ok: bool)
    requires k < n
    ensures SomeTrial(outcome, i, k, n, ok) <==> outcome(i, k) == ok || SomeTrial(outcome, i, k + 1, n, ok)
  {
    if SomeTrial(outcome, i, k, n, ok) && outcome(i, k) != ok {
      var m: nat :| k <= m < n && outcome(i, m) == ok;
      assert k + 1 <= m;
    }
    if SomeTrial(outcome, i, k + 1, n, ok) {
      var m: nat :| k + 1 <= m < n && outcome(i, m) == ok;
      assert k <= m;
    }
  }

  /** Some site of the snapshot from position `from` on has identity
      (`url`, `ff`) and a trial with outcome `ok`. */
  predicate SomeSiteTrial(c: Controller, outcome: (nat, nat) -> bool, from: nat, url: string, ff: FormFactor, ok: bool) {
    exists i: nat :: from <= i < |c.sitesToProcess| && SiteTrialAt(c, outcome, i, url, ff, ok)
  }

  predicate SiteTrialAt(c: Controller, outcome: (nat, nat) -> bool, i: nat, url: string, ff: FormFactor, ok: bool)
    requires i < |c.sitesToProcess|
  {
    c.sitesToProcess[i].url == url && c.sitesToProcess[i].formFactor == ff && SomeTrial(outcome, i, 0, c.numberOfRuns, ok)
  }

  lemma SomeSiteTrialStep(c: Controller, outcome: (nat, nat) -> bool, from: nat, url: string, ff: FormFactor, ok: bool)
    requires from < |c.sitesToProcess|
    ensures SomeSiteTrial(c, outcome, from, url, ff, ok)
        <==> SiteTrialAt(c, outcome, from, url, ff, ok) || SomeSiteTrial(c, outcome, from + 1, url, ff, ok)
  {
    if SomeSiteTrial(c, outcome, from, url, ff, ok) && !SiteTrialAt(c, outcome, from, url, ff, ok) {
      var m: nat :| from <= m < |c.sitesToProcess| && SiteTrialAt(c, outcome, m, url, ff, ok);
      assert from + 1 <= m;
    }
    if SomeSiteTrial(c, outcome, from + 1, url, ff, ok) {
      var m: nat :| from + 1 <= m < |c.sitesToProcess| && SiteTrialAt(c, outcome, m, url, ff, ok);
      assert from <= m;
    }
  }

  /** The trials of one site: a record with that identity becomes finished
      if some trial succeeds and errored if some trial fails; every other
      record, and every record's identity, stays as it was. */
  lemma {:induction false} RunTrialsStatus(w: World, c: Controller, outcome: (nat, nat) -> bool, i: nat, site: Site, k: nat)
    ensures var r := RunTrials(w, c, outcome, i, site, k);
      && |r.store| == |w.store|
      && forall j :: 0 <= j < |w.store| ==>
           r.store[j] == Evolve(w.store[j],
                                Matches(w.store[j], site.url, site.formFactor) && SomeTrial(outcome, i, k, c.numberOfRuns, true),
                                Matches(w.store[j], site.url, site.formFactor) && SomeTrial(outcome, i, k, c.numberOfRuns, false))
    decreases c.numberOfRuns - k
  {
    if k < c.numberOfRuns {
      var w1 := RunLighthouse(w, c.outputDir, site, outcome(i, k));
      RunLighthouseStore(w, c.outputDir, site, outcome(i, k));
      RunTrialsStatus(w1, c, outcome, i, site, k + 1);
      SomeTrialStep(outcome, i, k, c.numberOfRuns, true);
      SomeTrialStep(outcome, i, k, c.numberOfRuns, false);
    }
  }

  /** Where a record stands after the sites from `from` on. */
  function StatusFrom(c: Controller, outcome: (nat, nat) -> bool, from: nat, rec: Site): Site {
    Evolve(rec, SomeSiteTrial(c, outcome, from, rec.url, rec.formFactor, true),
           SomeSiteTrial(c, outcome, from, rec.url, rec.formFactor, false))
  }

  /** One site's trials followed by the rest of the run, for one record. */
  lemma StatusStep(c: Controller, outcome: (nat, nat) -> bool, from: nat, a: Site, b: Site, d: Site)
    requires from < |c.sitesToProcess|
    requires b == Evolve(a, SiteTrialAt(c, outcome, from, a.url, a.formFactor, true),
                         SiteTrialAt(c, outcome, from, a.url, a.formFactor, false))
    requires d == StatusFrom(c, outcome, from + 1, b)
    ensures d == StatusFrom(c, outcome, from, a)
  {
    SomeSiteTrialStep(c, outcome, from, a.url, a.formFactor, true);
    SomeSiteTrialStep(c, outcome, from, a.url, a.formFactor, false);
  }

  /** The whole run from the `from`-th site on: a record ends finished iff
      it was, or some site with its identity had a successful trial; it
      ends errored iff it was, or such a site had a failed trial. */
  lemma {:induction false} ProcessFromStatus(w: World, c: Controller, outcome: (nat, nat) -> bool, from: nat)
    ensures var r := ProcessFrom(w, c, outcome, from);
      && |r.store| == |w.store|
      && forall j :: 0 <= j < |w.store| ==> r.store[j] == StatusFrom(c, outcome, from, w.store[j])
    decreases |c.sitesToProcess| - from
  {
    if from < |c.sitesToProcess| {
      var site := c.sitesToProcess[from];
      var w1 := LaunchAndRun(w, c, outcome, from, site);
      var r := ProcessFrom(w1, c, outcome, from + 1);
      RunTrialsStatus(w, c, outcome, from, site, 0);
      ProcessFromStatus(w1, c, outcome, from + 1);
      assert ProcessFrom(w, c, outcome, from) == r;
      forall j | 0 <= j < |w.store|
        ensures r.store[j] == StatusFrom(c, outcome, from, w.store[j])
      {
        StatusStep(c, outcome, from, w.store[j], w1.store[j], r.store[j]);
      }
    }
  }

  /** A site built from an unfinished record ends finished iff one of its
      trials succeeded; errors are never cleared by the run. */
  lemma RunStatus(store: Store, c: Controller, statics: LighthouseRunner.Statics, outcome: (nat, nat) -> bool)
    ensures var r := ProcessSites(World(store, statics, []), c, outcome).store;
      && |r| == |store|
      && Keys(r) == Keys(store)
      && forall j :: 0 <= j < |store| ==>
           && (r[j].finished <==> store[j].finished || SomeSiteTrial(c, outcome, 0, store[j].url, store[j].formFactor, true))
           && (r[j].errors <==> store[j].errors || SomeSiteTrial(c, outcome, 0, store[j].url, store[j].formFactor, false))
           && (store[j].errors ==> r[j].errors)
  {
    var r := ProcessSites(World(store, statics, []), c, outcome).store;
    ProcessFromStatus(World(store, statics, []), c, outcome, 0);
    forall k | k in Keys(r) ensures k in Keys(store) {
      var j :| 0 <= j < |r| && k == (r[j].url, r[j].formFactor);
      assert k == (store[j].url, store[j].formFactor);
    }
    forall k | k in Keys(store) ensures k in Keys(r) {
      var j :| 0 <= j < |store| && k == (store[j].url, store[j].formFactor);
      assert k == (r[j].url, r[j].formFactor);
    }
  }

  /** With the queue's invariant, a record that was already finished when
      the controller was built is not in the snapshot under any alias, so
      the run leaves it exactly as it was. */
  lemma FinishedUntouched(store: Store, numberOfRuns: nat, outputDir: string, statics: LighthouseRunner.Statics,
                          outcome: (nat, nat) -> bool)
    requires UniqueKeys(store)
    ensures var c := NewController(store, numberOfRuns, outputDir);
      var r := ProcessSites(World(store, statics, []), c, outcome).store;
      |r| == |store| && forall j :: 0 <= j < |store| && store[j].finished ==> r[j] == store[j]
  {
    var c := NewController(store, numberOfRuns, outputDir);
    ProcessFromStatus(World(store, statics, []), c, outcome, 0);
    forall j | 0 <= j < |store| && store[j].finished
      ensures StatusFrom(c, outcome, 0, store[j]) == store[j]
    {
      forall ok: bool ensures !SomeSiteTrial(c, outcome, 0, store[j].url, store[j].formFactor, ok) {
        forall i: nat | i < |c.sitesToProcess|
          ensures !SiteTrialAt(c, outcome, i, store[j].url, store[j].formFactor, ok)
        {
          NotQueued(store, numberOfRuns, outputDir, j, i);
        }
      }
    }
  }

  /** With unique keys, a finished record shares its identity with no site
      of the snapshot. */
  lemma NotQueued(store: Store, numberOfRuns: nat, outputDir: string, j: nat, i: nat)
    requires UniqueKeys(store) && j < |store| && store[j].finished
    requires i < |NewController(store, numberOfRuns, outputDir).sitesToProcess|
    ensures var site := NewController(store, numberOfRuns, outputDir).sitesToProcess[i];
      !Matches(store[j], site.url, site.formFactor)
  {
    var sites := NewController(store, numberOfRuns, outputDir).sitesToProcess;
    assert multiset(sites)[sites[i]] > 0;
    assert sites[i] in store;
    var m :| 0 <= m < |store| && store[m] == sites[i];
    assert !sites[i].finished;
  }

  // ---- The audits made, in order ----

  /** The audit trial `k` of the `i`-th site makes, when the counter stood
      at `base` before the site's first trial. */
  function ExpectedTrial(c: Controller, outcome: (nat, nat) -> bool, dir: string, base: nat, i: nat, k: nat): Trial
    requires i < |c.sitesToProcess|
  {
    var site := c.sitesToProcess[i];
    Trial(LighthouseRunner.Runner(site.url, site.formFactor, dir, base + k + 1), outcome(i, k))
  }

  /** The audits of the `i`-th site from trial `k` on: one per trial, in
      trial order, with consecutive run ids after `base`. */
  function SiteLog(c: Controller, outcome: (nat, nat) -> bool, dir: string, base: nat, i: nat, k: nat): (r: seq<Trial>)
    requires i < |c.sitesToProcess|
    ensures |r| == if k <= c.numberOfRuns then c.numberOfRuns - k else 0
    decreases c.numberOfRuns - k
  {
    if k >= c.numberOfRuns then []
    else [ExpectedTrial(c, outcome, dir, base, i, k)] + SiteLog(c, outcome, dir, base, i, k + 1)
  }

  /** The `t`-th entry of a site's audits from trial `k` on is trial `k + t`. */
  lemma {:induction false} SiteLogAt(c: Controller, outcome: (nat, nat) -> bool, dir: string, base: nat, i: nat, k: nat, t: nat)
    requires i < |c.sitesToProcess| && k + t < c.numberOfRuns
    ensures SiteLog(c, outcome, dir, base, i, k)[t] == ExpectedTrial(c, outcome, dir, base, i, k + t)
    decreases t
  {
    if t > 0 {
      SiteLogAt(c, outcome, dir, base, i, k + 1, t - 1);
    }
  }

  /** The audits of the sites from `from` on, in snapshot order: the first
      continues from `base`, every later one starts again from 0. */
  function SitesLog(c: Controller, outcome: (nat, nat) -> bool, dir: string, base: nat, from: nat): seq<Trial>
    requires from <= |c.sitesToProcess|
    decreases |c.sitesToProcess| - from
  {
    if from == |c.sitesToProcess| then []
    else SiteLog(c, outcome, dir, base, from, 0) + SitesLog(c, outcome, dir, 0, from + 1)
  }

  /** The trials of one site, from trial `k` on, leave the counter at
      `base + numberOfRuns` and the directory at `dir`. */
  lemma {:induction false} RunTrialsStatics(w: World, c: Controller, outcome: (nat, nat) -> bool, i: nat, site: Site, k: nat, base: nat, dir: string)
    requires k <= c.numberOfRuns
    requires w.statics.runId == base + k
    requires LighthouseRunner.DirAfter(w.statics.outputDir, c.outputDir) == dir
    requires k > 0 ==> w.statics.outputDir == dir
    ensures var r := RunTrials(w, c, outcome, i, site, k);
      && r.statics.runId == base + c.numberOfRuns
      && (k < c.numberOfRuns ==> r.statics.outputDir == dir)
      && (k == c.numberOfRuns ==> r.statics == w.statics)
    decreases c.numberOfRuns - k
  {
    if k < c.numberOfRuns {
      var w1 := RunLighthouse(w, c.outputDir, site, outcome(i, k));
      RunLighthouseLog(w, c.outputDir, site, outcome(i, k));
      RunTrialsStatics(w1, c, outcome, i, site, k + 1, base, dir);
    }
  }

  /** The trials of one site, from trial `k` on, append that site's audits
      from `k` on. */
  lemma {:induction false} RunTrialsLog(w: World, c: Controller, outcome: (nat, nat) -> bool, i: nat, k: nat, base: nat, dir: string)
    requires i < |c.sitesToProcess| && k <= c.numberOfRuns
    requires w.statics.runId == base + k
    requires LighthouseRunner.DirAfter(w.statics.outputDir, c.outputDir) == dir
    requires k > 0 ==> w.statics.outputDir == dir
    ensures RunTrials(w, c, outcome, i, c.sitesToProcess[i], k).trials == w.trials + SiteLog(c, outcome, dir, base, i, k)
    decreases c.numberOfRuns - k
  {
    if k < c.numberOfRuns {
      var site := c.sitesToProcess[i];
      var w1 := RunLighthouse(w, c.outputDir, site, outcome(i, k));
      var e := ExpectedTrial(c, outcome, dir, base, i, k);
      assert w1.statics == LighthouseRunner.Statics(dir, base + k + 1) && w1.trials == w.trials + [e] by {
        RunLighthouseLog(w, c.outputDir, site, outcome(i, k));
      }
      RunTrialsLog(w1, c, outcome, i, k + 1, base, dir);
      assert w.trials + [e] + SiteLog(c, outcome, dir, base, i, k + 1) == w.trials + SiteLog(c, outcome, dir, base, i, k);
    }
  }

  /** One site's trials and the reset after them: the site's audits are
      appended, the counter is back at 0 and the directory is `dir` (or
      unchanged, with no trials). */
  lemma LaunchAndRunLog(w: World, c: Controller, outcome: (nat, nat) -> bool, i: nat, dir: string)
    requires i < |c.sitesToProcess|
    requires LighthouseRunner.DirAfter(w.statics.outputDir, c.outputDir) == dir
    ensures var r := LaunchAndRun(w, c, outcome, i, c.sitesToProcess[i]);
      && r.trials == w.trials + SiteLog(c, outcome, dir, w.statics.runId, i, 0)
      && r.statics.runId == 0
      && (c.numberOfRuns > 0 ==> r.statics.outputDir == dir)
      && (c.numberOfRuns == 0 ==> r.statics.outputDir == w.statics.outputDir)
  {
    var site := c.sitesToProcess[i];
    RunTrialsLog(w, c, outcome, i, 0, w.statics.runId, dir);
    RunTrialsStatics(w, c, outcome, i, site, 0, w.statics.runId, dir);
  }

  /** The sites from `from` on append their audits in snapshot order. */
  lemma {:induction false} ProcessFromLog(w: World, c: Controller, outcome: (nat, nat) -> bool, from: nat, dir: string)
    requires from <= |c.sitesToProcess|
    requires LighthouseRunner.DirAfter(w.statics.outputDir, c.outputDir) == dir
    requires from > 0 && c.numberOfRuns > 0 ==> w.statics.outputDir == dir
    ensures ProcessFrom(w, c, outcome, from).trials == w.trials + SitesLog(c, outcome, dir, w.statics.runId, from)
    decreases |c.sitesToProcess| - from
  {
    if from < |c.sitesToProcess| {
      var head := SiteLog(c, outcome, dir, w.statics.runId, from, 0);
      var w1 := LaunchAndRun(w, c, outcome, from, c.sitesToProcess[from]);
      LaunchAndRunLog(w, c, outcome, from, dir);
      ProcessFromLog(w1, c, outcome, from + 1, dir);
      assert w.trials + head + SitesLog(c, outcome, dir, 0, from + 1) == w.trials + SitesLog(c, outcome, dir, w.statics.runId, from);
    }
  }

  /** The audits of a whole run, in a fresh process (counter 0): every site
      in snapshot order, `numberOfRuns` trials each, writing reports with
      ids 1 to `numberOfRuns`. */
  lemma RunLog(store: Store, c: Controller, dir: string, outcome: (nat, nat) -> bool)
    ensures ProcessSites(World(store, LighthouseRunner.Statics(dir, 0), []), c, outcome).trials
         == SitesLog(c, outcome, LighthouseRunner.DirAfter(dir, c.outputDir), 0, 0)
  {
    var d := LighthouseRunner.DirAfter(dir, c.outputDir);
    ProcessFromLog(World(store, LighthouseRunner.Statics(dir, 0), []), c, outcome, 0, d);
  }

  /** Where the `i`-th site's audits sit in the log of the sites from
      `from` on, when every site starts from id 0. */
  lemma {:induction false} SitesLogBlock(c: Controller, outcome: (nat, nat) -> bool, dir: string, from: nat, i: nat)
    requires from <= i < |c.sitesToProcess|
    ensures var log := SitesLog(c, outcome, dir, 0, from);
      && (i - from + 1) * c.numberOfRuns <= |log|
      && log[(i - from) * c.numberOfRuns..(i - from + 1) * c.numberOfRuns] == SiteLog(c, outcome, dir, 0, i, 0)
    decreases |c.sitesToProcess| - from
  {
    var n := c.numberOfRuns;
    var head := SiteLog(c, outcome, dir, 0, from, 0);
    var tail := SitesLog(c, outcome, dir, 0, from + 1);
    assert SitesLog(c, outcome, dir, 0, from) == head + tail;
    if i == from {
      MulStep(0, n);
      assert (head + tail)[0..n] == head;
    } else {
      SitesLogBlock(c, outcome, dir, from + 1, i);
      var a := i - (from + 1);
      MulStep(a, n);
      MulStep(a + 1, n);
      SliceAfter(head, tail, a * n, (a + 1) * n);
    }
  }

  lemma MulStep(a: nat, n: nat)
    ensures (a + 1) * n == n + a * n && a * n <= (a + 1) * n
  {
  }

  lemma SliceAfter<T>(head: seq<T>, tail: seq<T>, x: nat, y: nat)
    requires x <= y <= |tail|
    ensures (head + tail)[|head| + x..|head| + y] == tail[x..y]
  {
  }

  lemma MulLe(a: nat, b: nat, n: nat)
    requires a <= b
    ensures a * n <= b * n
  {
  }

  lemma BlockAt<T>(log: seq<T>, x: nat, y: nat, k: nat)
    requires x <= y <= |log| && k < y - x
    ensures x + k < |log| && log[x + k] == log[x..y][k]
  {
  }

  /** In the log of a run where every site starts from id 0, the `k`-th
      audit of the `i`-th site sits at `i * numberOfRuns + k`. */
  lemma LogAt(c: Controller, outcome: (nat, nat) -> bool, dir: string, i: nat, k: nat)
    requires i < |c.sitesToProcess| && k < c.numberOfRuns
    ensures var log := SitesLog(c, outcome, dir, 0, 0);
      && i * c.numberOfRuns + k < |log|
      && log[i * c.numberOfRuns + k] == ExpectedTrial(c, outcome, dir, 0, i, k)
  {
    var n := c.numberOfRuns;
    var log := SitesLog(c, outcome, dir, 0, 0);
    SitesLogBlock(c, outcome, dir, 0, i);
    MulStep(i, n);
    BlockAt(log, i * n, (i + 1) * n, k);
    SiteLogAt(c, outcome, dir, 0, i, 0, k);
  }

  /** Two sites of the snapshot whose names and form factors agree write
      their k-th reports to the same file: in a fresh process the counter
      restarts for every site, so the later audit overwrites the earlier
      one's report. */
  lemma ReportsCollide(store: Store, c: Controller, dir: string, outcome: (nat, nat) -> bool, i1: nat, i2: nat, k: nat)
    requires i1 < i2 < |c.sitesToProcess| && k < c.numberOfRuns
    requires LighthouseRunner.SiteName(c.sitesToProcess[i1].url) == LighthouseRunner.SiteName(c.sitesToProcess[i2].url)
    requires c.sitesToProcess[i1].formFactor == c.sitesToProcess[i2].formFactor
    ensures var log := ProcessSites(World(store, LighthouseRunner.Statics(dir, 0), []), c, outcome).trials;
      && i1 * c.numberOfRuns + k < i2 * c.numberOfRuns + k < |log|
      && LighthouseRunner.FullPath(log[i1 * c.numberOfRuns + k].runner) == LighthouseRunner.FullPath(log[i2 * c.numberOfRuns + k].runner)
  {
    var d := LighthouseRunner.DirAfter(dir, c.outputDir);
    RunLog(store, c, dir, outcome);
    LogAt(c, outcome, d, i1, k);
    LogAt(c, outcome, d, i2, k);
    MulStep(i1, c.numberOfRuns);
    MulLe(i1 + 1, i2, c.numberOfRuns);
  }
}

=== FILE: batch_executor.dfy ===
/** The enqueue phase of src/batch-executor.ts: how the `batch` and `abBatch`
    commands turn their options into upserts on the site queue before the
    controller runs. Files are given by their contents (reading them is I/O);
    each is read as `content.trim().split('\n')`. */
module BatchExecutor {
  import opened Wrappers
  import opened Text
  import opened SiteTracker
  import SiteMetrics

  /** `'desktop' | 'mobile' | 'both'` of the A/B command. */
  datatype FormFactorChoice = Both | Only(ff: FormFactor)

  datatype ABOptions = ABOptions(
    baselineURL: string,
    comparisonURL: string,
    pathsFile: Option<string>,
    formFactor: FormFactorChoice,
    clean: bool)

  datatype BatchOptions = BatchOptions(
    sites: Option<seq<string>>,
    file: Option<string>,
    formFactor: FormFactor,
    clean: bool)

  /** The two collections the executor touches. */
  datatype Collections = Collections(sites: Store, metrics: SiteMetrics.Store)

  /** Every item the enqueue helpers build: not finished, no errors. */
  function NewItem(url: string, ff: FormFactor): Site {
    Site(url, ff, false, false)
  }

  /** What an enqueue phase does to the queue: exactly the identities `keys`
      are added; old records keep their place, identity and `finished` flag
      and lose their error flag only when re-enqueued; records added are
      unfinished and error-free, and each has an identity no earlier record
      has, so the one-record-per-identity invariant is kept. */
  predicate Enqueued(before: Store, after: Store, keys: set<(string, FormFactor)>) {
    && Keys(after) == Keys(before) + keys
    && |before| <= |after|
    && (forall i :: 0 <= i < |before| ==>
          after[i] == (if (before[i].url, before[i].formFactor) in keys
                       then before[i].(errors := false) else before[i]))
    && (forall j :: |before| <= j < |after| ==> !after[j].finished && !after[j].errors)
    && (forall i, j :: 0 <= i < j < |after| && |before| <= j ==>
          after[i].url != after[j].url || after[i].formFactor != after[j].formFactor)
  }

  lemma EnqueuedKeepsUnique(before: Store, after: Store, keys: set<(string, FormFactor)>)
    requires Enqueued(before, after, keys)
    ensures UniqueKeys(before) ==> UniqueKeys(after)
  {
    if UniqueKeys(before) {
      forall i, j | 0 <= i < j < |after|
        ensures after[i].url != after[j].url || after[i].formFactor != after[j].formFactor
      {
        if j < |before| {
          assert after[i].url == before[i].url && after[i].formFactor == before[i].formFactor;
          assert after[j].url == before[j].url && after[j].formFactor == before[j].formFactor;
        }
      }
    }
  }

  lemma EnqueuedNothing(store: Store)
    ensures Enqueued(store, store, {})
  {
  }

  lemma EnqueuedOne(store: Store, url: string, ff: FormFactor)
    ensures Enqueued(store, CreateOrUpdate(store, NewItem(url, ff)), {(url, ff)})
  {
  }

  lemma EnqueuedCompose(a: Store, b: Store, c: Store, k1: set<(string, FormFactor)>, k2: set<(string, FormFactor)>)
    requires Enqueued(a, b, k1) && Enqueued(b, c, k2)
    ensures Enqueued(a, c, k1 + k2)
  {
    forall i | 0 <= i < |a|
      ensures c[i] == (if (a[i].url, a[i].formFactor) in k1 + k2 then a[i].(errors := false) else a[i])
    {
      assert b[i].url == a[i].url && b[i].formFactor == a[i].formFactor;
    }
    forall i | |a| <= i < |c| ensures !c[i].finished && !c[i].errors {
      if i < |b| {
        assert !b[i].finished && !b[i].errors;
      }
    }
  }

  /** The identities a list of urls yields at one form factor. */
  function UrlKeys(urls: seq<string>, ff: FormFactor): set<(string, FormFactor)> {
    set u | u in urls :: (u, ff)
  }

  /** The identities path expansion yields: `baselineURL + p` and
      `comparisonURL + p` for every path `p`. */
  function PathKeys(paths: seq<string>, baselineURL: string, comparisonURL: string, ff: FormFactor): set<(string, FormFactor)> {
    (set p | p in paths :: (baselineURL + p, ff)) + (set p | p in paths :: (comparisonURL + p, ff))
  }

  /** The urls of `urls` a queue holding `keys` does not hold at `ff`,
      each once, in the order of their first occurrence. */
  function NewUrls(keys: set<(string, FormFactor)>, urls: seq<string>, ff: FormFactor): seq<string>
    decreases |urls|
  {
    if urls == [] then []
    else if (urls[0], ff) in keys then NewUrls(keys, urls[1..], ff)
    else [urls[0]] + NewUrls(keys + {(urls[0], ff)}, urls[1..], ff)
  }

  /** The urls of the records past the old end of the queue, in order. */
  function AppendedUrls(before: Store, after: Store): (r: seq<string>)
    requires |before| <= |after|
    ensures |r| == |after| - |before|
  {
    seq(|after| - |before|, i requires 0 <= i < |after| - |before| => after[|before| + i].url)
  }

  /** `parseSitesArrayAndQueueDB`: one upsert per url, in order, each an
      unfinished, error-free item at the given form factor; the records it
      appends are the urls the queue did not hold, in first-occurrence
      order. */
  function ParseSitesArrayAndQueue(store: Store, sites: seq<string>, ff: FormFactor): (r: Store)
    ensures Enqueued(store, r, UrlKeys(sites, ff))
    ensures AppendedUrls(store, r) == NewUrls(Keys(store), sites, ff)
    decreases |sites|
  {
    if sites == [] then
      EnqueuedNothing(store);
      store
    else
      var s1 := CreateOrUpdate(store, NewItem(sites[0], ff));
      var r := ParseSitesArrayAndQueue(s1, sites[1..], ff);
      EnqueuedOne(store, sites[0], ff);
      EnqueuedCompose(store, s1, r, {(sites[0], ff)}, UrlKeys(sites[1..], ff));
      UrlKeysCons(sites, ff);
      EnqueuedUrls(s1, r, UrlKeys(sites[1..], ff));
      AppendedStep(store, s1, r, sites, ff);
      r
  }

  /** One upsert followed by the rest: the url is appended first exactly
      when the queue did not hold it. */
  lemma AppendedStep(store: Store, s1: Store, r: Store, sites: seq<string>, ff: FormFactor)
    requires sites != [] && s1 == CreateOrUpdate(store, NewItem(sites[0], ff))
    requires |s1| <= |r| && forall i :: 0 <= i < |s1| ==> r[i].url == s1[i].url
    requires AppendedUrls(s1, r) == NewUrls(Keys(s1), sites[1..], ff)
    ensures AppendedUrls(store, r) == NewUrls(Keys(store), sites, ff)
  {
    KeysMeansExists(store, sites[0], ff);
    if (sites[0], ff) in Keys(store) {
      AppendedHeld(store, s1, r, sites, ff);
    } else {
      AppendedFresh(store, s1, r, sites, ff);
    }
  }

  lemma EnqueuedUrls(before: Store, after: Store, keys: set<(string, FormFactor)>)
    requires Enqueued(before, after, keys)
    ensures |before| <= |after| && forall i :: 0 <= i < |before| ==> after[i].url == before[i].url
  {
  }

  lemma AppendedHeld(store: Store, s1: Store, r: Store, sites: seq<string>, ff: FormFactor)
    requires sites != [] && (sites[0], ff) in Keys(store)
    requires |s1| == |store| && Keys(s1) == Keys(store) && |s1| <= |r|
    requires AppendedUrls(s1, r) == NewUrls(Keys(s1), sites[1..], ff)
    ensures AppendedUrls(store, r) == NewUrls(Keys(store), sites, ff)
  {
  }

  lemma AppendedFresh(store: Store, s1: Store, r: Store, sites: seq<string>, ff: FormFactor)
    requires sites != [] && (sites[0], ff) !in Keys(store)
    requires s1 == store + [NewItem(sites[0], ff)] && Keys(s1) == Keys(store) + {(sites[0], ff)}
    requires |s1| <= |r| && r[|store|].url == s1[|store|].url
    requires AppendedUrls(s1, r) == NewUrls(Keys(s1), sites[1..], ff)
    ensures AppendedUrls(store, r) == NewUrls(Keys(store), sites, ff)
  {
    assert AppendedUrls(store, r) == [sites[0]] + AppendedUrls(s1, r);
  }

  lemma UrlKeysCons(urls: seq<string>, ff: FormFactor)
    requires urls != []
    ensures UrlKeys(urls, ff) == {(urls[0], ff)} + UrlKeys(urls[1..], ff)
  {
    assert forall u :: u in urls <==> u == urls[0] || u in urls[1..];
  }

  /** `parseSitesFileAndQueueDB`: one upsert per line of the trimmed file. */
  function ParseSitesFileAndQueue(store: Store, content: string, ff: FormFactor): (r: Store)
    ensures Enqueued(store, r, UrlKeys(Lines(content), ff))
    ensures AppendedUrls(store, r) == NewUrls(Keys(store), Lines(content), ff)
  {
    ParseSitesArrayAndQueue(store, Lines(content), ff)
  }

  function QueuePaths(store: Store, paths: seq<string>, baselineURL: string, comparisonURL: string, ff: FormFactor): (r: Store)
    ensures Enqueued(store, r, PathKeys(paths, baselineURL, comparisonURL, ff))
    decreases |paths|
  {
    if paths == [] then
      EnqueuedNothing(store);
      store
    else
      var s2 := UpsertPair(store, baselineURL + paths[0], comparisonURL + paths[0], ff);
      var r := QueuePaths(s2, paths[1..], baselineURL, comparisonURL, ff);
      QueuePathsStep(store, s2, r, paths, baselineURL, comparisonURL, ff);
      r
  }

  lemma QueuePathsStep(store: Store, s2: Store, r: Store, paths: seq<string>, baselineURL: string, comparisonURL: string, ff: FormFactor)
    requires paths != []
    requires Enqueued(store, s2, {(baselineURL + paths[0], ff), (comparisonURL + paths[0], ff)})
    requires Enqueued(s2, r, PathKeys(paths[1..], baselineURL, comparisonURL, ff))
    ensures Enqueued(store, r, PathKeys(paths, baselineURL, comparisonURL, ff))
  {
    var p := paths[0];
    var rest := PathKeys(paths[1..], baselineURL, comparisonURL, ff);
    EnqueuedCompose(store, s2, r, {(baselineURL + p, ff), (comparisonURL + p, ff)}, rest);
    PathKeysCons(paths, baselineURL, comparisonURL, ff);
  }

  lemma PathKeysCons(paths: seq<string>, baselineURL: string, comparisonURL: string, ff: FormFactor)
    requires paths != []
    ensures PathKeys(paths, baselineURL, comparisonURL, ff)
         == {(baselineURL + paths[0], ff), (comparisonURL + paths[0], ff)} + PathKeys(paths[1..], baselineURL, comparisonURL, ff)
  {
    assert forall q :: q in paths <==> q == paths[0] || q in paths[1..];
  }

  /** `parsePathsFileAndQueueDB`: for every line `p` of the paths file, the
      baseline and the comparison url with `p` appended, at one form factor. */
  function ParsePathsFileAndQueue(store: Store, content: string, baselineURL: string, comparisonURL: string, ff: FormFactor): (r: Store)
    ensures Enqueued(store, r, PathKeys(Lines(content), baselineURL, comparisonURL, ff))
  {
    QueuePaths(store, Lines(content), baselineURL, comparisonURL, ff)
  }

  /** Two upserts in a row, each of a new item. */
  function UpsertPair(store: Store, first: string, second: string, ff: FormFactor): (r: Store)
    ensures Enqueued(store, r, {(first, ff), (second, ff)})
  {
    var s1 := CreateOrUpdate(store, NewItem(first, ff));
    var s2 := CreateOrUpdate(s1, NewItem(second, ff));
    EnqueuedOne(store, first, ff);
    EnqueuedOne(s1, second, ff);
    EnqueuedPair(store, s1, s2, (first, ff), (second, ff));
    s2
  }

  lemma EnqueuedPair(a: Store, b: Store, c: Store, k1: (string, FormFactor), k2: (string, FormFactor))
    requires Enqueued(a, b, {k1}) && Enqueued(b, c, {k2})
    ensures Enqueued(a, c, {k1, k2})
  {
    EnqueuedCompose(a, b, c, {k1}, {k2});
    assert {k1} + {k2} == {k1, k2};
  }

  /** `addHomePagesToQueueDB`: both urls, unchanged, at one form factor. */
  function AddHomePagesToQueue(store: Store, baselineURL: string, comparisonURL: string, ff: FormFactor): (r: Store)
    ensures Enqueued(store, r, {(baselineURL, ff), (comparisonURL, ff)})
  {
    UpsertPair(store, baselineURL, comparisonURL, ff)
  }

  /** The identities the paths file yields at one form factor, if given. */
  function ABPathKeys(opts: ABOptions, ff: FormFactor): set<(string, FormFactor)> {
    match opts.pathsFile
    case Some(content) => PathKeys(Lines(content), opts.baselineURL, opts.comparisonURL, ff)
    case None => {}
  }

  function HomeKeys(opts: ABOptions, ff: FormFactor): set<(string, FormFactor)> {
    {(opts.baselineURL, ff), (opts.comparisonURL, ff)}
  }

  /** Everything the A/B command enqueues at one form factor. */
  function ABKeysAt(opts: ABOptions, ff: FormFactor): set<(string, FormFactor)> {
    HomeKeys(opts, ff) + ABPathKeys(opts, ff)
  }

  /** Everything the A/B command enqueues: at both form factors for `'both'`,
      otherwise at the chosen one only. */
  function ABKeys(opts: ABOptions): set<(string, FormFactor)> {
    match opts.formFactor
    case Both => ABKeysAt(opts, Desktop) + ABKeysAt(opts, Mobile)
    case Only(ff) => ABKeysAt(opts, ff)
  }

  /** The paths of the A/B command at one form factor, when a paths file is given. */
  function QueueABPaths(store: Store, opts: ABOptions, ff: FormFactor): (r: Store)
    ensures Enqueued(store, r, ABPathKeys(opts, ff))
  {
    match opts.pathsFile
    case Some(content) => ParsePathsFileAndQueue(store, content, opts.baselineURL, opts.comparisonURL, ff)
    case None =>
      EnqueuedNothing(store);
      store
  }

  /** The enqueue phase of `executeABBatch`: with `clean`, both collections
      are emptied first; then path expansion, then the two home pages, at
      each form factor the choice names. */
  function ExecuteABBatch(state: Collections, opts: ABOptions): (r: Collections)
    ensures r.metrics == (if opts.clean then [] else state.metrics)
    ensures Enqueued(if opts.clean then [] else state.sites, r.sites, ABKeys(opts))
  {
    var start := if opts.clean then Clean(state.sites) else state.sites;
    var metrics := if opts.clean then SiteMetrics.Clean(state.metrics) else state.metrics;
    var sites := ABEnqueue(start, opts);
    Collections(sites, metrics)
  }

  /** Lines 20-32 of the A/B command: the paths (desktop then mobile for
      `'both'`), then the home pages the same way. */
  function ABEnqueue(start: Store, opts: ABOptions): (r: Store)
    ensures Enqueued(start, r, ABKeys(opts))
  {
    if opts.formFactor.Both? then ABEnqueueBoth(start, opts) else ABEnqueueOne(start, opts)
  }

  function ABEnqueueBoth(start: Store, opts: ABOptions): (r: Store)
    requires opts.formFactor.Both?
    ensures Enqueued(start, r, ABKeys(opts))
  {
    var s2 := ABPathsBoth(start, opts);
    var s4 := ABHomesBoth(s2, opts);
    EnqueuedCompose(start, s2, s4, ABPathKeys(opts, Desktop) + ABPathKeys(opts, Mobile),
                    HomeKeys(opts, Desktop) + HomeKeys(opts, Mobile));
    ABKeysBoth(opts);
    s4
  }

  function ABEnqueueOne(start: Store, opts: ABOptions): (r: Store)
    requires opts.formFactor.Only?
    ensures Enqueued(start, r, ABKeys(opts))
  {
    var ff := opts.formFactor.ff;
    var s1 := QueueABPaths(start, opts, ff);
    var s2 := AddHomePagesToQueue(s1, opts.baselineURL, opts.comparisonURL, ff);
    EnqueuedCompose(start, s1, s2, ABPathKeys(opts, ff), HomeKeys(opts, ff));
    ABKeysOne(opts);
    s2
  }

  lemma ABKeysOne(opts: ABOptions)
    requires opts.formFactor.Only?
    ensures ABKeys(opts) == ABPathKeys(opts, opts.formFactor.ff) + HomeKeys(opts, opts.formFactor.ff)
  {
    var ff := opts.formFactor.ff;
    UnionSwap(HomeKeys(opts, ff), ABPathKeys(opts, ff));
  }

  lemma UnionSwap<T>(a: set<T>, b: set<T>)
    ensures a + b == b + a
  {
  }

  /** The paths at desktop, then at mobile. */
  function ABPathsBoth(start: Store, opts: ABOptions): (r: Store)
    ensures Enqueued(start, r, ABPathKeys(opts, Desktop) + ABPathKeys(opts, Mobile))
  {
    var s1 := QueueABPaths(start, opts, Desktop);
    var s2 := QueueABPaths(s1, opts, Mobile);
    EnqueuedCompose(start, s1, s2, ABPathKeys(opts, Desktop), ABPathKeys(opts, Mobile));
    s2
  }

  /** The home pages at desktop, then at mobile. */
  function ABHomesBoth(start: Store, opts: ABOptions): (r: Store)
    ensures Enqueued(start, r, HomeKeys(opts, Desktop) + HomeKeys(opts, Mobile))
  {
    var s1 := AddHomePagesToQueue(start, opts.baselineURL, opts.comparisonURL, Desktop);
    var s2 := AddHomePagesToQueue(s1, opts.baselineURL, opts.comparisonURL, Mobile);
    EnqueuedCompose(start, s1, s2, HomeKeys(opts, Desktop), HomeKeys(opts, Mobile));
    s2
  }

  lemma ABKeysBoth(opts: ABOptions)
    requires opts.formFactor.Both?
    ensures ABKeys(opts) == (ABPathKeys(opts, Desktop) + ABPathKeys(opts, Mobile))
                          + (HomeKeys(opts, Desktop) + HomeKeys(opts, Mobile))
  {
  }

  /** With `'both'`, every url the A/B command enqueues is enqueued at both
      form factors; with one form factor, no url at the other. */
  lemma ABFormFactors(opts: ABOptions, url: string)
    ensures opts.formFactor.Both? ==> ((url, Desktop) in ABKeys(opts) <==> (url, Mobile) in ABKeys(opts))
    ensures opts.formFactor == Only(Desktop) ==> (url, Mobile) !in ABKeys(opts)
    ensures opts.formFactor == Only(Mobile) ==> (url, Desktop) !in ABKeys(opts)
  {
    ABPathKeysFormFactor(opts, url);
    assert (url, Desktop) in ABKeysAt(opts, Desktop) <==> (url, Mobile) in ABKeysAt(opts, Mobile);
  }

  lemma ABPathKeysFormFactor(opts: ABOptions, url: string)
    ensures (url, Desktop) in ABPathKeys(opts, Desktop) <==> (url, Mobile) in ABPathKeys(opts, Mobile)
    ensures (url, Desktop) !in ABPathKeys(opts, Mobile) && (url, Mobile) !in ABPathKeys(opts, Desktop)
  {
    if opts.pathsFile.Some? {
      var ls := Lines(opts.pathsFile.value);
      PathKeysMember(ls, opts.baselineURL, opts.comparisonURL, Desktop, url);
      PathKeysMember(ls, opts.baselineURL, opts.comparisonURL, Mobile, url);
    }
  }

  /** Path expansion yields `url` exactly when `url` is one of the two base
      urls followed by a line of the paths file. */
  lemma PathKeysMember(paths: seq<string>, baselineURL: string, comparisonURL: string, ff: FormFactor, url: string)
    ensures (url, ff) in PathKeys(paths, baselineURL, comparisonURL, ff)
        <==> exists p :: p in paths && (url == baselineURL + p || url == comparisonURL + p)
  {
    if p :| p in paths && (url == baselineURL + p || url == comparisonURL + p) {
      if url == baselineURL + p {
        assert (baselineURL + p, ff) in (set q | q in paths :: (baselineURL + q, ff));
      } else {
        assert (comparisonURL + p, ff) in (set q | q in paths :: (comparisonURL + q, ff));
      }
    }
  }

  /** Without a paths file, the A/B command enqueues the two home pages and
      nothing else, at each chosen form factor; after `clean` they are all
      the queue holds. */
  lemma ABWithoutPaths(state: Collections, opts: ABOptions)
    requires opts.pathsFile.None?
    ensures ABKeys(opts) ==
      (match opts.formFactor
       case Both => {(opts.baselineURL, Desktop), (opts.comparisonURL, Desktop),
                      (opts.baselineURL, Mobile), (opts.comparisonURL, Mobile)}
       case Only(ff) => {(opts.baselineURL, ff), (opts.comparisonURL, ff)})
    ensures opts.clean ==> Keys(ExecuteABBatch(state, opts).sites) == ABKeys(opts)
  {
  }

  /** The enqueue phase of `executeBatch`: with `clean`, both collections are
      emptied first; then the `sites` array, then the lines of `file`. */
  function ExecuteBatch(state: Collections, opts: BatchOptions): (r: Collections)
    ensures r.metrics == (if opts.clean then [] else state.metrics)
    ensures Enqueued(if opts.clean then [] else state.sites, r.sites, BatchKeys(opts))
  {
    var start := if opts.clean then Clean(state.sites) else state.sites;
    var metrics := if opts.clean then SiteMetrics.Clean(state.metrics) else state.metrics;
    Collections(BatchEnqueue(start, opts), metrics)
  }

  function BatchKeys(opts: BatchOptions): set<(string, FormFactor)> {
    SitesKeys(opts) + FileKeys(opts)
  }

  /** The upserts of the `sites` array alone. */
  function QueueSitesOption(start: Store, opts: BatchOptions): (r: Store)
    ensures Enqueued(start, r, SitesKeys(opts))
  {
    match opts.sites
    case Some(s) => ParseSitesArrayAndQueue(start, s, opts.formFactor)
    case None =>
      EnqueuedNothing(start);
      start
  }

  /** The upserts of the `file` lines alone. */
  function QueueFileOption(start: Store, opts: BatchOptions): (r: Store)
    ensures Enqueued(start, r, FileKeys(opts))
  {
    match opts.file
    case Some(c) => ParseSitesFileAndQueue(start, c, opts.formFactor)
    case None =>
      EnqueuedNothing(start);
      start
  }

  /** Lines 47-53 of the batch command: the `sites` array, then the file. */
  function BatchEnqueue(start: Store, opts: BatchOptions): (r: Store)
    ensures Enqueued(start, r, BatchKeys(opts))
  {
    var s1 := QueueSitesOption(start, opts);
    var r := QueueFileOption(s1, opts);
    EnqueuedCompose(start, s1, r, SitesKeys(opts), FileKeys(opts));
    r
  }

  /** The identities of the `sites` array, if given. */
  function SitesKeys(opts: BatchOptions): set<(string, FormFactor)> {
    match opts.sites case Some(s) => UrlKeys(s, opts.formFactor) case None => {}
  }

  /** The identities of the lines of `file`, if given. */
  function FileKeys(opts: BatchOptions): set<(string, FormFactor)> {
    match opts.file case Some(c) => UrlKeys(Lines(c), opts.formFactor) case None => {}
  }

  /** The `sites` array is enqueued before the file: every identity it
      names sits before position `m`, and every record from position `m` on
      is a line of the file that neither the array nor the earlier queue
      held. */
  lemma SitesArrayBeforeFile(start: Store, opts: BatchOptions)
    ensures var r := BatchEnqueue(start, opts);
      exists m :: 0 <= m <= |r|
        && SitesKeys(opts) <= Keys(r[..m])
        && forall i :: m <= i < |r| ==>
             && (r[i].url, r[i].formFactor) !in SitesKeys(opts)
             && (r[i].url, r[i].formFactor) !in Keys(start)
             && opts.file.Some? && r[i].url in Lines(opts.file.value)
  {
    var s1 := QueueSitesOption(start, opts);
    var r := QueueFileOption(s1, opts);
    assert r == BatchEnqueue(start, opts);
    var m := |s1|;
    EnqueuedPrefixKeys(s1, r, FileKeys(opts));
    forall i | m <= i < |r|
      ensures (r[i].url, r[i].formFactor) !in SitesKeys(opts)
      ensures (r[i].url, r[i].formFactor) !in Keys(start)
      ensures opts.file.Some? && r[i].url in Lines(opts.file.value)
    {
      RecordsAfterAreNew(s1, r, FileKeys(opts), i);
    }
  }

  /** The records an enqueue phase leaves in the old positions carry the
      old identities. */
  lemma EnqueuedPrefixKeys(before: Store, after: Store, keys: set<(string, FormFactor)>)
    requires Enqueued(before, after, keys)
    ensures Keys(after[..|before|]) == Keys(before)
  {
    var p := after[..|before|];
    forall k | k in Keys(before) ensures k in Keys(p) {
      var i :| 0 <= i < |before| && k == (before[i].url, before[i].formFactor);
      assert p[i].url == before[i].url && p[i].formFactor == before[i].formFactor;
    }
    forall k | k in Keys(p) ensures k in Keys(before) {
      var i :| 0 <= i < |p| && k == (p[i].url, p[i].formFactor);
      assert p[i].url == before[i].url && p[i].formFactor == before[i].formFactor;
    }
  }

  /** A record past the old end of the queue has an identity the old queue
      did not hold, so it is one of the identities enqueued. */
  lemma RecordsAfterAreNew(before: Store, after: Store, keys: set<(string, FormFactor)>, i: int)
    requires Enqueued(before, after, keys)
    requires |before| <= i < |after|
    ensures (after[i].url, after[i].formFactor) !in Keys(before)
    ensures (after[i].url, after[i].formFactor) in keys
  {
    forall j | 0 <= j < |before|
      ensures (before[j].url, before[j].formFactor) != (after[i].url, after[i].formFactor)
    {
      assert after[j].url == before[j].url && after[j].formFactor == before[j].formFactor;
    }
    assert (after[i].url, after[i].formFactor) in Keys(after);
  }
}

=== FILE: legacy_batch.dfy ===
/** index.js, the original batch runner: it builds one site record per url
    (normalised url, a report name no other site of the run uses, the
    report file name), audits the sites in order, turns each outcome into a
    summary (score 0 and the error text for a failed audit, the rounded
    mean of the category scores otherwise), checks the summary against the
    budget thresholds and, with `failFast`, skips every site after the first
    budget violation. Reading files, running the audit, writing the summary
    file and exiting are left to the caller: file contents and audit
    outcomes are parameters. */
module LegacyBatch {
  import opened Wrappers
  import opened Text
  import Summary

  const JsonExt: string := ".report.json"

  // ---------------------------------------------------------------------
  // The site list

  /** `sitesInfo`'s list: the lines of `options.file` (absent, or the
      outcome of reading it) followed by the urls given on the command line.
      A file that cannot be read aborts the run. */
  function SiteList(file: Option<Result<string>>, sites: seq<string>): (r: Result<seq<string>>)
    ensures r.Throws? <==> file.Some? && file.value.Throws?
    ensures r.Ok? ==> |sites| <= |r.value|
    ensures r.Ok? ==> r.value[|r.value| - |sites|..] == sites
    ensures r.Ok? && file.Some? ==> var lines := r.value[..|r.value| - |sites|];
              && |lines| >= 1
              && Join(lines, '\n') == Trim(file.value.value)
              && forall k :: 0 <= k < |lines| ==> '\n' !in lines[k]
    ensures r.Ok? && file.None? ==> r.value == sites
  {
    match file
    case None => Ok(sites)
    case Some(Throws(e)) => Throws(e)
    case Some(Ok(content)) =>
      var lines := Lines(content);
      assert (lines + sites)[..|lines|] == lines;
      Ok(lines + sites)
  }

  /** The url starts with a scheme `/^https?:/` accepts. */
  predicate HasScheme(s: string) {
    StartsWith(s, "http:") || StartsWith(s, "https:")
  }

  /** The scheme part of the normalisation: a url with a scheme is kept,
      one without is given `https:`, and `//` when it is not there. */
  function AddScheme(t: string): (r: string)
    ensures HasScheme(r)
    ensures HasScheme(t) ==> r == t
    ensures |t| <= |r| <= |t| + 8 && r[|r| - |t|..] == t
  {
    if HasScheme(t) then t
    else
      var r := "https:" + (if StartsWith(t, "//") then t else "//" + t);
      assert r[..6] == "https:";
      r
  }

  /** The url normalisation of `sitesInfo`: trimmed, then given a scheme. */
  function Normalize(url: string): (r: string)
    ensures HasScheme(r)
    ensures |Trim(url)| <= |r| <= |Trim(url)| + 8
    ensures r[|r| - |Trim(url)|..] == Trim(url)
  {
    AddScheme(Trim(url))
  }

  /** A url that already has a scheme is only trimmed, and normalising
      twice changes nothing. */
  lemma NormalizeIdempotent(url: string)
    ensures HasScheme(Trim(url)) ==> Normalize(url) == Trim(url)
    ensures Normalize(Normalize(url)) == Normalize(url)
  {
    AddSchemeTrimmed(Trim(url));
  }

  /** Giving a trimmed url a scheme leaves it trimmed. */
  lemma AddSchemeTrimmed(t: string)
    requires t == [] || !IsTrimmable(t[|t| - 1])
    ensures Trim(AddScheme(t)) == AddScheme(t)
  {
    var r := AddScheme(t);
    SchemeFirst(r);
    if t != [] {
      assert r[|r| - 1] == t[|t| - 1] by {
        assert r[|r| - |t|..][|t| - 1] == t[|t| - 1];
      }
    } else {
      assert !HasScheme(t);
      assert !StartsWith(t, "//");
      assert r == "https:" + ("//" + t);
      assert r[|r| - 1] == '/';
    }
    TrimFixed(r);
  }

  /** A url with a scheme starts with `h`, which is not white space. */
  lemma SchemeFirst(s: string)
    requires HasScheme(s)
    ensures s[0] == 'h'
  {
    if StartsWith(s, "http:") {
      assert s[..5][0] == s[0];
    } else {
      assert s[..6][0] == s[0];
    }
  }

  /** A scheme-less url gets `https:` and, when missing, `//`. */
  lemma NormalizeBare(url: string)
    requires !HasScheme(Trim(url))
    ensures StartsWith(Trim(url), "//") ==> Normalize(url) == "https:" + Trim(url)
    ensures !StartsWith(Trim(url), "//") ==> Normalize(url) == "https://" + Trim(url)
  {
    if StartsWith(Trim(url), "//") {
      assert Normalize(url) == "https:" + Trim(url);
    } else {
      assert Normalize(url) == "https://" + Trim(url);
    }
  }

  // ---------------------------------------------------------------------
  // Report names

  /** The characters `siteName` replaces with `_`. */
  const NameBad: set<char> := {'/', '?', '#', ':', '*', '$', '@', '!', '.'}

  /** `replace(/^https?:\/\//, '')`. */
  function StripScheme(url: string): (r: string)
    ensures |r| <= |url| && r == url[|url| - |r|..]
  {
    if StartsWith(url, "http://") then url[7..]
    else if StartsWith(url, "https://") then url[8..]
    else url
  }

  /** `siteName`: the url without its `http(s)://` prefix, with every
      character of `NameBad` turned into `_`. */
  function SiteName(url: string): (r: string)
    ensures |r| == |StripScheme(url)|
    ensures forall c :: c in r ==> c !in NameBad
    ensures forall i :: 0 <= i < |r| ==>
              r[i] == if StripScheme(url)[i] in NameBad then '_' else StripScheme(url)[i]
  {
    ReplaceCharsRemovesClass(StripScheme(url), NameBad, '_');
    ReplaceChars(StripScheme(url), NameBad, '_')
  }

  /** The keys a plain JavaScript object inherits from `Object.prototype`:
      `existingNames[k]` is truthy for each of them before any site is
      named. */
  const InheritedKeys: set<string> := {
    "constructor", "__proto__", "hasOwnProperty", "isPrototypeOf",
    "propertyIsEnumerable", "toLocaleString", "toString", "valueOf",
    "__defineGetter__", "__defineSetter__", "__lookupGetter__", "__lookupSetter__"
  }

  /** The `j`-th name the loop tries: the name itself, then `name_1`,
      `name_2`, … */
  function Candidate(orig: string, j: nat): string {
    if j == 0 then orig else orig + "_" + NatToString(j)
  }

  lemma CandidateInjective(orig: string, j: nat, k: nat)
    requires Candidate(orig, j) == Candidate(orig, k)
    ensures j == k
  {
    if j != 0 && k != 0 {
      assert NatToString(j) == Candidate(orig, j)[|orig| + 1..];
      assert NatToString(k) == Candidate(orig, k)[|orig| + 1..];
      NatToStringInjective(j, k);
    }
  }

  function Tried(orig: string, j: nat): set<string> {
    set k | 0 <= k < j :: Candidate(orig, k)
  }

  lemma TriedGrows(taken: set<string>, orig: string, j: nat)
    requires Candidate(orig, j) in taken
    ensures taken - Tried(orig, j + 1) < taken - Tried(orig, j)
  {
    var c := Candidate(orig, j);
    assert Tried(orig, j + 1) == Tried(orig, j) + {c};
    if c in Tried(orig, j) {
      var k :| 0 <= k < j && Candidate(orig, k) == c;
      CandidateInjective(orig, k, j);
    }
    assert c in taken - Tried(orig, j);
  }

  /** The `while (existingNames[name])` loop: the first index from `j` on
      whose candidate is not taken. */
  function FreeIndex(taken: set<string>, orig: string, j: nat): (k: nat)
    ensures j <= k
    ensures Candidate(orig, k) !in taken
    ensures forall i :: j <= i < k ==> Candidate(orig, i) in taken
    decreases taken - Tried(orig, j)
  {
    if Candidate(orig, j) in taken then
      TriedGrows(taken, orig, j);
      FreeIndex(taken, orig, j + 1)
    else j
  }

  /** The name a site gets when the names in `taken` are truthy keys of
      `existingNames`. */
  function UniqueName(taken: set<string>, orig: string): (name: string)
    ensures name !in taken
  {
    Candidate(orig, FreeIndex(taken, orig, 0))
  }

  /** The name is the site's own when free, and otherwise the first
      `_j`-suffixed one that is. */
  lemma UniqueNameFirstFree(taken: set<string>, orig: string)
    ensures orig !in taken ==> UniqueName(taken, orig) == orig
    ensures exists k: nat :: UniqueName(taken, orig) == Candidate(orig, k) &&
              forall i :: 0 <= i < k ==> Candidate(orig, i) in taken
  {
    var k := FreeIndex(taken, orig, 0);
    assert UniqueName(taken, orig) == Candidate(orig, k);
  }

  /** An inherited key is never used as is: the first site named
      `constructor` is written to `constructor_1`. */
  lemma ConstructorRenamed()
    ensures UniqueName(InheritedKeys, "constructor") == "constructor_1"
  {
    assert Candidate("constructor", 0) in InheritedKeys;
    assert NatToString(1) == "1";
    var c := Candidate("constructor", 1);
    assert c == "constructor_1";
    assert c !in InheritedKeys by {
      assert |c| == 13;
    }
  }

  /** One `siteInfo` object (the html and csv names are left out). */
  datatype SiteInfo = SiteInfo(url: string, name: string, file: string)

  /** The object `sitesInfo` builds for one normalised url, with `taken`
      the truthy keys of `existingNames`. */
  function Info(url: string, taken: set<string>): (r: SiteInfo)
    ensures r.url == url && r.file == r.name + JsonExt
    ensures r.name == UniqueName(taken, SiteName(url)) && r.name !in taken
  {
    var name := UniqueName(taken, SiteName(url));
    SiteInfo(url, name, name + JsonExt)
  }

  /** The `sites.map` of `sitesInfo`, once each url is normalised: each
      site's name joins the names already taken. */
  function InfoFrom(urls: seq<string>, taken: set<string>): (r: seq<SiteInfo>)
    ensures |r| == |urls|
    ensures forall i :: 0 <= i < |r| ==> r[i].url == urls[i] && r[i].file == r[i].name + JsonExt
    ensures forall i :: 0 <= i < |r| ==> r[i].name !in taken
    ensures forall i, j :: 0 <= i < j < |r| ==> r[i].name != r[j].name
    decreases |urls|
  {
    if urls == [] then []
    else
      var init := urls[..|urls| - 1];
      var prev := InfoFrom(init, taken);
      InitIndex(urls);
      InfoFromStep(urls, taken, prev);
      prev + [Info(urls[|urls| - 1], taken + Names(prev))]
  }

  /** Naming the last url after the earlier ones keeps the names distinct
      and outside the taken ones. */
  lemma InfoFromStep(urls: seq<string>, taken: set<string>, prev: seq<SiteInfo>)
    requires urls != [] && |prev| == |urls| - 1
    requires forall i :: 0 <= i < |prev| ==> prev[i].url == urls[i] && prev[i].file == prev[i].name + JsonExt
    requires forall i :: 0 <= i < |prev| ==> prev[i].name !in taken
    requires forall i, j :: 0 <= i < j < |prev| ==> prev[i].name != prev[j].name
    ensures var r := prev + [Info(urls[|urls| - 1], taken + Names(prev))];
      && (forall i :: 0 <= i < |r| ==> r[i].url == urls[i] && r[i].file == r[i].name + JsonExt)
      && (forall i :: 0 <= i < |r| ==> r[i].name !in taken)
      && (forall i, j :: 0 <= i < j < |r| ==> r[i].name != r[j].name)
  {
    var last := Info(urls[|urls| - 1], taken + Names(prev));
    NamesSnoc(prev, last, taken);
    Snoc(prev, last);
  }

  lemma Snoc<T>(xs: seq<T>, x: T)
    ensures forall i :: 0 <= i < |xs| ==> (xs + [x])[i] == xs[i]
    ensures (xs + [x])[|xs|] == x
  {
  }

  lemma InitIndex<T>(xs: seq<T>)
    requires xs != []
    ensures forall i :: 0 <= i < |xs| - 1 ==> xs[..|xs| - 1][i] == xs[i]
  {
  }

  /** A name outside the taken ones and the earlier names keeps the names
      distinct and outside the taken ones. */
  lemma NamesSnoc(prev: seq<SiteInfo>, last: SiteInfo, taken: set<string>)
    requires forall i, j :: 0 <= i < j < |prev| ==> prev[i].name != prev[j].name
    requires forall i :: 0 <= i < |prev| ==> prev[i].name !in taken
    requires last.name !in taken + Names(prev)
    ensures var r := prev + [last];
      && (forall i, j :: 0 <= i < j < |r| ==> r[i].name != r[j].name)
      && (forall i :: 0 <= i < |r| ==> r[i].name !in taken)
  {
    assert forall i :: 0 <= i < |prev| ==> prev[i].name in Names(prev);
  }

  /** The names of some site objects. */
  function Names(infos: seq<SiteInfo>): set<string> {
    set i | 0 <= i < |infos| :: infos[i].name
  }

  /** Each site's name is its own `siteName` when no earlier site (and no
      inherited key) has it, and otherwise its first free `_j` variant. */
  lemma {:induction false} InfoFromName(urls: seq<string>, taken: set<string>, i: nat)
    requires i < |urls|
    ensures var r := InfoFrom(urls, taken);
      r[i].name == UniqueName(taken + Names(r[..i]), SiteName(urls[i]))
    decreases |urls|
  {
    var r := InfoFrom(urls, taken);
    var init := urls[..|urls| - 1];
    var prev := InfoFrom(init, taken);
    var last := Info(urls[|urls| - 1], taken + Names(prev));
    assert r == prev + [last];
    SnocPrefix(prev, last, i);
    if i < |prev| {
      InfoFromName(init, taken, i);
      InitIndex(urls);
    }
  }

  lemma SnocPrefix<T>(xs: seq<T>, x: T, i: nat)
    requires i <= |xs|
    ensures (xs + [x])[..i] == xs[..i]
    ensures i < |xs| ==> (xs + [x])[i] == xs[i]
    ensures i == |xs| ==> (xs + [x])[i] == x && xs[..i] == xs
  {
  }

  function NormalizeAll(urls: seq<string>): (r: seq<string>)
    ensures |r| == |urls| && forall i :: 0 <= i < |r| ==> r[i] == Normalize(urls[i])
  {
    seq(|urls|, i requires 0 <= i < |urls| => Normalize(urls[i]))
  }

  /** `sitesInfo`: the site list, named with `existingNames` starting as a
      plain object. */
  function SitesInfo(file: Option<Result<string>>, sites: seq<string>): (r: Result<seq<SiteInfo>>)
    ensures r.Throws? <==> file.Some? && file.value.Throws?
    ensures r.Ok? ==> forall i, j :: 0 <= i < j < |r.value| ==> r.value[i].name != r.value[j].name
    ensures r.Ok? ==> forall i :: 0 <= i < |r.value| ==> HasScheme(r.value[i].url) && r.value[i].file == r.value[i].name + JsonExt
    ensures r.Ok? ==> forall i :: 0 <= i < |r.value| ==> r.value[i].name !in InheritedKeys
  {
    match SiteList(file, sites)
    case Throws(e) => Throws(e)
    case Ok(urls) => Ok(InfoFrom(NormalizeAll(urls), InheritedKeys))
  }

  // ---------------------------------------------------------------------
  // Scores

  /** A JavaScript number as the runner uses it: a real, or NaN. */
  datatype Number = Finite(value: real) | NaN

  /** What reading a category off a summary yields. */
  datatype Value = Undefined | Null | Num(n: Number)

  /** One entry of the report's categories; an `id` of `""` stands for a
      missing one (both are falsy), a `score` of `None` for `null`. */
  datatype CategoryEntry = CategoryEntry(id: string, score: Option<real>)

  /** The parts of a parsed report `getAverageScore` reads:
      `categories` (Lighthouse 3, its values in order) and
      `reportCategories` (Lighthouse 1 and 2). */
  datatype LegacyReport = LegacyReport(categories: Option<seq<CategoryEntry>>, reportCategories: Option<seq<CategoryEntry>>)

  /** `detail[id]` as stored: `null` stays `null`. */
  function CategoryValue(c: CategoryEntry): Value {
    match c.score
    case None => Null
    case Some(s) => Num(Finite(s))
  }

  /** `total += cat.score`, with `null` adding 0. */
  function Total(cats: seq<CategoryEntry>): real
    decreases |cats|
  {
    if cats == [] then 0.0 else Total(cats[..|cats| - 1]) + cats[|cats| - 1].score.GetOr(0.0)
  }

  /** The `reduce` building `detail`: every category with an id, the last
      one of an id winning. */
  function Detail(cats: seq<CategoryEntry>): (d: map<string, Value>)
    ensures d.Keys == set i | 0 <= i < |cats| && cats[i].id != "" :: cats[i].id
    ensures forall i :: 0 <= i < |cats| && cats[i].id != "" && LastOfId(cats, i) ==> d[cats[i].id] == CategoryValue(cats[i])
    decreases |cats|
  {
    if cats == [] then map[]
    else
      var init := cats[..|cats| - 1];
      var last := cats[|cats| - 1];
      var d := Detail(init);
      assert forall i :: 0 <= i < |init| ==> init[i] == cats[i];
      assert forall i :: 0 <= i < |init| && LastOfId(cats, i) ==> LastOfId(init, i);
      if last.id != "" then d[last.id := CategoryValue(last)] else d
  }

  /** No later category has the same id as the `i`-th. */
  predicate LastOfId(cats: seq<CategoryEntry>, i: nat)
    requires i < |cats|
  {
    forall j :: i < j < |cats| ==> cats[j].id != cats[i].id
  }

  /** What `getAverageScore` returns. */
  datatype Scored = Scored(score: Number, detail: map<string, Value>)

  /** `getAverageScore`: the categories' mean rounded to two decimals (NaN
      for no categories, as 0 / 0 is) and the per-id detail. A report with
      neither `categories` nor `reportCategories` makes `reduce` throw. */
  function AverageScore(report: LegacyReport): (r: Result<Scored>)
    ensures r.Throws? <==> report.categories.None? && report.reportCategories.None?
  {
    var cats := if report.categories.Some? then report.categories else report.reportCategories;
    match cats
    case None => Throws("TypeError: categories is undefined")
    case Some(cs) =>
      var score := if |cs| == 0 then NaN else Finite(Summary.Round2(Total(cs) / |cs| as real));
      Ok(Scored(score, Detail(cs)))
  }

  /** The score is NaN exactly for an empty category list, and otherwise
      within half a hundredth of the categories' mean. */
  lemma AverageScoreMean(report: LegacyReport)
    requires AverageScore(report).Ok?
    ensures var cs := if report.categories.Some? then report.categories.value else report.reportCategories.value;
      var s := AverageScore(report).value.score;
      && (s.NaN? <==> |cs| == 0)
      && (s.Finite? ==> -0.005 <= s.value - Total(cs) / |cs| as real <= 0.005)
  {
    var cs := if report.categories.Some? then report.categories.value else report.reportCategories.value;
    if |cs| > 0 {
      Summary.Round2Error(Total(cs) / |cs| as real);
    }
  }

  /** An audit outcome: a non-zero exit with its error output, or the
      parsed report of a clean exit. */
  datatype AuditOutcome = Failed(stderr: string) | Completed(report: LegacyReport)

  /** A summary object: the site's fields, the score, the detail (absent
      after a failed audit), the error output, and the budget errors. */
  datatype SiteSummary = SiteSummary(info: SiteInfo, score: Number, detail: Option<map<string, Value>>,
                                     error: Option<string>, budget: seq<BudgetError>)

  /** `updateSummary`. */
  function UpdateSummary(info: SiteInfo, outcome: AuditOutcome): (r: Result<SiteSummary>)
    ensures r.Ok? ==> r.value.info == info && r.value.budget == []
    ensures outcome.Failed? ==> r == Ok(SiteSummary(info, Finite(0.0), None, Some(outcome.stderr), []))
    ensures outcome.Completed? ==> (r.Ok? <==> AverageScore(outcome.report).Ok?)
    ensures outcome.Completed? && r.Ok? ==>
              r.value.error.None? && r.value.detail == Some(AverageScore(outcome.report).value.detail) &&
              r.value.score == AverageScore(outcome.report).value.score
  {
    match outcome
    case Failed(stderr) => Ok(SiteSummary(info, Finite(0.0), None, Some(stderr), []))
    case Completed(report) =>
      match AverageScore(report)
      case Throws(e) => Throws(e)
      case Ok(s) => Ok(SiteSummary(info, s.score, Some(s.detail), None, []))
  }

  // ---------------------------------------------------------------------
  // Budgets

  /** The six thresholds, in the order `checkBudgets` tests them. */
  datatype Check = AverageCheck | AccessibilityCheck | PerformanceCheck | BestPracticesCheck | SeoCheck | PwaCheck

  const Checks: seq<Check> :=
    [AverageCheck, AccessibilityCheck, PerformanceCheck, BestPracticesCheck, SeoCheck, PwaCheck]

  function CheckIndex(c: Check): nat {
    match c
    case AverageCheck => 0
    case AccessibilityCheck => 1
    case PerformanceCheck => 2
    case BestPracticesCheck => 3
    case SeoCheck => 4
    case PwaCheck => 5
  }

  /** The `detail` key a category threshold reads. */
  function DetailKey(c: Check): string {
    match c
    case AverageCheck => "score"
    case AccessibilityCheck => "accessibility"
    case PerformanceCheck => "performance"
    case BestPracticesCheck => "best-practices"
    case SeoCheck => "seo"
    case PwaCheck => "pwa"
  }

  /** The threshold options; one that was not given is 0, since
      `undefined > 0` is false just as `0 > 0` is. */
  datatype Thresholds = Thresholds(score: real, accessibility: real, performance: real,
                                   bestPractices: real, seo: real, pwa: real)

  function Threshold(t: Thresholds, c: Check): real {
    match c
    case AverageCheck => t.score
    case AccessibilityCheck => t.accessibility
    case PerformanceCheck => t.performance
    case BestPracticesCheck => t.bestPractices
    case SeoCheck => t.seo
    case PwaCheck => t.pwa
  }

  /** One budget message: which threshold, the score × 100 it compared,
      the threshold, and the site's url. */
  datatype BudgetError = BudgetError(check: Check, score: real, threshold: real, url: string)

  /** `toScore`: `Number(x) * 100`, where `Number(undefined)` is NaN and
      `Number(null)` is 0. */
  function ToScore(v: Value): Number {
    match v
    case Undefined => NaN
    case Null => Finite(0.0)
    case Num(NaN) => NaN
    case Num(Finite(x)) => Finite(x * 100.0)
  }

  /** `score < threshold`; a comparison with NaN is false. */
  predicate Below(n: Number, threshold: real) {
    n.Finite? && n.value < threshold
  }

  /** The value a threshold compares, once the summary has a detail; a
      summary without one (a failed audit) scores 0 on every category, as
      it does on the average. */
  function CheckedScore(s: SiteSummary, c: Check): Number {
    if c == AverageCheck then ToScore(Num(s.score))
    else match s.detail
      case None => Finite(0.0)
      case Some(d) => ToScore(if DetailKey(c) in d then d[DetailKey(c)] else Undefined)
  }

  /** The threshold is enabled and the score falls short of it. */
  predicate Violated(s: SiteSummary, t: Thresholds, c: Check) {
    Threshold(t, c) > 0.0 && Below(CheckedScore(s, c), Threshold(t, c))
  }

  /** The checks of `cs` that belong to `keep`, in order. */
  function Select(cs: seq<Check>, keep: set<Check>): (r: seq<Check>)
    ensures forall i :: 0 <= i < |r| ==> r[i] in cs && r[i] in keep
    decreases |cs|
  {
    if cs == [] then []
    else if cs[0] in keep then [cs[0]] + Select(cs[1..], keep)
    else Select(cs[1..], keep)
  }

  /** Every check of `cs` in `keep` is selected. */
  lemma {:induction false} SelectComplete(cs: seq<Check>, keep: set<Check>)
    ensures forall c :: c in cs && c in keep ==> c in Select(cs, keep)
    decreases |cs|
  {
    if cs != [] {
      SelectComplete(cs[1..], keep);
      forall c | c in cs && c != cs[0] ensures c in cs[1..] {
        var k :| 0 <= k < |cs| && cs[k] == c;
        assert cs[1..][k - 1] == c;
      }
    }
  }

  /** The checks of `cs` come in the fixed order of the thresholds. */
  predicate InOrder(cs: seq<Check>) {
    forall i, j :: 0 <= i < j < |cs| ==> CheckIndex(cs[i]) < CheckIndex(cs[j])
  }

  /** A check ranked below every check of `cs` stays below every
      selected one. */
  lemma {:induction false} SelectAbove(cs: seq<Check>, keep: set<Check>, c: Check)
    requires forall i :: 0 <= i < |cs| ==> CheckIndex(c) < CheckIndex(cs[i])
    ensures forall i :: 0 <= i < |Select(cs, keep)| ==> CheckIndex(c) < CheckIndex(Select(cs, keep)[i])
    decreases |cs|
  {
    if cs != [] {
      assert forall i :: 0 <= i < |cs| - 1 ==> cs[1..][i] == cs[i + 1];
      SelectAbove(cs[1..], keep, c);
    }
  }

  /** The selected checks follow the order of `cs`. */
  lemma {:induction false} SelectOrdered(cs: seq<Check>, keep: set<Check>)
    requires InOrder(cs)
    ensures InOrder(Select(cs, keep))
    decreases |cs|
  {
    if cs != [] {
      var tail := cs[1..];
      assert forall i :: 0 <= i < |tail| ==> tail[i] == cs[i + 1];
      SelectOrdered(tail, keep);
      if cs[0] in keep {
        var rest := Select(tail, keep);
        SelectAbove(tail, keep, cs[0]);
        var r := [cs[0]] + rest;
        forall i, j | 0 <= i < j < |r| ensures CheckIndex(r[i]) < CheckIndex(r[j]) {
          assert r[j] == rest[j - 1];
          if i > 0 {
            assert r[i] == rest[i - 1];
          }
        }
      }
    }
  }

  /** The thresholds a summary violates. */
  function ViolatedSet(s: SiteSummary, t: Thresholds): (r: set<Check>)
    ensures forall c :: c in r <==> Violated(s, t, c)
  {
    forall c ensures c in Checks {
      ChecksComplete(c);
    }
    set c | c in Checks && Violated(s, t, c)
  }

  /** The checks of `cs` that are violated, in order. */
  function ViolatedChecks(s: SiteSummary, t: Thresholds, cs: seq<Check>): (r: seq<Check>)
    ensures forall i :: 0 <= i < |r| ==> r[i] in cs && Violated(s, t, r[i])
  {
    Select(cs, ViolatedSet(s, t))
  }

  /** A threshold is violated exactly when it is among the violated
      checks of all six, which come in the fixed order. */
  lemma ViolatedChecksAll(s: SiteSummary, t: Thresholds)
    ensures forall c :: Violated(s, t, c) <==> c in ViolatedChecks(s, t, Checks)
    ensures InOrder(ViolatedChecks(s, t, Checks))
  {
    SelectComplete(Checks, ViolatedSet(s, t));
    SelectOrdered(Checks, ViolatedSet(s, t));
    forall c ensures c in Checks {
      ChecksComplete(c);
    }
  }

  /** The message for a violated check. */
  function ErrorOf(s: SiteSummary, t: Thresholds, c: Check): BudgetError
    requires Violated(s, t, c)
  {
    BudgetError(c, CheckedScore(s, c).value, Threshold(t, c), s.info.url)
  }

  function ErrorsOf(s: SiteSummary, t: Thresholds, cs: seq<Check>): (r: seq<BudgetError>)
    requires forall i :: 0 <= i < |cs| ==> Violated(s, t, cs[i])
    ensures |r| == |cs| && forall i :: 0 <= i < |cs| ==> r[i] == ErrorOf(s, t, cs[i])
  {
    seq(|cs|, i requires 0 <= i < |cs| => ErrorOf(s, t, cs[i]))
  }

  lemma ChecksComplete(c: Check)
    ensures c in Checks
  {
    assert Checks[CheckIndex(c)] == c;
  }

  /** The messages for every violated threshold, in the fixed order. */
  function BudgetErrors(s: SiteSummary, t: Thresholds): (r: seq<BudgetError>)
    ensures forall c :: Violated(s, t, c) <==> exists i :: 0 <= i < |r| && r[i].check == c
  {
    var violated := ViolatedChecks(s, t, Checks);
    ViolatedChecksAll(s, t);
    var errors := ErrorsOf(s, t, violated);
    assert forall i :: 0 <= i < |errors| ==> errors[i].check == violated[i];
    errors
  }

  /** Each message names a violated threshold, the score it compared and
      the site; the messages follow the fixed order of the thresholds. */
  lemma BudgetErrorsFields(s: SiteSummary, t: Thresholds)
    ensures var r := BudgetErrors(s, t);
      && (forall i, j :: 0 <= i < j < |r| ==> CheckIndex(r[i].check) < CheckIndex(r[j].check))
      && (forall i :: 0 <= i < |r| ==>
            && r[i].url == s.info.url
            && r[i].threshold == Threshold(t, r[i].check)
            && Finite(r[i].score) == CheckedScore(s, r[i].check))
  {
    ViolatedChecksAll(s, t);
  }

  /** The corrected `checkBudgets`: `undefined` when no threshold is
      violated, otherwise the (nonempty) messages. A summary without detail
      scores 0 on each category, where the code as written throws; see
      `CheckBudgetsAsWritten`. */
  function CheckBudgets(s: SiteSummary, t: Thresholds): (r: Option<seq<BudgetError>>)
    ensures r.None? <==> forall c :: !Violated(s, t, c)
    ensures r.Some? ==> r.value != [] && r.value == BudgetErrors(s, t)
  {
    var errors := BudgetErrors(s, t);
    if errors == [] then None else Some(errors)
  }

  /** A failed audit violates every enabled threshold. */
  lemma FailedViolatesAll(info: SiteInfo, stderr: string, t: Thresholds, c: Check)
    requires Threshold(t, c) > 0.0
    ensures Violated(UpdateSummary(info, Failed(stderr)).value, t, c)
  {
  }

  /** `checkBudgets` as written: a category threshold reads
      `summary.detail.<category>`, which throws when the summary has no
      detail. */
  function CheckedScoreAsWritten(s: SiteSummary, c: Check): (r: Result<Number>)
    ensures r.Throws? <==> c != AverageCheck && s.detail.None?
    ensures r.Ok? ==> r.value == CheckedScore(s, c)
  {
    if c == AverageCheck then Ok(ToScore(Num(s.score)))
    else match s.detail
      case None => Throws("TypeError: summary.detail is undefined")
      case Some(d) => Ok(ToScore(if DetailKey(c) in d then d[DetailKey(c)] else Undefined))
  }

  /** The checks of `cs` as written, in order: an enabled check whose score
      cannot be read throws. */
  function ViolatedChecksAsWritten(s: SiteSummary, t: Thresholds, cs: seq<Check>): (r: Result<seq<Check>>)
    ensures r.Throws? <==> exists i :: 0 <= i < |cs| && Threshold(t, cs[i]) > 0.0 && CheckedScoreAsWritten(s, cs[i]).Throws?
    ensures r.Ok? ==> r.value == Select(cs, ViolatedSet(s, t))
    decreases |cs|
  {
    if cs == [] then Ok([])
    else
      var c := cs[0];
      assert forall i :: 0 <= i < |cs| - 1 ==> cs[1..][i] == cs[i + 1];
      if Threshold(t, c) > 0.0 then
        match CheckedScoreAsWritten(s, c)
        case Throws(e) => Throws(e)
        case Ok(score) =>
          match ViolatedChecksAsWritten(s, t, cs[1..])
          case Throws(e) => Throws(e)
          case Ok(rest) => Ok(if Below(score, Threshold(t, c)) then [c] + rest else rest)
      else ViolatedChecksAsWritten(s, t, cs[1..])
  }

  function CheckBudgetsAsWritten(s: SiteSummary, t: Thresholds): (r: Result<Option<seq<BudgetError>>>)
    ensures r.Ok? ==> r.value == CheckBudgets(s, t)
  {
    match ViolatedChecksAsWritten(s, t, Checks)
    case Throws(e) => Throws(e)
    case Ok(violated) =>
      var errors := ErrorsOf(s, t, violated);
      assert errors == BudgetErrors(s, t);
      Ok(if errors == [] then None else Some(errors))
  }

  /** With a detail present, the code as written agrees with the model. */
  lemma AsWrittenAgrees(s: SiteSummary, t: Thresholds)
    requires s.detail.Some?
    ensures CheckBudgetsAsWritten(s, t) == Ok(CheckBudgets(s, t))
  {
  }

  /** A failed audit with an accessibility threshold crashes the run in the
      code as written. */
  lemma FailedAuditCrashes(info: SiteInfo, stderr: string)
    ensures var t := Thresholds(0.0, 50.0, 0.0, 0.0, 0.0, 0.0);
      CheckBudgetsAsWritten(UpdateSummary(info, Failed(stderr)).value, t).Throws?
  {
    var t := Thresholds(0.0, 50.0, 0.0, 0.0, 0.0, 0.0);
    assert Checks[1] == AccessibilityCheck;
    assert Threshold(t, Checks[1]) > 0.0;
  }

  // ---------------------------------------------------------------------
  // The run

  /** One site of `execute`'s map as written: audit, summarize, check the
      budgets and attach the messages. A budget check that throws rejects
      the site, and with it the run. */
  function ProcessSite(info: SiteInfo, outcome: AuditOutcome, t: Thresholds): (r: Result<SiteSummary>)
    ensures r.Ok? ==> r.value.info == info
    ensures r.Ok? ==> r == ProcessSiteCorrected(info, outcome, t)
  {
    match UpdateSummary(info, outcome)
    case Throws(e) => Throws(e)
    case Ok(s) =>
      match CheckBudgetsAsWritten(s, t)
      case Throws(e) => Throws(e)
      case Ok(None) => Ok(s)
      case Ok(Some(errors)) => Ok(s.(budget := errors))
  }

  /** The same site with the corrected budget check, which never throws. */
  function ProcessSiteCorrected(info: SiteInfo, outcome: AuditOutcome, t: Thresholds): (r: Result<SiteSummary>)
    ensures r.Ok? <==> UpdateSummary(info, outcome).Ok?
    ensures r.Ok? ==> r.value.info == info
  {
    match UpdateSummary(info, outcome)
    case Throws(e) => Throws(e)
    case Ok(s) =>
      match CheckBudgets(s, t)
      case None => Ok(s)
      case Some(errors) => Ok(s.(budget := errors))
  }

  /** A site is processed exactly when its summary can be built and, if
      its audit failed, no category threshold is enabled; a processed site
      carries budget messages exactly when one of its thresholds is
      violated, and then exactly those. */
  lemma ProcessSiteBudget(info: SiteInfo, outcome: AuditOutcome, t: Thresholds)
    ensures ProcessSite(info, outcome, t).Ok? <==>
              && UpdateSummary(info, outcome).Ok?
              && (outcome.Failed? ==> forall c :: c != AverageCheck ==> Threshold(t, c) <= 0.0)
    ensures ProcessSiteCorrected(info, outcome, t).Ok? ==>
              var s := UpdateSummary(info, outcome).value;
              var b := ProcessSiteCorrected(info, outcome, t).value.budget;
              && (b == [] <==> forall c :: !Violated(s, t, c))
              && (b != [] ==> b == BudgetErrors(s, t))
  {
    if UpdateSummary(info, outcome).Ok? {
      var s := UpdateSummary(info, outcome).value;
      if outcome.Failed? {
        if exists c :: c != AverageCheck && Threshold(t, c) > 0.0 {
          var c :| c != AverageCheck && Threshold(t, c) > 0.0;
          assert Checks[CheckIndex(c)] == c;
          assert CheckedScoreAsWritten(s, Checks[CheckIndex(c)]).Throws?;
        } else {
          assert forall i :: 0 <= i < |Checks| ==> !(Threshold(t, Checks[i]) > 0.0 && CheckedScoreAsWritten(s, Checks[i]).Throws?);
        }
      } else {
        AsWrittenAgrees(s, t);
      }
    }
  }

  /** With the corrected check, a site whose audit failed is kept, and its
      budget list names every enabled threshold. */
  lemma FailedSiteReported(info: SiteInfo, stderr: string, t: Thresholds)
    ensures ProcessSiteCorrected(info, Failed(stderr), t).Ok?
    ensures var b := ProcessSiteCorrected(info, Failed(stderr), t).value.budget;
      forall c :: Threshold(t, c) > 0.0 ==> exists i :: 0 <= i < |b| && b[i].check == c
  {
    var s := UpdateSummary(info, Failed(stderr)).value;
    ProcessSiteBudget(info, Failed(stderr), t);
    forall c | Threshold(t, c) > 0.0 ensures Violated(s, t, c) {
      FailedViolatesAll(info, stderr, t, c);
    }
  }

  /** The summaries kept and the budget messages gathered. */
  datatype Batch = Batch(reports: seq<SiteSummary>, budgetErrors: seq<BudgetError>)

  /** The map over the first `n` processed sites; a site reached after a
      budget error with `failFast` maps to `undefined` and is filtered
      out, and the first site whose processing throws rejects the run. */
  function Gather(results: seq<Result<SiteSummary>>, failFast: bool, n: nat): Result<Batch>
    requires n <= |results|
    decreases n
  {
    if n == 0 then Ok(Batch([], []))
    else
      match Gather(results, failFast, n - 1)
      case Throws(e) => Throws(e)
      case Ok(b) =>
        if |b.budgetErrors| > 0 && failFast then Ok(b)
        else
          match results[n - 1]
          case Throws(e) => Throws(e)
          case Ok(s) => Ok(Batch(b.reports + [s], b.budgetErrors + s.budget))
  }

  /** Every site processed against its own audit outcome; the audits are
      given up front, so processing a site that `failFast` skips has no
      effect on the run. */
  function Processed(sites: seq<SiteInfo>, t: Thresholds, audit: nat -> AuditOutcome): (r: seq<Result<SiteSummary>>)
    ensures |r| == |sites|
    ensures forall i :: 0 <= i < |sites| ==> r[i].Ok? ==> r[i].value.info == sites[i]
  {
    var r := seq(|sites|, i requires 0 <= i < |sites| => ProcessSite(sites[i], audit(i), t));
    forall i | 0 <= i < |sites| && r[i].Ok? ensures r[i].value.info == sites[i] {
      assert r[i] == ProcessSite(sites[i], audit(i), t);
    }
    r
  }

  /** `execute`'s run over the sites. */
  function Execute(sites: seq<SiteInfo>, failFast: bool, t: Thresholds, audit: nat -> AuditOutcome): Result<Batch>
  {
    Gather(Processed(sites, t, audit), failFast, |sites|)
  }

  /** Every site processed with the corrected budget check. */
  function ProcessedCorrected(sites: seq<SiteInfo>, t: Thresholds, audit: nat -> AuditOutcome): (r: seq<Result<SiteSummary>>)
    ensures |r| == |sites|
    ensures forall i :: 0 <= i < |sites| ==> (r[i].Ok? <==> UpdateSummary(sites[i], audit(i)).Ok?)
  {
    seq(|sites|, i requires 0 <= i < |sites| => ProcessSiteCorrected(sites[i], audit(i), t))
  }

  /** The run with the corrected budget check. */
  function ExecuteCorrected(sites: seq<SiteInfo>, failFast: bool, t: Thresholds, audit: nat -> AuditOutcome): Result<Batch>
  {
    Gather(ProcessedCorrected(sites, t, audit), failFast, |sites|)
  }

  /** Two result lists that agree wherever the first succeeds gather alike
      whenever the first gathers. */
  lemma {:induction false} GatherAgrees(r1: seq<Result<SiteSummary>>, r2: seq<Result<SiteSummary>>, failFast: bool, n: nat)
    requires n <= |r1| == |r2|
    requires forall i :: 0 <= i < n ==> r1[i].Ok? ==> r2[i] == r1[i]
    ensures Gather(r1, failFast, n).Ok? ==> Gather(r2, failFast, n) == Gather(r1, failFast, n)
    decreases n
  {
    if n > 0 {
      GatherAgrees(r1, r2, failFast, n - 1);
    }
  }

  /** A run that completes as written has the corrected run's outcome, and
      a run without failed audits is the corrected run. */
  lemma ExecuteCorrectedAgrees(sites: seq<SiteInfo>, failFast: bool, t: Thresholds, audit: nat -> AuditOutcome)
    ensures Execute(sites, failFast, t, audit).Ok? ==>
              ExecuteCorrected(sites, failFast, t, audit) == Execute(sites, failFast, t, audit)
    ensures (forall i :: 0 <= i < |sites| ==> audit(i).Completed?) ==>
              ExecuteCorrected(sites, failFast, t, audit) == Execute(sites, failFast, t, audit)
  {
    var r1 := Processed(sites, t, audit);
    var r2 := ProcessedCorrected(sites, t, audit);
    forall i | 0 <= i < |sites| ensures r1[i] == ProcessSite(sites[i], audit(i), t) {
    }
    GatherAgrees(r1, r2, failFast, |sites|);
    if forall i :: 0 <= i < |sites| ==> audit(i).Completed? {
      forall i | 0 <= i < |sites| ensures r1[i] == r2[i] {
        match UpdateSummary(sites[i], audit(i))
        case Throws(_) =>
        case Ok(s) => AsWrittenAgrees(s, t);
      }
      assert r1 == r2;
    }
  }

  /** Without `failFast`, one failed audit with an enabled category
      threshold rejects the whole run as written, while the corrected run
      completes whenever every summary can be built. */
  lemma ExecuteFailedAuditThrows(sites: seq<SiteInfo>, t: Thresholds, audit: nat -> AuditOutcome, i: nat, c: Check)
    requires i < |sites| && audit(i).Failed?
    requires c != AverageCheck && Threshold(t, c) > 0.0
    ensures Execute(sites, false, t, audit).Throws?
    ensures (forall k :: 0 <= k < |sites| ==> UpdateSummary(sites[k], audit(k)).Ok?) ==>
              ExecuteCorrected(sites, false, t, audit).Ok?
  {
    var r1 := Processed(sites, t, audit);
    assert r1[i] == ProcessSite(sites[i], audit(i), t);
    ProcessSiteBudget(sites[i], audit(i), t);
    GatherAllOk(r1, |sites|);
    GatherAllOk(ProcessedCorrected(sites, t, audit), |sites|);
  }

  /** All budget messages, site by site. */
  function AllBudgets(reports: seq<SiteSummary>): seq<BudgetError>
    decreases |reports|
  {
    if reports == [] then [] else AllBudgets(reports[..|reports| - 1]) + reports[|reports| - 1].budget
  }

  /** The kept summaries are those of the first sites, in order, and the
      messages gathered are theirs, site by site. */
  lemma {:induction false} GatherPrefix(results: seq<Result<SiteSummary>>, failFast: bool, n: nat)
    requires n <= |results| && Gather(results, failFast, n).Ok?
    ensures var b := Gather(results, failFast, n).value;
      && (|b.reports| == n || (|b.reports| < n && failFast && b.budgetErrors != []))
      && (forall i :: 0 <= i < |b.reports| ==> results[i] == Ok(b.reports[i]))
      && b.budgetErrors == AllBudgets(b.reports)
    decreases n
  {
    if n > 0 {
      GatherPrefix(results, failFast, n - 1);
      var b := Gather(results, failFast, n - 1).value;
      if !(|b.budgetErrors| > 0 && failFast) {
        var s := results[n - 1].value;
        assert (b.reports + [s])[..|b.reports|] == b.reports;
      }
    }
  }

  /** Without `failFast` every site is kept. */
  lemma {:induction false} GatherAll(results: seq<Result<SiteSummary>>, n: nat)
    requires n <= |results| && Gather(results, false, n).Ok?
    ensures |Gather(results, false, n).value.reports| == n
    decreases n
  {
    if n > 0 {
      GatherAll(results, n - 1);
    }
  }

  /** Without `failFast` the run fails exactly when some site's processing
      fails. */
  lemma {:induction false} GatherAllOk(results: seq<Result<SiteSummary>>, n: nat)
    requires n <= |results|
    ensures Gather(results, false, n).Ok? <==> forall i :: 0 <= i < n ==> results[i].Ok?
    decreases n
  {
    if n > 0 {
      GatherAllOk(results, n - 1);
    }
  }

  /** With `failFast`, no kept summary but the last has a budget message,
      and the run stops early only right after a site with one. */
  lemma {:induction false} GatherFailFast(results: seq<Result<SiteSummary>>, n: nat)
    requires n <= |results| && Gather(results, true, n).Ok?
    ensures var b := Gather(results, true, n).value;
      && (forall i :: 0 <= i < |b.reports| - 1 ==> b.reports[i].budget == [])
      && (|b.reports| < n ==> |b.reports| > 0 && b.reports[|b.reports| - 1].budget != [])
    decreases n
  {
    if n > 0 {
      GatherFailFast(results, n - 1);
      GatherPrefix(results, true, n - 1);
      var b := Gather(results, true, n - 1).value;
      if |b.budgetErrors| == 0 {
        AllBudgetsEmpty(b.reports);
      } else if |b.reports| > 0 {
        AllBudgetsEmptyPrefix(b.reports);
      }
    }
  }

  /** The run's summaries belong to the sites, in order; without
      `failFast` there is one per site. */
  lemma ExecuteSites(sites: seq<SiteInfo>, failFast: bool, t: Thresholds, audit: nat -> AuditOutcome)
    requires Execute(sites, failFast, t, audit).Ok?
    ensures var b := Execute(sites, failFast, t, audit).value;
      && |b.reports| <= |sites|
      && (forall i :: 0 <= i < |b.reports| ==> b.reports[i].info == sites[i])
      && b.budgetErrors == AllBudgets(b.reports)
      && (!failFast ==> |b.reports| == |sites|)
  {
    var results := Processed(sites, t, audit);
    GatherPrefix(results, failFast, |sites|);
    if !failFast {
      GatherAll(results, |sites|);
    }
  }

  lemma {:induction false} AllBudgetsEmpty(reports: seq<SiteSummary>)
    requires AllBudgets(reports) == []
    ensures forall i :: 0 <= i < |reports| ==> reports[i].budget == []
    decreases |reports|
  {
    if reports != [] {
      AllBudgetsEmpty(reports[..|reports| - 1]);
      assert forall i :: 0 <= i < |reports| - 1 ==> reports[..|reports| - 1][i] == reports[i];
    }
  }

  /** Messages, with no message before the last summary, come from the last. */
  lemma AllBudgetsEmptyPrefix(reports: seq<SiteSummary>)
    requires reports != [] && AllBudgets(reports) != []
    requires forall i :: 0 <= i < |reports| - 1 ==> reports[i].budget == []
    ensures reports[|reports| - 1].budget != []
  {
    var init := reports[..|reports| - 1];
    AllBudgetsNone(init);
  }

  lemma {:induction false} AllBudgetsNone(reports: seq<SiteSummary>)
    requires forall i :: 0 <= i < |reports| ==> reports[i].budget == []
    ensures AllBudgets(reports) == []
    decreases |reports|
  {
    if reports != [] {
      AllBudgetsNone(reports[..|reports| - 1]);
    }
  }

  /** `process.exit(1)` after the summary is written iff any budget
      message was gathered. */
  function ExitCode(b: Batch): (code: int)
    ensures code == 1 <==> b.budgetErrors != []
    ensures code == 0 || code == 1
  {
    if |b.budgetErrors| > 0 then 1 else 0
  }

  /** `execute`: the sites built from the file and the command line, then
      the run over all of them. */
  function Run(file: Option<Result<string>>, sites: seq<string>, failFast: bool, t: Thresholds,
               audit: nat -> AuditOutcome): (r: Result<Batch>)
    ensures file.Some? && file.value.Throws? ==> r.Throws?
    ensures r.Ok? ==> forall i :: 0 <= i < |r.value.reports| ==> HasScheme(r.value.reports[i].info.url)
    ensures r.Ok? ==> forall i, j :: 0 <= i < j < |r.value.reports| ==>
              r.value.reports[i].info.file != r.value.reports[j].info.file
    ensures r.Ok? ==> r.value.budgetErrors == AllBudgets(r.value.reports)
  {
    match SitesInfo(file, sites)
    case Throws(e) => Throws(e)
    case Ok(infos) =>
      var b := Execute(infos, failFast, t, audit);
      if b.Ok? then RunReports(infos, failFast, t, audit); b else b
  }

  /** The reports of a run carry the sites' normalised urls and pairwise
      distinct report files. */
  lemma RunReports(sites: seq<SiteInfo>, failFast: bool, t: Thresholds, audit: nat -> AuditOutcome)
    requires Execute(sites, failFast, t, audit).Ok?
    requires forall i :: 0 <= i < |sites| ==> HasScheme(sites[i].url) && sites[i].file == sites[i].name + JsonExt
    requires forall i, j :: 0 <= i < j < |sites| ==> sites[i].name != sites[j].name
    ensures var b := Execute(sites, failFast, t, audit).value;
      && (forall i :: 0 <= i < |b.reports| ==> HasScheme(b.reports[i].info.url))
      && (forall i, j :: 0 <= i < j < |b.reports| ==> b.reports[i].info.file != b.reports[j].info.file)
      && b.budgetErrors == AllBudgets(b.reports)
  {
    var b := Execute(sites, failFast, t, audit).value;
    ExecuteSites(sites, failFast, t, audit);
    forall i, j | 0 <= i < j < |b.reports| ensures b.reports[i].info.file != b.reports[j].info.file {
      if b.reports[i].info.file == b.reports[j].info.file {
        SuffixEqual(sites[i].name, sites[j].name, JsonExt);
      }
    }
  }

  /** Equal strings with a common suffix have equal prefixes. */
  lemma SuffixEqual(a: string, b: string, x: string)
    requires a + x == b + x
    ensures a == b
  {
    assert |a| == |b|;
    assert a == (a + x)[..|a|];
    assert b == (b + x)[..|b|];
  }
}

=== FILE: lighthouse_runner.dfy ===
/** The report-file naming of src/lighthouse-runner.ts and
    src/lighthouseRunner.ts. Both classes keep two static fields, an output
    directory and a run counter, and derive a runner's output file from the
    site's url, the form factor and the counter. The two files agree on all
    of this (their site-name regexes match the same strings), so one model
    serves both. Creating the directory and running the audit are left out. */
module LighthouseRunner {
  import opened Wrappers
  import opened Text
  import opened SiteTracker

  /** The static fields: `outputDir` ("" while unset: `undefined` and ""
      are both falsy) and `runID`. */
  datatype Statics = Statics(outputDir: string, runId: nat)

  /** The process starts with no directory and counter 0. */
  const Initial: Statics := Statics("", 0)

  /** The parts `fullPathOutputFileName` is built from; `Path` renders them. */
  datatype ReportFile = ReportFile(dir: string, name: string, formFactor: FormFactor, runId: nat)

  /** A runner as constructed: its url and form factor, and the directory
      and counter value it captured. The fields the constructor derives
      from these are the functions `OutputFileName`, `Report` and
      `FullPath` below. */
  datatype Runner = Runner(url: string, formFactor: FormFactor, outputDir: string, runId: nat)

  /** `outputFileName`: the site name of the url. */
  function OutputFileName(r: Runner): string {
    SiteName(r.url)
  }

  function Report(r: Runner): ReportFile {
    ReportFile(r.outputDir, OutputFileName(r), r.formFactor, r.runId)
  }

  /** `fullPathOutputFileName`. */
  function FullPath(r: Runner): string {
    Path(Report(r))
  }

  datatype Constructed = Constructed(statics: Statics, runner: Runner)

  /** `if (!outputDir) outputDir = dir`: the first non-empty directory sticks. */
  function DirAfter(current: string, dir: string): (r: string)
    ensures current != "" ==> r == current
    ensures current == "" ==> r == dir
  {
    if current == "" then dir else current
  }

  /** `${outputDir}/${name}_report_${formFactor}_${runID}.json` */
  function ReportPath(dir: string, name: string, ff: FormFactor, id: nat): string {
    (dir + "/") + ReportFileName(name, ff, id)
  }

  function Path(f: ReportFile): string {
    ReportPath(f.dir, f.name, f.formFactor, f.runId)
  }

  function ReportFileName(name: string, ff: FormFactor, id: nat): string {
    name + "_report_" + FormFactorName(ff) + "_" + NatToString(id) + ".json"
  }

  /** The constructor: the directory is set only while unset, the counter
      goes up by one, and the output path uses the new counter value. */
  function Construct(st: Statics, outputDir: string, url: string, ff: FormFactor): (r: Constructed)
    ensures r.statics.runId == st.runId + 1
    ensures st.outputDir != "" ==> r.statics.outputDir == st.outputDir
    ensures r.statics.outputDir == DirAfter(st.outputDir, outputDir)
    ensures r.runner.url == url && r.runner.formFactor == ff
    ensures r.runner.outputDir == r.statics.outputDir && r.runner.runId == r.statics.runId
  {
    var statics := Statics(DirAfter(st.outputDir, outputDir), st.runId + 1);
    Constructed(statics, Runner(url, ff, statics.outputDir, statics.runId))
  }

  /** `resetRunID`: the counter goes back to 0; the directory stays. */
  function ResetRunId(st: Statics): (r: Statics)
    ensures r.runId == 0 && r.outputDir == st.outputDir
  {
    st.(runId := 0)
  }

  /** Runners built one after another from `st` with no reset in between,
      each from the same directory argument; returns the final statics and
      the runners in order. */
  function ConstructAll(st: Statics, outputDir: string, requests: seq<(string, FormFactor)>): (r: (Statics, seq<Runner>))
    ensures |r.1| == |requests|
    ensures r.0.runId == st.runId + |requests|
    decreases |requests|
  {
    if requests == [] then (st, [])
    else
      var c := Construct(st, outputDir, requests[0].0, requests[0].1);
      var rest := ConstructAll(c.statics, outputDir, requests[1..]);
      (rest.0, [c.runner] + rest.1)
  }

  /** The k-th runner of a series (counting from 0) is the one a single
      construction builds from counter `runId + k`, with the directory the
      first construction fixed. */
  lemma {:induction false} ConstructAllRunners(st: Statics, outputDir: string, requests: seq<(string, FormFactor)>)
    ensures var r := ConstructAll(st, outputDir, requests);
      && r.0.outputDir == (if requests == [] then st.outputDir else DirAfter(st.outputDir, outputDir))
      && forall k :: 0 <= k < |requests| ==>
           r.1[k] == Construct(Statics(DirAfter(st.outputDir, outputDir), st.runId + k), outputDir, requests[k].0, requests[k].1).runner
    decreases |requests|
  {
    if requests != [] {
      var c := Construct(st, outputDir, requests[0].0, requests[0].1);
      var dir := DirAfter(st.outputDir, outputDir);
      ConstructAllRunners(c.statics, outputDir, requests[1..]);
      assert c.statics == Statics(dir, st.runId + 1);
      assert c == Construct(Statics(dir, st.runId), outputDir, requests[0].0, requests[0].1);
      var r := ConstructAll(st, outputDir, requests);
      var rest := ConstructAll(c.statics, outputDir, requests[1..]);
      assert r.1 == [c.runner] + rest.1;
      forall k | 1 <= k < |requests|
        ensures r.1[k] == Construct(Statics(dir, st.runId + k), outputDir, requests[k].0, requests[k].1).runner
      {
        assert r.1[k] == rest.1[k - 1];
        assert requests[1..][k - 1] == requests[k];
      }
    }
  }

  /** After a reset, the k-th runner (counting from 1) gets id k, so
      runners built between two resets write pairwise distinct files. */
  lemma RunnersBetweenResets(st: Statics, outputDir: string, requests: seq<(string, FormFactor)>)
    ensures var rs := ConstructAll(ResetRunId(st), outputDir, requests).1;
      forall k, l :: 0 <= k < l < |rs| ==> FullPath(rs[k]) != FullPath(rs[l])
  {
    var st0 := ResetRunId(st);
    var rs := ConstructAll(st0, outputDir, requests).1;
    var dir := DirAfter(st.outputDir, outputDir);
    ConstructAllRunners(st0, outputDir, requests);
    forall k, l | 0 <= k < l < |rs|
      ensures FullPath(rs[k]) != FullPath(rs[l])
    {
      var ck := Construct(Statics(dir, k), outputDir, requests[k].0, requests[k].1);
      var cl := Construct(Statics(dir, l), outputDir, requests[l].0, requests[l].1);
      assert rs[k] == ck.runner && rs[l] == cl.runner;
      ReportPathInjective(ck.statics.outputDir, OutputFileName(ck.runner), requests[k].1, k + 1,
                          OutputFileName(cl.runner), requests[l].1, l + 1);
    }
  }

  /** Every runner of a series writes into the directory the first
      construction fixed, whatever later constructions pass. */
  lemma RunnersShareDirectory(st: Statics, outputDir: string, requests: seq<(string, FormFactor)>)
    ensures var rs := ConstructAll(st, outputDir, requests).1;
      forall k :: 0 <= k < |rs| ==> StartsWith(FullPath(rs[k]), DirAfter(st.outputDir, outputDir) + "/")
  {
    var rs := ConstructAll(st, outputDir, requests).1;
    var dir := DirAfter(st.outputDir, outputDir);
    ConstructAllRunners(st, outputDir, requests);
    forall k | 0 <= k < |rs|
      ensures StartsWith(FullPath(rs[k]), dir + "/")
    {
      var ck := Construct(Statics(dir, st.runId + k), outputDir, requests[k].0, requests[k].1);
      assert rs[k] == ck.runner;
      ReportPathInDirectory(dir, OutputFileName(ck.runner), requests[k].1, st.runId + k + 1);
    }
  }

  lemma ReportPathInDirectory(dir: string, name: string, ff: FormFactor, id: nat)
    ensures StartsWith(ReportPath(dir, name, ff, id), dir + "/")
  {
    assert ReportPath(dir, name, ff, id)[..|dir + "/"|] == dir + "/";
  }

  /** A report path determines the site name, form factor and id it was
      built from. */
  lemma ReportPathInjective(dir: string, n1: string, f1: FormFactor, i1: nat, n2: string, f2: FormFactor, i2: nat)
    ensures ReportPath(dir, n1, f1, i1) == ReportPath(dir, n2, f2, i2) ==> n1 == n2 && f1 == f2 && i1 == i2
  {
    if ReportPath(dir, n1, f1, i1) == ReportPath(dir, n2, f2, i2) {
      PrefixCancel(dir + "/", ReportFileName(n1, f1, i1), ReportFileName(n2, f2, i2));
      var h1 := n1 + "_report_" + FormFactorName(f1);
      var h2 := n2 + "_report_" + FormFactorName(f2);
      var d1, d2 := NatToString(i1), NatToString(i2);
      SuffixCancel(h1 + "_" + d1, h2 + "_" + d2, ".json");
      DigitSuffix(h1 + "_", d1, h2 + "_", d2);
      NatToStringInjective(i1, i2);
      SuffixCancel(h1, h2, "_");
      assert h1 == n1 + ("_report_" + FormFactorName(f1));
      assert h2 == n2 + ("_report_" + FormFactorName(f2));
      FormFactorNameLast(n1, f1, n2, f2);
      SuffixCancel(n1, n2, "_report_" + FormFactorName(f1));
    }
  }

  lemma SuffixCancel(a: string, b: string, s: string)
    requires a + s == b + s
    ensures a == b
  {
    assert a == (a + s)[..|a|];
    assert b == (b + s)[..|b|];
  }

  lemma PrefixCancel(p: string, a: string, b: string)
    requires p + a == p + b
    ensures a == b
  {
    assert a == (p + a)[|p|..];
    assert b == (p + b)[|p|..];
  }

  /** Splitting a string before its trailing run of digits is unique when
      the character before the run is not a digit. */
  lemma DigitSuffix(p1: string, d1: string, p2: string, d2: string)
    requires |p1| > 0 && |p2| > 0 && !IsDigit(p1[|p1| - 1]) && !IsDigit(p2[|p2| - 1])
    requires forall k :: 0 <= k < |d1| ==> IsDigit(d1[k])
    requires forall k :: 0 <= k < |d2| ==> IsDigit(d2[k])
    requires p1 + d1 == p2 + d2
    ensures p1 == p2 && d1 == d2
  {
    var x := p1 + d1;
    assert !IsDigit(x[|p1| - 1]) && !IsDigit(x[|p2| - 1]);
    assert forall k :: |p1| <= k < |x| ==> IsDigit(x[k]);
    assert forall k :: |p2| <= k < |x| ==> IsDigit(x[k]);
    assert |p1| == |p2|;
    assert p1 == x[..|p1|] && p2 == x[..|p2|];
    assert d1 == x[|p1|..] && d2 == x[|p2|..];
  }

  /** `_report_desktop` and `_report_mobile` end in different characters. */
  lemma FormFactorNameLast(n1: string, f1: FormFactor, n2: string, f2: FormFactor)
    requires n1 + ("_report_" + FormFactorName(f1)) == n2 + ("_report_" + FormFactorName(f2))
    ensures f1 == f2
  {
    var t1, t2 := "_report_" + FormFactorName(f1), "_report_" + FormFactorName(f2);
    var x := n1 + t1;
    assert x[|x| - 1] == t1[|t1| - 1];
    assert x[|x| - 1] == t2[|t2| - 1];
  }

  // ---- getSiteName, first stage: the host/TLD-stripping regex ----
  // `^https?://(?:www\.)?(?<domain>[\d.a-z-]+)\.[.a-z]+(?<path>\/?.*)`
  // replaced by `$<domain>$<path>`: a matching url loses its scheme, its
  // `www.`, and the `\.[.a-z]+` run after the domain group. The regex has
  // no `i`, `m` or `s` flag.

  predicate IsDomainChar(c: char) {
    ('0' <= c <= '9') || ('a' <= c <= 'z') || c == '.' || c == '-'
  }

  predicate IsTldChar(c: char) {
    ('a' <= c <= 'z') || c == '.'
  }

  /** The length of `https://` or `http://` at the start of `url`. */
  function SchemeLength(url: string): (r: Option<nat>)
    ensures r.Some? ==> r.value <= |url|
  {
    if StartsWith(url, "https://") then Some(8)
    else if StartsWith(url, "http://") then Some(7)
    else None
  }

  /** With the domain group starting at `w`, `\.` can match at `i`: the
      group `s[w..i]` is non-empty and all domain characters, and a TLD
      character follows the dot. */
  predicate IsSplit(s: string, w: nat, i: nat) {
    && w < i
    && i + 1 < |s|
    && (forall k :: w <= k < i ==> IsDomainChar(s[k]))
    && s[i] == '.'
    && IsTldChar(s[i + 1])
  }

  /** A way the whole regex can match `url`: `w` is where the domain group
      starts (after the scheme, with or without `www.`) and `i` is where
      the `\.` after it matches. */
  predicate RegexMatch(url: string, w: nat, i: nat) {
    && SchemeLength(url).Some?
    && var p := SchemeLength(url).value;
    && (w == p || (w == p + 4 && p + 4 <= |url| && url[p..p + 4] == "www."))
    && IsSplit(url, w, i)
  }

  /** The length of the run of domain characters starting at `w`. */
  function DomainRun(s: string, w: nat): (r: nat)
    requires w <= |s|
    ensures w + r <= |s|
    ensures forall k :: w <= k < w + r ==> IsDomainChar(s[k])
    ensures w + r == |s| || !IsDomainChar(s[w + r])
    decreases |s| - w
  {
    if w < |s| && IsDomainChar(s[w]) then 1 + DomainRun(s, w + 1) else 0
  }

  /** The end of the run of TLD characters starting at `k`: where the
      greedy `[.a-z]+` stops. */
  function TldEnd(s: string, k: nat): (r: nat)
    requires k <= |s|
    ensures k <= r <= |s|
    ensures forall m :: k <= m < r ==> IsTldChar(s[m])
    ensures r == |s| || !IsTldChar(s[r])
    decreases |s| - k
  {
    if k < |s| && IsTldChar(s[k]) then TldEnd(s, k + 1) else k
  }

  /** The largest split point in `(w, i]`, searching downwards as the
      greedy domain group gives back one character at a time. */
  function LastSplit(s: string, w: nat, i: nat): (r: Option<nat>)
    requires i < |s|
    requires forall k :: w <= k < i ==> IsDomainChar(s[k])
    ensures r.Some? ==> w < r.value <= i && IsSplit(s, w, r.value)
    ensures forall k: nat :: w < k <= i && IsSplit(s, w, k) ==> r.Some? && k <= r.value
    decreases i
  {
    if i <= w then None
    else if i + 1 < |s| && s[i] == '.' && IsTldChar(s[i + 1]) then Some(i)
    else LastSplit(s, w, i - 1)
  }

  /** Where the regex's `\.` matches when the domain group starts at `w`:
      the last split point, since the domain group is greedy. */
  function SplitFrom(s: string, w: nat): (r: Option<nat>)
    requires w <= |s|
    ensures r.Some? ==> IsSplit(s, w, r.value)
    ensures forall k: nat :: IsSplit(s, w, k) ==> r.Some? && k <= r.value
  {
    var run := DomainRun(s, w);
    if run == 0 then None
    else
      assert forall k: nat :: IsSplit(s, w, k) ==> k <= w + run - 1;
      LastSplit(s, w, w + run - 1)
  }

  /** The first stage of `getSiteName`. `www.` is tried first, then the
      domain group from right after the scheme; within each, the greedy
      domain group picks the last possible split. A url the regex does not
      match comes back unchanged. */
  function HostStage(url: string): (r: string)
    ensures HostMatch(url).None? ==> r == url
    ensures HostMatch(url).Some? ==>
              var (w, i) := HostMatch(url).value;
              r == url[w..i] + url[TldEnd(url, i + 1)..]
  {
    match HostMatch(url)
    case None => url
    case Some((w, i)) => url[w..i] + url[TldEnd(url, i + 1)..]
  }

  /** The match the regex engine settles on, as (start of the domain group,
      position of the `\.`). */
  function HostMatch(url: string): (r: Option<(nat, nat)>)
    ensures r.Some? ==> RegexMatch(url, r.value.0, r.value.1)
  {
    match SchemeLength(url)
    case None => None
    case Some(p) =>
      if p + 4 <= |url| && url[p..p + 4] == "www." && SplitFrom(url, p + 4).Some? then
        Some((p + 4, SplitFrom(url, p + 4).value))
      else if SplitFrom(url, p).Some? then
        Some((p, SplitFrom(url, p).value))
      else
        None
  }

  /** The regex matches exactly when `HostMatch` finds a match, and the one
      it finds is the one backtracking reaches first: the `www.` branch
      before the bare one, and within a branch the last split point. */
  lemma HostMatchFirst(url: string)
    ensures HostMatch(url).None? <==> forall w: nat, i: nat :: !RegexMatch(url, w, i)
    ensures HostMatch(url).Some? ==>
              forall w: nat, i: nat :: RegexMatch(url, w, i) ==>
                w < HostMatch(url).value.0 || (w == HostMatch(url).value.0 && i <= HostMatch(url).value.1)
  {
    if SchemeLength(url).Some? {
      var p := SchemeLength(url).value;
      forall w: nat, i: nat | RegexMatch(url, w, i)
        ensures HostMatch(url).Some?
        ensures w < HostMatch(url).value.0 || (w == HostMatch(url).value.0 && i <= HostMatch(url).value.1)
      {
        if w == p + 4 && p + 4 <= |url| && url[p..p + 4] == "www." {
          assert IsSplit(url, p + 4, i);
        } else {
          assert w == p && IsSplit(url, p, i);
        }
      }
    }
  }

  /** The characters the second stage replaces: `! # $ * + . / : ? @`. */
  const Special: set<char> := {'!', '#', '$', '*', '+', '.', '/', ':', '?', '@'}

  /** `getSiteName`: the first stage, then every special character becomes
      `-`, one for one. */
  function SiteName(url: string): (r: string)
    ensures |r| == |HostStage(url)|
    ensures forall c :: c in r ==> c !in Special
    ensures forall k :: 0 <= k < |r| ==>
              r[k] == (if HostStage(url)[k] in Special then '-' else HostStage(url)[k])
  {
    ReplaceCharsRemovesClass(HostStage(url), Special, '-');
    ReplaceChars(HostStage(url), Special, '-')
  }

  /** Two sites that differ only in their top-level domain get the same
      name, so their reports at the same form factor and id share a path. */
  lemma SiteNameIgnoresTld()
    ensures SiteName("http://a.b.io") == SiteName("http://a.b.co") == "a-b"
    ensures ReportPath("out", SiteName("http://a.b.io"), Desktop, 1)
         == ReportPath("out", SiteName("http://a.b.co"), Desktop, 1)
  {
    TwoLetterTldDropped('i', 'o');
    TwoLetterTldDropped('c', 'o');
    assert "http://a.b." + ['i', 'o'] == "http://a.b.io";
    assert "http://a.b." + ['c', 'o'] == "http://a.b.co";
  }

  lemma TwoLetterTldDropped(x: char, y: char)
    requires 'a' <= x <= 'z' && 'a' <= y <= 'z'
    ensures SiteName("http://a.b." + [x, y]) == "a-b"
  {
    var u := "http://a.b." + [x, y];
    TwoLetterTldHost(x, y);
    var r := SiteName(u);
    assert HostStage(u) == "a.b";
    assert r[0] == 'a' && r[1] == '-' && r[2] == 'b';
  }

  lemma TwoLetterTldHost(x: char, y: char)
    requires 'a' <= x <= 'z' && 'a' <= y <= 'z'
    ensures HostStage("http://a.b." + [x, y]) == "a.b"
  {
    var u := "http://a.b." + [x, y];
    assert SchemeLength(u) == Some(7) by {
      assert !StartsWith(u, "https://") by { assert u[..8][4] != "https://"[4]; }
      assert u[..7] == "http://";
    }
    assert SplitFrom(u, 7) == Some(10) by {
      assert DomainRun(u, 13) == 0;
      assert DomainRun(u, 7) == 6;
      assert LastSplit(u, 7, 12) == Some(10);
    }
    assert TldEnd(u, 11) == 13 by {
      assert TldEnd(u, 13) == 13;
    }
    assert HostMatch(u) == Some((7, 10));
    assert u[7..10] == "a.b";
  }
}

=== FILE: report_analyzer.dfy ===
/** Score extraction of src/lighthouse-report-analyzer.ts. The parsed
    report is a datatype whose optional JSON fields are `Option`s; reading
    the file and parsing it are left out. Everything the class computes is
    computed in its constructor, so a report that lacks the performance
    category or one of the six audits makes the constructor throw. */
module ReportAnalyzer {
  import opened Wrappers
  import opened SiteTracker

  /** One entry of the report's `audits` object. */
  datatype Audit = Audit(numericValue: Option<real>, numericUnit: Option<string>)

  datatype AuditRef = AuditRef(id: string, weight: real)

  /** `categories.performance`: its score may be null. */
  datatype Category = Category(score: Option<real>, auditRefs: seq<AuditRef>)

  datatype Report = Report(requestedUrl: string, formFactor: FormFactor,
                           performance: Option<Category>, audits: map<string, Audit>)

  datatype AuditScore = AuditScore(score: int, scoreType: string, weight: real)

  datatype Metrics = Metrics(performance: real, audits: map<string, AuditScore>)

  /** A constructed `LighthouseReport`: the parsed results and the scores
      computed from them. */
  datatype Analyzed = Analyzed(results: Report, score: Metrics)

  /** The fixed audit list, in the order the constructor reads it. */
  const AuditNames: seq<string> := [
    "cumulative-layout-shift",
    "first-contentful-paint",
    "interactive",
    "largest-contentful-paint",
    "speed-index",
    "total-blocking-time"
  ]

  const PerformanceKey: string := "performance"

  /** `getPerformanceScore`: the category score, 0 when it is null; reading
      a missing category throws. */
  function PerformanceScore(r: Report): (res: Result<real>)
    ensures res.Throws? <==> r.performance.None?
    ensures r.performance.Some? && r.performance.value.score.Some? ==> res == Ok(r.performance.value.score.value)
    ensures r.performance.Some? && r.performance.value.score.None? ==> res == Ok(0.0)
  {
    match r.performance
    case None => Throws("categories.performance is undefined")
    case Some(category) => Ok(category.score.GetOr(0.0))
  }

  /** `getAudit`: reading a field of a missing audit throws. */
  function GetAudit(r: Report, name: string): (res: Result<Audit>)
    ensures res.Ok? <==> name in r.audits
    ensures res.Ok? ==> res.value == r.audits[name]
  {
    if name in r.audits then Ok(r.audits[name]) else Throws("audit " + name + " is undefined")
  }

  /** `getAuditScore`: the numeric value (0 when missing), floored. */
  function AuditScoreValue(r: Report, name: string): (res: Result<int>)
    ensures res.Ok? <==> name in r.audits
    ensures res.Ok? && r.audits[name].numericValue.Some? ==>
              var v := r.audits[name].numericValue.value;
              res.value as real <= v < res.value as real + 1.0
    ensures res.Ok? && r.audits[name].numericValue.None? ==> res.value == 0
  {
    match GetAudit(r, name)
    case Throws(e) => Throws(e)
    case Ok(audit) => Ok(audit.numericValue.GetOr(0.0).Floor)
  }

  /** `getAuditScoreType`: the unit, `'unitless'` when missing. */
  function AuditScoreType(r: Report, name: string): (res: Result<string>)
    ensures res.Ok? <==> name in r.audits
    ensures res.Ok? && r.audits[name].numericUnit.Some? ==> res.value == r.audits[name].numericUnit.value
    ensures res.Ok? && r.audits[name].numericUnit.None? ==> res.value == "unitless"
  {
    match GetAudit(r, name)
    case Throws(e) => Throws(e)
    case Ok(audit) => Ok(audit.numericUnit.GetOr("unitless"))
  }

  /** `Array.prototype.find` on the audit refs: the first ref with that id. */
  function FirstRef(refs: seq<AuditRef>, id: string): (r: Option<AuditRef>)
    ensures r.None? <==> forall i :: 0 <= i < |refs| ==> refs[i].id != id
    ensures r.Some? ==> exists i :: 0 <= i < |refs| && refs[i] == r.value && refs[i].id == id &&
                                    forall j :: 0 <= j < i ==> refs[j].id != id
  {
    if refs == [] then None
    else if refs[0].id == id then
      assert refs[0].id == id;
      Some(refs[0])
    else
      var rest := FirstRef(refs[1..], id);
      assert forall i :: 0 <= i < |refs| - 1 ==> refs[1..][i] == refs[i + 1];
      if rest.Some? then
        var i :| 0 <= i < |refs[1..]| && refs[1..][i] == rest.value && refs[1..][i].id == id &&
                 forall j :: 0 <= j < i ==> refs[1..][j].id != id;
        assert refs[i + 1] == rest.value && forall j :: 0 <= j < i + 1 ==> refs[j].id != id;
        rest
      else
        rest
  }

  /** `getAuditWeight`: the first matching ref's weight, 0 when none
      matches; reading the refs of a missing category throws. */
  function AuditWeight(r: Report, name: string): (res: Result<real>)
    ensures res.Throws? <==> r.performance.None?
    ensures res.Ok? ==> var ref := FirstRef(r.performance.value.auditRefs, name);
                        res.value == (if ref.Some? then ref.value.weight else 0.0)
  {
    match r.performance
    case None => Throws("categories.performance is undefined")
    case Some(category) =>
      match FirstRef(category.auditRefs, name)
      case None => Ok(0.0)
      case Some(ref) => Ok(ref.weight)
  }

  /** The record `getAllAuditScores` stores for one audit: score, then
      type, then weight, each read in that order. */
  function AuditScoreOf(r: Report, name: string): (res: Result<AuditScore>)
    ensures res.Ok? <==> name in r.audits && r.performance.Some?
    ensures res.Ok? ==> res.value == AuditScore(AuditScoreValue(r, name).value, AuditScoreType(r, name).value,
                                                AuditWeight(r, name).value)
  {
    match AuditScoreValue(r, name)
    case Throws(e) => Throws(e)
    case Ok(score) =>
      match AuditScoreType(r, name)
      case Throws(e) => Throws(e)
      case Ok(scoreType) =>
        match AuditWeight(r, name)
        case Throws(e) => Throws(e)
        case Ok(weight) => Ok(AuditScore(score, scoreType, weight))
  }

  /** `getAllAuditScores` over a list of audit names, in order: the first
      audit that cannot be read makes the whole call throw. */
  function AllAuditScores(r: Report, names: seq<string>): (res: Result<map<string, AuditScore>>)
    ensures res.Ok? <==> forall i :: 0 <= i < |names| ==> AuditScoreOf(r, names[i]).Ok?
    ensures res.Ok? ==> res.value.Keys == set i | 0 <= i < |names| :: names[i]
    ensures res.Ok? ==> forall n :: n in res.value ==> res.value[n] == AuditScoreOf(r, n).value
    ensures res.Throws? ==> exists i :: 0 <= i < |names| && FirstFailure(r, names, i) && res.reason == AuditScoreOf(r, names[i]).reason
    decreases |names|
  {
    if names == [] then Ok(map[])
    else
      assert forall i :: 0 <= i < |names| - 1 ==> names[1..][i] == names[i + 1];
      match AuditScoreOf(r, names[0])
      case Throws(e) =>
        assert FirstFailure(r, names, 0);
        Throws(e)
      case Ok(s) =>
        match AllAuditScores(r, names[1..])
        case Throws(e) =>
          var i :| 0 <= i < |names[1..]| && FirstFailure(r, names[1..], i) && e == AuditScoreOf(r, names[1..][i]).reason;
          assert FirstFailure(r, names, i + 1);
          Throws(e)
        case Ok(rest) =>
          ElementsCons(names);
          Ok(rest[names[0] := s])
  }

  /** The `i`-th name is the first whose audit record cannot be built. */
  predicate FirstFailure(r: Report, names: seq<string>, i: nat)
    requires i < |names|
  {
    AuditScoreOf(r, names[i]).Throws? && forall j :: 0 <= j < i ==> AuditScoreOf(r, names[j]).Ok?
  }

  /** A report `getScores` can read: it has the performance category and
      every fixed audit. */
  predicate Readable(r: Report) {
    r.performance.Some? && forall n :: n in AuditNames ==> n in r.audits
  }

  /** `getScores`: the performance score first, then the audits. */
  function GetScores(r: Report): (res: Result<Metrics>)
    ensures res.Ok? <==> Readable(r)
    ensures res.Ok? ==> res.value.performance == PerformanceScore(r).value
    ensures res.Ok? ==> res.value.audits.Keys == set n | n in AuditNames
    ensures res.Ok? ==> forall n :: n in res.value.audits ==> res.value.audits[n] == AuditScoreOf(r, n).value
  {
    match PerformanceScore(r)
    case Throws(e) => Throws(e)
    case Ok(performance) =>
      match AllAuditScores(r, AuditNames)
      case Throws(e) => Throws(e)
      case Ok(audits) =>
        assert (set i | 0 <= i < |AuditNames| :: AuditNames[i]) == set n | n in AuditNames;
        Ok(Metrics(performance, audits))
  }

  /** The constructor, after the file is read and parsed. */
  function NewReport(r: Report): (res: Result<Analyzed>)
    ensures res.Ok? <==> Readable(r)
    ensures res.Ok? ==> res.value.results == r && res.value.score == GetScores(r).value
  {
    match GetScores(r)
    case Throws(e) => Throws(e)
    case Ok(m) => Ok(Analyzed(r, m))
  }

  function GetUrl(a: Analyzed): string {
    a.results.requestedUrl
  }

  function GetFormFactor(a: Analyzed): FormFactor {
    a.results.formFactor
  }

  /** `getSummarizedScores`: `'performance'` is set first and then every
      audit's score, so an audit of that name would win. */
  function GetSummarizedScores(a: Analyzed): (m: map<string, real>)
    ensures m.Keys == {PerformanceKey} + a.score.audits.Keys
    ensures forall n :: n in a.score.audits ==> m[n] == a.score.audits[n].score as real
    ensures PerformanceKey !in a.score.audits ==> m[PerformanceKey] == a.score.performance
  {
    map[PerformanceKey := a.score.performance] + map n | n in a.score.audits :: a.score.audits[n].score as real
  }

  lemma ElementsCons<T>(xs: seq<T>)
    requires xs != []
    ensures (set i | 0 <= i < |xs| :: xs[i]) == {xs[0]} + (set i | 0 <= i < |xs[1..]| :: xs[1..][i])
  {
    var whole := set i | 0 <= i < |xs| :: xs[i];
    var tail := set i | 0 <= i < |xs[1..]| :: xs[1..][i];
    forall x | x in whole ensures x in {xs[0]} + tail {
      var i :| 0 <= i < |xs| && xs[i] == x;
      if i > 0 {
        assert xs[1..][i - 1] == x;
      }
    }
    forall x | x in tail ensures x in whole {
      var i :| 0 <= i < |xs[1..]| && xs[1..][i] == x;
      assert xs[i + 1] == x;
    }
    assert xs[0] in whole;
  }

  /** For a report the constructor accepts, the summarized map holds
      exactly `'performance'` and the six audits: the performance score
      (0 when null) and each audit's floored value (0 when missing). */
  lemma SummarizedScores(r: Report)
    requires Readable(r)
    ensures NewReport(r).Ok?
    ensures var m := GetSummarizedScores(NewReport(r).value);
      && m.Keys == {PerformanceKey} + set n | n in AuditNames
      && |m.Keys| == 7
      && m[PerformanceKey] == r.performance.value.score.GetOr(0.0)
      && forall n :: n in AuditNames ==> m[n] == AuditScoreValue(r, n).value as real
  {
    var a := NewReport(r).value;
    SummarizedOf(a, r, set n | n in AuditNames);
    AuditKeyCount();
  }

  /** The same, for any analyzer holding the report's scores. */
  lemma SummarizedOf(a: Analyzed, r: Report, names: set<string>)
    requires Readable(r) && a.score == GetScores(r).value
    requires names == set n | n in AuditNames
    ensures var m := GetSummarizedScores(a);
      && m.Keys == {PerformanceKey} + names
      && m[PerformanceKey] == r.performance.value.score.GetOr(0.0)
      && forall n :: n in names ==> m[n] == AuditScoreValue(r, n).value as real
  {
    PerformanceNotAudit();
  }

  lemma PerformanceNotAudit()
    ensures PerformanceKey !in AuditNames
  {
    forall i | 0 <= i < |AuditNames| ensures AuditNames[i] != PerformanceKey {
      assert AuditNames[i][0] != PerformanceKey[0];
    }
  }

  lemma AuditKeyCount()
    ensures |{PerformanceKey} + set n | n in AuditNames| == 7
  {
    var firsts := seq(|AuditNames|, i requires 0 <= i < |AuditNames| => AuditNames[i][0]);
    assert firsts == ['c', 'f', 'i', 'l', 's', 't'];
    forall i, j | 0 <= i < j < |AuditNames| ensures AuditNames[i] != AuditNames[j] {
      assert firsts[i] != firsts[j];
    }
    DistinctCard(AuditNames);
    PerformanceNotAudit();
  }

  /** A sequence without repeats has as many distinct elements as entries. */
  lemma {:induction false} DistinctCard<T>(xs: seq<T>)
    requires forall i, j :: 0 <= i < j < |xs| ==> xs[i] != xs[j]
    ensures |set x | x in xs| == |xs|
  {
    if xs != [] {
      DistinctCard(xs[1..]);
      assert (set x | x in xs) == {xs[0]} + set x | x in xs[1..];
      assert xs[0] !in xs[1..];
    }
  }
}

=== FILE: site_metrics.dfy ===
/** The metric store of src/site-metrics.ts: like src/siteMetrics.ts, but
    each record also carries a list of console errors. Form factors are
    nested under `scores`; the identity is the url alone. */
module SiteMetrics {
  import opened Wrappers
  import UrlStore
  import SummaryMetrics

  datatype SiteMetric = SiteMetric(url: string, scores: SummaryMetrics.Scores, errors: seq<string>)

  function MetricUrl(m: SiteMetric): string {
    m.url
  }

  type Store = seq<SiteMetric>

  /** `entryExists`: identity is the url alone. */
  predicate EntryExists(store: Store, metric: SiteMetric) {
    UrlStore.Has(store, MetricUrl, metric.url)
  }

  /** `create`: the record is stored as given, after the existing ones. */
  function Create(store: Store, metric: SiteMetric): (r: Store)
    ensures |r| == |store| + 1 && r[..|store|] == store
    ensures !EntryExists(store, metric) ==> GetSiteScores(r, metric.url) == Some(metric)
    ensures forall u :: u != metric.url ==> GetSiteScores(r, u) == GetSiteScores(store, u)
  {
    UrlStore.LookupAppend(store, MetricUrl, metric, metric.url);
    forall u | u != metric.url ensures GetSiteScores(store + [metric], u) == GetSiteScores(store, u) {
      UrlStore.LookupAppend(store, MetricUrl, metric, u);
    }
    store + [metric]
  }

  /** `update`: the callback assigns `s = {...s, ...site}` to its own
      parameter and returns nothing, so no stored record changes. */
  function Update(store: Store, metric: SiteMetric): (r: Store)
    ensures forall u :: GetSiteScores(r, u) == GetSiteScores(store, u)
  {
    store
  }

  /** `createOrUpdate`: never creates a second record for a url; the first
      record written for a url wins. */
  function CreateOrUpdate(store: Store, metric: SiteMetric): (r: Store)
    ensures UrlStore.UniqueUrls(store, MetricUrl) ==> UrlStore.UniqueUrls(r, MetricUrl)
    ensures GetSiteScores(r, metric.url) ==
      (if EntryExists(store, metric) then GetSiteScores(store, metric.url) else Some(metric))
    ensures forall u :: u != metric.url ==> GetSiteScores(r, u) == GetSiteScores(store, u)
  {
    if EntryExists(store, metric) then Update(store, metric) else Create(store, metric)
  }

  /** `getSiteScores`: the first record whose url matches, or nothing when
      no record does. */
  function GetSiteScores(store: Store, url: string): (r: Option<SiteMetric>)
    ensures r.None? <==> forall i :: 0 <= i < |store| ==> store[i].url != url
    ensures r.Some? ==>
      exists i :: (0 <= i < |store| && store[i] == r.value && store[i].url == url
                   && forall j :: 0 <= j < i ==> store[j].url != url)
  {
    FirstMatch(store, url)
  }

  function FirstMatch(store: Store, url: string): (r: Option<SiteMetric>)
    ensures r == UrlStore.Lookup(store, MetricUrl, url)
    ensures r.Some? ==>
      exists i :: (0 <= i < |store| && store[i] == r.value && store[i].url == url
                   && forall j :: 0 <= j < i ==> store[j].url != url)
  {
    if store == [] then None
    else if store[0].url == url then
      assert store[0] == store[0] && store[0].url == url;
      Some(store[0])
    else
      var r := FirstMatch(store[1..], url);
      if r.Some? then
        var i :| 0 <= i < |store[1..]| && store[1..][i] == r.value && store[1..][i].url == url
          && forall j :: 0 <= j < i ==> store[1..][j].url != url;
        assert store[i + 1] == r.value;
        assert forall j :: 0 <= j < i + 1 ==> store[j].url != url by {
          forall j | 0 <= j < i + 1 ensures store[j].url != url {
            if j > 0 { assert store[j] == store[1..][j - 1]; }
          }
        }
        r
      else r
  }

  /** `clean`: no url is left in the collection. */
  function Clean(store: Store): (r: Store)
    ensures forall u :: GetSiteScores(r, u) == None
  {
    []
  }
}

=== FILE: site_tracker.dfy ===
/** The resumable site work-queue of src/site-tracker.ts: a collection of
    work items identified by (url, formFactor), with an upsert, two point
    status updates, a "still unprocessed" query and a reset.

    The persistence layer is modelled as an in-memory sequence in insertion
    order: `create` appends, `has` asks whether some record matches, `update`
    rewrites every matching record and `remove()` drops them all. */
module SiteTracker {
  import opened Wrappers

  datatype FormFactor = Desktop | Mobile

  /** The name the source uses for a form factor in file names and maps. */
  function FormFactorName(ff: FormFactor): string {
    match ff
    case Desktop => "desktop"
    case Mobile => "mobile"
  }

  datatype Site = Site(url: string, formFactor: FormFactor, finished: bool, errors: bool)

  type Store = seq<Site>

  predicate Matches(s: Site, url: string, ff: FormFactor) {
    s.url == url && s.formFactor == ff
  }

  /** `entryExists`: some record has the identity (url, ff). */
  predicate EntryExists(store: Store, url: string, ff: FormFactor) {
    exists i :: 0 <= i < |store| && Matches(store[i], url, ff)
  }

  /** The identities present in the store. */
  function Keys(store: Store): set<(string, FormFactor)> {
    set i | 0 <= i < |store| :: (store[i].url, store[i].formFactor)
  }

  /** The queue's invariant: at most one record per (url, formFactor). */
  predicate UniqueKeys(store: Store) {
    forall i, j :: 0 <= i < j < |store| ==>
      store[i].url != store[j].url || store[i].formFactor != store[j].formFactor
  }

  lemma KeysMeansExists(store: Store, url: string, ff: FormFactor)
    ensures (url, ff) in Keys(store) <==> EntryExists(store, url, ff)
  {
    if EntryExists(store, url, ff) {
      var i :| 0 <= i < |store| && Matches(store[i], url, ff);
      assert (store[i].url, store[i].formFactor) in Keys(store);
    }
  }

  lemma KeysAppend(store: Store, site: Site)
    ensures Keys(store + [site]) == Keys(store) + {(site.url, site.formFactor)}
  {
    var r := store + [site];
    forall k | k in Keys(r) ensures k in Keys(store) + {(site.url, site.formFactor)} {
      var i :| 0 <= i < |r| && k == (r[i].url, r[i].formFactor);
      if i < |store| {
        assert k == (store[i].url, store[i].formFactor);
      }
    }
    forall k | k in Keys(store) ensures k in Keys(r) {
      var i :| 0 <= i < |store| && k == (store[i].url, store[i].formFactor);
      assert r[i] == store[i];
    }
    assert r[|store|] == site;
  }

  /** The first record with identity (url, ff), if any. */
  function Find(store: Store, url: string, ff: FormFactor): (r: Option<Site>)
    ensures r.None? <==> !EntryExists(store, url, ff)
    ensures r.Some? ==> r.value in store && Matches(r.value, url, ff)
  {
    if store == [] then None
    else if Matches(store[0], url, ff) then Some(store[0])
    else
      var r := Find(store[1..], url, ff);
      assert EntryExists(store[1..], url, ff) ==> EntryExists(store, url, ff) by {
        if EntryExists(store[1..], url, ff) {
          var i :| 0 <= i < |store[1..]| && Matches(store[1..][i], url, ff);
          assert Matches(store[i + 1], url, ff);
        }
      }
      r
  }

  /** The record kinds `update` callbacks in the source assign to. */
  datatype Flag = Finished | Errors

  function WithFlag(s: Site, flag: Flag, value: bool): Site {
    match flag
    case Finished => s.(finished := value)
    case Errors => s.(errors := value)
  }

  /** `sitesDB.update(s => { s.<flag> = value }, s => s.url === url && s.formFactor === ff)`:
      every record with that identity gets the flag set, nothing else changes. */
  function SetFlag(store: Store, url: string, ff: FormFactor, flag: Flag, value: bool): (r: Store)
    ensures |r| == |store|
    ensures forall i :: 0 <= i < |store| ==>
      r[i] == (if Matches(store[i], url, ff) then WithFlag(store[i], flag, value) else store[i])
  {
    if store == [] then []
    else
      [if Matches(store[0], url, ff) then WithFlag(store[0], flag, value) else store[0]]
      + SetFlag(store[1..], url, ff, flag, value)
  }

  /** Setting a flag never changes any identity, so the key set and the
      uniqueness invariant are kept, and with no matching record it is a no-op. */
  lemma SetFlagKeepsKeys(store: Store, url: string, ff: FormFactor, flag: Flag, value: bool)
    ensures Keys(SetFlag(store, url, ff, flag, value)) == Keys(store)
    ensures UniqueKeys(SetFlag(store, url, ff, flag, value)) <==> UniqueKeys(store)
    ensures !EntryExists(store, url, ff) ==> SetFlag(store, url, ff, flag, value) == store
  {
    var r := SetFlag(store, url, ff, flag, value);
    assert forall i :: 0 <= i < |store| ==>
      r[i].url == store[i].url && r[i].formFactor == store[i].formFactor;
    forall k | k in Keys(r) ensures k in Keys(store) {
      var i :| 0 <= i < |r| && k == (r[i].url, r[i].formFactor);
      assert k == (store[i].url, store[i].formFactor);
    }
    forall k | k in Keys(store) ensures k in Keys(r) {
      var i :| 0 <= i < |store| && k == (store[i].url, store[i].formFactor);
      assert k == (r[i].url, r[i].formFactor);
    }
  }

  /** `create`: stores a copy of the given site after every existing record. */
  function Create(store: Store, site: Site): (r: Store)
    ensures Keys(r) == Keys(store) + {(site.url, site.formFactor)}
    ensures !EntryExists(store, site.url, site.formFactor) ==>
      Find(r, site.url, site.formFactor) == Some(site)
    ensures UniqueKeys(store) && !EntryExists(store, site.url, site.formFactor) ==> UniqueKeys(r)
    ensures forall u, f :: (u != site.url || f != site.formFactor) ==> Find(r, u, f) == Find(store, u, f)
  {
    KeysAppend(store, site);
    FindAppend(store, site);
    store + [site]
  }

  lemma {:induction false} FindAppend(store: Store, site: Site)
    ensures !EntryExists(store, site.url, site.formFactor) ==>
      Find(store + [site], site.url, site.formFactor) == Some(site)
    ensures forall u, f :: (u != site.url || f != site.formFactor) ==>
      Find(store + [site], u, f) == Find(store, u, f)
  {
    if store != [] {
      assert (store + [site])[1..] == store[1..] + [site];
      FindAppend(store[1..], site);
      assert forall i :: 0 <= i < |store[1..]| ==> store[1..][i] == store[i + 1];
    }
  }

  /** `update`: re-enqueuing an existing identity only clears its error flag;
      `finished`, `url` and `formFactor` stay as they were. */
  function Update(store: Store, site: Site): (r: Store)
    ensures |r| == |store| && Keys(r) == Keys(store)
    ensures UniqueKeys(r) <==> UniqueKeys(store)
    ensures forall i :: 0 <= i < |store| ==>
      && r[i].url == store[i].url && r[i].formFactor == store[i].formFactor
      && r[i].finished == store[i].finished
      && r[i].errors == (store[i].errors && !Matches(store[i], site.url, site.formFactor))
  {
    SetFlagKeepsKeys(store, site.url, site.formFactor, Errors, false);
    SetFlag(store, site.url, site.formFactor, Errors, false)
  }

  /** `createOrUpdate`: an upsert by (url, formFactor) that never adds a
      second record for an identity already present. */
  function CreateOrUpdate(store: Store, site: Site): (r: Store)
    ensures Keys(r) == Keys(store) + {(site.url, site.formFactor)}
    ensures UniqueKeys(store) ==> UniqueKeys(r)
    ensures EntryExists(store, site.url, site.formFactor) ==> r == Update(store, site)
    ensures !EntryExists(store, site.url, site.formFactor) ==> r == store + [site]
  {
    if EntryExists(store, site.url, site.formFactor) then
      KeysMeansExists(store, site.url, site.formFactor);
      Update(store, site)
    else Create(store, site)
  }

  /** Re-enqueuing never clears `finished`: the record for the identity is
      the old one with `errors` reset, or the given site when it was new. */
  lemma CreateOrUpdateRecord(store: Store, site: Site)
    requires UniqueKeys(store)
    ensures var r := CreateOrUpdate(store, site);
      match Find(store, site.url, site.formFactor)
      case Some(prev) => Find(r, site.url, site.formFactor) == Some(prev.(errors := false))
      case None => Find(r, site.url, site.formFactor) == Some(site)
  {
    var r := CreateOrUpdate(store, site);
    if EntryExists(store, site.url, site.formFactor) {
      UpdateFind(store, site, site.url, site.formFactor);
    }
  }

  /** How `update` is seen through `Find`: the matching record loses its
      error flag, every other identity reads as before. */
  lemma {:induction false} UpdateFind(store: Store, site: Site, url: string, ff: FormFactor)
    ensures Find(Update(store, site), url, ff) ==
      (if url == site.url && ff == site.formFactor
       then (match Find(store, url, ff) case Some(s) => Some(s.(errors := false)) case None => None)
       else Find(store, url, ff))
  {
    if store != [] {
      var r := Update(store, site);
      assert r[1..] == Update(store[1..], site);
      UpdateFind(store[1..], site, url, ff);
    }
  }

  /** Enqueuing the same identity twice leaves exactly one record for it. */
  lemma EnqueueTwiceOneRecord(store: Store, site: Site)
    requires UniqueKeys(store)
    ensures var r := CreateOrUpdate(CreateOrUpdate(store, site), site);
      UniqueKeys(r) && EntryExists(r, site.url, site.formFactor)
      && |r| == |store| + (if EntryExists(store, site.url, site.formFactor) then 0 else 1)
  {
    var r1 := CreateOrUpdate(store, site);
    KeysMeansExists(r1, site.url, site.formFactor);
    KeysMeansExists(CreateOrUpdate(r1, site), site.url, site.formFactor);
  }

  /** `updateSiteAsFinished`: sets `finished` on the record with both keys
      and on no other. */
  function MarkFinished(store: Store, url: string, ff: FormFactor): (r: Store)
    ensures |r| == |store|
    ensures forall i :: 0 <= i < |store| ==>
      && r[i].url == store[i].url && r[i].formFactor == store[i].formFactor
      && r[i].errors == store[i].errors
      && r[i].finished == (store[i].finished || Matches(store[i], url, ff))
  {
    SetFlag(store, url, ff, Finished, true)
  }

  /** `updateSiteAsErrorOccurred`: sets `errors` on the record with both
      keys and on no other, and never touches `finished`. */
  function MarkErrored(store: Store, url: string, ff: FormFactor): (r: Store)
    ensures |r| == |store|
    ensures forall i :: 0 <= i < |store| ==>
      && r[i].url == store[i].url && r[i].formFactor == store[i].formFactor
      && r[i].finished == store[i].finished
      && r[i].errors == (store[i].errors || Matches(store[i], url, ff))
  {
    SetFlag(store, url, ff, Errors, true)
  }

  /** Neither status update adds, drops or re-keys a record, so both keep
      the queue's invariant; with no matching record, both are no-ops. */
  lemma MarkKeepsKeys(store: Store, url: string, ff: FormFactor)
    ensures Keys(MarkFinished(store, url, ff)) == Keys(store) == Keys(MarkErrored(store, url, ff))
    ensures UniqueKeys(MarkFinished(store, url, ff)) <==> UniqueKeys(store)
    ensures UniqueKeys(MarkErrored(store, url, ff)) <==> UniqueKeys(store)
    ensures !EntryExists(store, url, ff) ==> MarkFinished(store, url, ff) == store == MarkErrored(store, url, ff)
  {
    SetFlagKeepsKeys(store, url, ff, Finished, true);
    SetFlagKeepsKeys(store, url, ff, Errors, true);
  }

  /** The records of `store` not yet finished, in order. */
  function Unfinished(store: Store): seq<Site> {
    if store == [] then []
    else if store[0].finished then Unfinished(store[1..])
    else [store[0]] + Unfinished(store[1..])
  }

  /** `getStillUnprocessed`: exactly the records not yet finished, each as
      often as it is stored, in insertion order (`StillUnprocessedConcat`). */
  function StillUnprocessed(store: Store): (r: seq<Site>)
    ensures forall x :: multiset(r)[x] == (if x.finished then 0 else multiset(store)[x])
    ensures forall k :: 0 <= k < |r| ==> !r[k].finished
  {
    UnfinishedCounts(store);
    Unfinished(store)
  }

  lemma {:induction false} UnfinishedCounts(store: Store)
    ensures forall x :: multiset(Unfinished(store))[x] == (if x.finished then 0 else multiset(store)[x])
    ensures forall k :: 0 <= k < |Unfinished(store)| ==> !Unfinished(store)[k].finished
    decreases |store|
  {
    if store != [] {
      UnfinishedCounts(store[1..]);
      assert store == [store[0]] + store[1..];
    }
  }

  /** The unprocessed records keep the store's order: those of a
      concatenation are those of the first part, then those of the second. */
  lemma StillUnprocessedConcat(a: Store, b: Store)
    ensures StillUnprocessed(a + b) == StillUnprocessed(a) + StillUnprocessed(b)
  {
    UnfinishedConcat(a, b);
  }

  lemma {:induction false} UnfinishedConcat(a: Store, b: Store)
    ensures Unfinished(a + b) == Unfinished(a) + Unfinished(b)
    decreases |a|
  {
    if a != [] {
      TailConcat(a, b);
      UnfinishedConcat(a[1..], b);
      if !a[0].finished {
        var x, y := Unfinished(a[1..]), Unfinished(b);
        assert [a[0]] + (x + y) == ([a[0]] + x) + y;
      }
    } else {
      assert a + b == b;
    }
  }

  lemma TailConcat(a: Store, b: Store)
    requires a != []
    ensures (a + b)[0] == a[0] && (a + b)[1..] == a[1..] + b
  {
  }

  /** The unprocessed records of a store that keeps its invariant are
      themselves pairwise distinct in identity. */
  lemma {:induction false} StillUnprocessedUnique(store: Store)
    requires UniqueKeys(store)
    ensures UniqueKeys(StillUnprocessed(store))
  {
    if store != [] {
      var rest := StillUnprocessed(store[1..]);
      StillUnprocessedCons(store);
      UniqueKeysTail(store);
      StillUnprocessedUnique(store[1..]);
      if !store[0].finished {
        forall j | 0 <= j < |rest| ensures !Matches(rest[j], store[0].url, store[0].formFactor) {
          var m := StillUnprocessedFrom(store[1..], j);
          assert store[m + 1] == rest[j];
        }
        ConsUnique(store[0], rest);
      }
    }
  }

  /** A record whose identity no other record has keeps the invariant
      when put in front. */
  lemma ConsUnique(x: Site, rest: Store)
    requires UniqueKeys(rest)
    requires forall j :: 0 <= j < |rest| ==> !Matches(rest[j], x.url, x.formFactor)
    ensures UniqueKeys([x] + rest)
  {
    var r := [x] + rest;
    forall i, j | 0 <= i < j < |r|
      ensures r[i].url != r[j].url || r[i].formFactor != r[j].formFactor
    {
      assert r[j] == rest[j - 1];
      if i > 0 {
        assert r[i] == rest[i - 1];
      }
    }
  }

  lemma StillUnprocessedCons(store: Store)
    requires store != []
    ensures StillUnprocessed(store) ==
      (if store[0].finished then StillUnprocessed(store[1..]) else [store[0]] + StillUnprocessed(store[1..]))
  {
  }

  lemma UniqueKeysTail(store: Store)
    requires store != [] && UniqueKeys(store)
    ensures UniqueKeys(store[1..])
  {
    assert forall i :: 0 <= i < |store| - 1 ==> store[1..][i] == store[i + 1];
  }

  /** Each unprocessed record is stored, at some position `m`. */
  lemma StillUnprocessedFrom(store: Store, k: nat) returns (m: nat)
    requires k < |StillUnprocessed(store)|
    ensures m < |store| && store[m] == StillUnprocessed(store)[k]
  {
    var x := StillUnprocessed(store)[k];
    assert multiset(StillUnprocessed(store))[x] > 0;
    assert x in store;
    m :| 0 <= m < |store| && store[m] == x;
  }

  /** `clean`: the collection is left empty whatever it held. */
  function Clean(store: Store): (r: Store)
    ensures forall u, f :: !EntryExists(r, u, f)
    ensures StillUnprocessed(r) == []
  {
    []
  }
}

=== FILE: sites_only_executor.dfy ===
/** The enqueue phase of src/batchExecutor.ts, the older executor. Its
    commands issue the same upserts in the same order as
    src/batch-executor.ts; the only difference is `clean`, which empties the
    site queue alone (there is no metrics collection on this path). The
    queue it imports, src/siteTracker.ts, is not part of this model: the
    phases run on the (url, formFactor) queue of src/site-tracker.ts. */
module SitesOnlyExecutor {
  import opened SiteTracker
  import BatchExecutor

  /** `executeABBatch` up to the controller run. */
  function ExecuteABBatch(store: Store, opts: BatchExecutor.ABOptions): (r: Store)
    ensures BatchExecutor.Enqueued(if opts.clean then [] else store, r, BatchExecutor.ABKeys(opts))
    ensures UniqueKeys(store) ==> UniqueKeys(r)
  {
    var start := if opts.clean then Clean(store) else store;
    var r := BatchExecutor.ABEnqueue(start, opts);
    BatchExecutor.EnqueuedKeepsUnique(start, r, BatchExecutor.ABKeys(opts));
    r
  }

  /** `executeBatch` up to the controller run. */
  function ExecuteBatch(store: Store, opts: BatchExecutor.BatchOptions): (r: Store)
    ensures BatchExecutor.Enqueued(if opts.clean then [] else store, r, BatchExecutor.BatchKeys(opts))
    ensures UniqueKeys(store) ==> UniqueKeys(r)
  {
    var start := if opts.clean then Clean(store) else store;
    var r := BatchExecutor.BatchEnqueue(start, opts);
    BatchExecutor.EnqueuedKeepsUnique(start, r, BatchExecutor.BatchKeys(opts));
    r
  }

  /** Both executors leave the same site queue behind. */
  lemma SameQueueAsNewerExecutor(state: BatchExecutor.Collections, ab: BatchExecutor.ABOptions, b: BatchExecutor.BatchOptions)
    ensures ExecuteABBatch(state.sites, ab) == BatchExecutor.ExecuteABBatch(state, ab).sites
    ensures ExecuteBatch(state.sites, b) == BatchExecutor.ExecuteBatch(state, b).sites
  {
  }
}

=== FILE: summary.dfy ===
/** src/summary.ts: every saved report is read, the scores of the reports
    that share a url and a form factor are summed, the sums are divided by
    the averaging factor and rounded to two decimals, and one record per url
    is upserted into the metric store of src/siteMetrics.ts. Reading the
    report directory and parsing the files are left to the caller: the
    script's input is the sequence of parsed reports. */
module Summary {
  import opened Wrappers
  import SiteTracker
  import ReportAnalyzer
  import SummaryMetrics
  import UrlStore

  type FormFactor = SiteTracker.FormFactor

  /** A score map: audit name to value (`Map<string, number>`). */
  type AuditMap = map<string, real>

  /** One entry of `getSiteMetrics`: a report's url, form factor and
      summarized scores. */
  datatype SiteScore = SiteScore(url: string, formFactor: FormFactor, score: AuditMap)

  /** The `{ desktop?, mobile? }` object `rs` keeps per url. */
  datatype Slots = Slots(desktop: Option<AuditMap>, mobile: Option<AuditMap>)

  /** One entry of the `MappedSiteMetric` map; a JavaScript `Map` iterates
      in insertion order, so the map is a sequence of groups. */
  datatype Group = Group(url: string, slots: Slots)

  function GroupUrl(g: Group): string {
    g.url
  }

  function GroupUrls(groups: seq<Group>): seq<string> {
    seq(|groups|, i requires 0 <= i < |groups| => groups[i].url)
  }

  function ScoreUrls(scores: seq<SiteScore>): seq<string> {
    seq(|scores|, i requires 0 <= i < |scores| => scores[i].url)
  }

  const NoSlots: Slots := Slots(None, None)

  function Slot(s: Slots, ff: FormFactor): Option<AuditMap> {
    match ff
    case Desktop => s.desktop
    case Mobile => s.mobile
  }

  /** `siteScore[formFactor] = …`: only the named slot changes. */
  function WithSlot(s: Slots, ff: FormFactor, m: AuditMap): (r: Slots)
    ensures Slot(r, ff) == Some(m)
    ensures forall other: FormFactor :: other != ff ==> Slot(r, other) == Slot(s, other)
  {
    match ff
    case Desktop => s.(desktop := Some(m))
    case Mobile => s.(mobile := Some(m))
  }

  // ---------------------------------------------------------------------
  // Reading the reports

  /** `files.map(file => new LighthouseAnalyzer(file))`: the results in
      order, or the reason of the first construction that throws. */
  function AllOk<T>(results: seq<Result<T>>): (r: Result<seq<T>>)
    ensures r.Ok? <==> forall i :: 0 <= i < |results| ==> results[i].Ok?
    ensures r.Ok? ==> |r.value| == |results|
    ensures r.Ok? ==> forall i :: 0 <= i < |results| ==> r.value[i] == results[i].value
    ensures r.Throws? ==> exists i :: 0 <= i < |results| && FirstThrow(results, i) && r.reason == results[i].reason
    decreases |results|
  {
    if results == [] then Ok([])
    else
      assert forall i :: 0 <= i < |results| - 1 ==> results[1..][i] == results[i + 1];
      match results[0]
      case Throws(e) =>
        assert FirstThrow(results, 0);
        Throws(e)
      case Ok(a) =>
        match AllOk(results[1..])
        case Throws(e) =>
          var i :| 0 <= i < |results[1..]| && FirstThrow(results[1..], i) && e == results[1..][i].reason;
          assert FirstThrow(results, i + 1);
          Throws(e)
        case Ok(rest) => Ok([a] + rest)
  }

  /** The `i`-th result is the first that threw. */
  predicate FirstThrow<T>(results: seq<Result<T>>, i: nat)
    requires i < |results|
  {
    results[i].Throws? && forall j :: 0 <= j < i ==> results[j].Ok?
  }

  function Analyze(files: seq<ReportAnalyzer.Report>): (r: seq<Result<ReportAnalyzer.Analyzed>>)
    ensures |r| == |files|
  {
    seq(|files|, i requires 0 <= i < |files| => ReportAnalyzer.NewReport(files[i]))
  }

  /** `getAllReports`: one analyzer per file, in order; the first report
      whose constructor throws makes the whole script throw. */
  function GetAllReports(files: seq<ReportAnalyzer.Report>): (r: Result<seq<ReportAnalyzer.Analyzed>>)
  {
    AllOk(Analyze(files))
  }

  /** The reports are read when every file is accepted; each is then the
      analyzer of its file, and otherwise the first rejected file's reason
      is raised. */
  lemma GetAllReportsSpec(files: seq<ReportAnalyzer.Report>)
    ensures var r := GetAllReports(files);
      && (r.Ok? <==> forall i :: 0 <= i < |files| ==> ReportAnalyzer.Readable(files[i]))
      && (r.Ok? ==> |r.value| == |files| &&
                    forall i :: 0 <= i < |files| ==> r.value[i] == ReportAnalyzer.NewReport(files[i]).value)
      && (r.Throws? ==> exists i :: 0 <= i < |files| && FirstThrow(Analyze(files), i) &&
                                    r.reason == ReportAnalyzer.NewReport(files[i]).reason)
  {
    var results := Analyze(files);
    assert forall i :: 0 <= i < |files| ==> results[i] == ReportAnalyzer.NewReport(files[i]);
  }

  /** `getSiteMetrics`: one entry per report, in order. */
  function GetSiteMetrics(reports: seq<ReportAnalyzer.Analyzed>): (r: seq<SiteScore>)
    ensures |r| == |reports|
    ensures forall i :: 0 <= i < |r| ==> r[i].url == ReportAnalyzer.GetUrl(reports[i]) &&
                                         r[i].formFactor == ReportAnalyzer.GetFormFactor(reports[i])
  {
    seq(|reports|, i requires 0 <= i < |reports| =>
      SiteScore(ReportAnalyzer.GetUrl(reports[i]), ReportAnalyzer.GetFormFactor(reports[i]),
                ReportAnalyzer.GetSummarizedScores(reports[i])))
  }

  lemma ReportAt(files: seq<ReportAnalyzer.Report>, i: nat)
    requires (forall k :: 0 <= k < |files| ==> ReportAnalyzer.Readable(files[k])) && i < |files|
    ensures GetAllReports(files).Ok? && ReportAnalyzer.NewReport(files[i]).Ok?
    ensures GetAllReports(files).value[i] == ReportAnalyzer.NewReport(files[i]).value
  {
    GetAllReportsSpec(files);
    assert Analyze(files)[i] == ReportAnalyzer.NewReport(files[i]);
  }

  /** Each entry carries its file's requested url and form factor, and
      exactly `'performance'` and the six audits. */
  lemma SiteMetricsOfFiles(files: seq<ReportAnalyzer.Report>, i: nat)
    requires (forall k :: 0 <= k < |files| ==> ReportAnalyzer.Readable(files[k])) && i < |files|
    ensures GetAllReports(files).Ok?
    ensures var s := GetSiteMetrics(GetAllReports(files).value)[i];
      && s.url == files[i].requestedUrl
      && s.formFactor == files[i].formFactor
      && s.score.Keys == {ReportAnalyzer.PerformanceKey} + set n | n in ReportAnalyzer.AuditNames
      && |s.score.Keys| == 7
      && s.score[ReportAnalyzer.PerformanceKey] == files[i].performance.value.score.GetOr(0.0)
  {
    ReportAt(files, i);
    SiteScoreOf(files[i]);
  }

  /** The entry `getSiteMetrics` makes of one accepted report. */
  lemma SiteScoreOf(r: ReportAnalyzer.Report)
    requires ReportAnalyzer.Readable(r)
    ensures ReportAnalyzer.NewReport(r).Ok?
    ensures var a := ReportAnalyzer.NewReport(r).value;
      && ReportAnalyzer.GetUrl(a) == r.requestedUrl
      && ReportAnalyzer.GetFormFactor(a) == r.formFactor
      && ReportAnalyzer.GetSummarizedScores(a).Keys == {ReportAnalyzer.PerformanceKey} + set n | n in ReportAnalyzer.AuditNames
      && |ReportAnalyzer.GetSummarizedScores(a).Keys| == 7
      && ReportAnalyzer.GetSummarizedScores(a)[ReportAnalyzer.PerformanceKey] == r.performance.value.score.GetOr(0.0)
  {
    ReportAnalyzer.SummarizedScores(r);
  }

  // ---------------------------------------------------------------------
  // Summing per url and form factor

  function ValueOr0(m: AuditMap, k: string): real {
    if k in m then m[k] else 0.0
  }

  /** `aggregatedScores`: each audit of the current report is added to the
      running total (`get(audit) || 0`, so an audit without a total starts
      from 0); audits the current report lacks keep their total. */
  function Aggregate(previous: AuditMap, current: AuditMap): (r: AuditMap)
    ensures r.Keys == previous.Keys + current.Keys
    ensures forall k :: k in current ==> r[k] == ValueOr0(previous, k) + current[k]
    ensures forall k :: k in previous && k !in current ==> r[k] == previous[k]
  {
    map k | k in previous.Keys + current.Keys :: if k in current then current[k] + ValueOr0(previous, k) else previous[k]
  }

  /** One step of `rs`'s `forEach`: the first group with the report's url
      gets the report added to its form factor's slot (a fresh map when the
      slot is empty); a url not seen yet is appended as a new group. */
  function AddScore(groups: seq<Group>, s: SiteScore): (r: seq<Group>)
    decreases |groups|
  {
    if groups == [] then
      [Group(s.url, WithSlot(NoSlots, s.formFactor, Aggregate(map[], s.score)))]
    else if groups[0].url == s.url then
      var slots := groups[0].slots;
      var total := match Slot(slots, s.formFactor)
        case Some(previous) => Aggregate(previous, s.score)
        case None => Aggregate(map[], s.score);
      [Group(s.url, WithSlot(slots, s.formFactor, total))] + groups[1..]
    else
      [groups[0]] + AddScore(groups[1..], s)
  }

  /** `rs`: the reports folded into groups, first to last. */
  function Rs(scores: seq<SiteScore>): seq<Group>
    decreases |scores|
  {
    if scores == [] then [] else AddScore(Rs(scores[..|scores| - 1]), scores[|scores| - 1])
  }

  /** The slot a url's first group holds for a form factor. */
  function SlotOf(groups: seq<Group>, u: string, ff: FormFactor): Option<AuditMap> {
    match UrlStore.Lookup(groups, GroupUrl, u)
    case None => None
    case Some(g) => Slot(g.slots, ff)
  }

  lemma {:induction false} AddScoreSlot(groups: seq<Group>, s: SiteScore, u: string, ff: FormFactor)
    ensures SlotOf(AddScore(groups, s), u, ff) ==
      if u == s.url && ff == s.formFactor then Some(Aggregate(SlotOf(groups, u, ff).GetOr(map[]), s.score))
      else SlotOf(groups, u, ff)
    decreases |groups|
  {
    var r := AddScore(groups, s);
    if groups == [] {
      assert r[1..] == [];
    } else if groups[0].url == s.url {
      assert r[1..] == groups[1..];
    } else {
      assert r[1..] == AddScore(groups[1..], s);
      AddScoreSlot(groups[1..], s, u, ff);
    }
  }

  lemma {:induction false} AddScoreUrls(groups: seq<Group>, s: SiteScore)
    ensures GroupUrls(AddScore(groups, s)) ==
      if s.url in GroupUrls(groups) then GroupUrls(groups) else GroupUrls(groups) + [s.url]
    decreases |groups|
  {
    var r := AddScore(groups, s);
    if groups == [] {
    } else if groups[0].url == s.url {
      assert GroupUrls(r) == GroupUrls(groups);
      assert GroupUrls(groups)[0] == s.url;
    } else {
      var tail := AddScore(groups[1..], s);
      AddScoreUrls(groups[1..], s);
      assert GroupUrls(r) == [groups[0].url] + GroupUrls(tail);
      assert GroupUrls(groups) == [groups[0].url] + GroupUrls(groups[1..]);
    }
  }

  // ---------------------------------------------------------------------
  // The reference sums

  predicate IsFor(s: SiteScore, u: string, ff: FormFactor) {
    s.url == u && s.formFactor == ff
  }

  /** Some report is for url `u` on form factor `ff`. */
  predicate Reported(scores: seq<SiteScore>, u: string, ff: FormFactor) {
    exists i :: 0 <= i < |scores| && IsFor(scores[i], u, ff)
  }

  /** The audits any report for (`u`, `ff`) carries. */
  function KeysOf(scores: seq<SiteScore>, u: string, ff: FormFactor): set<string>
    decreases |scores|
  {
    if scores == [] then {}
    else
      var last := scores[|scores| - 1];
      KeysOf(scores[..|scores| - 1], u, ff) + if IsFor(last, u, ff) then last.score.Keys else {}
  }

  /** The sum of audit `k` over the reports for (`u`, `ff`) that carry it. */
  function SumOf(scores: seq<SiteScore>, u: string, ff: FormFactor, k: string): real
    decreases |scores|
  {
    if scores == [] then 0.0
    else
      var last := scores[|scores| - 1];
      SumOf(scores[..|scores| - 1], u, ff, k) + if IsFor(last, u, ff) then ValueOr0(last.score, k) else 0.0
  }

  /** What the summed slot for (`u`, `ff`) should be: absent when no report
      is for it, otherwise every audit any of them carries, with its sum. */
  function RefSlot(scores: seq<SiteScore>, u: string, ff: FormFactor): Option<AuditMap> {
    if Reported(scores, u, ff) then Some(map k | k in KeysOf(scores, u, ff) :: SumOf(scores, u, ff, k))
    else None
  }

  lemma {:induction false} SumOutsideKeys(scores: seq<SiteScore>, u: string, ff: FormFactor, k: string)
    requires k !in KeysOf(scores, u, ff)
    ensures SumOf(scores, u, ff, k) == 0.0
    decreases |scores|
  {
    if scores != [] {
      SumOutsideKeys(scores[..|scores| - 1], u, ff, k);
    }
  }

  lemma {:induction false} KeysOfUnreported(scores: seq<SiteScore>, u: string, ff: FormFactor)
    requires !Reported(scores, u, ff)
    ensures KeysOf(scores, u, ff) == {}
    decreases |scores|
  {
    if scores != [] {
      var init := scores[..|scores| - 1];
      ReportedInit(scores, u, ff);
      KeysOfUnreported(init, u, ff);
    }
  }

  /** A report is for (`u`, `ff`) iff one before the last is, or the last is. */
  lemma ReportedInit(scores: seq<SiteScore>, u: string, ff: FormFactor)
    requires scores != []
    ensures Reported(scores, u, ff) <==>
      Reported(scores[..|scores| - 1], u, ff) || IsFor(scores[|scores| - 1], u, ff)
  {
    var init := scores[..|scores| - 1];
    assert forall i :: 0 <= i < |init| ==> init[i] == scores[i];
    if Reported(scores, u, ff) && !IsFor(scores[|scores| - 1], u, ff) {
      var i :| 0 <= i < |scores| && IsFor(scores[i], u, ff);
      assert IsFor(init[i], u, ff);
    }
  }

  /** `rs` sums: the slot a url's group holds for a form factor is exactly
      the reference sum of the reports for that url and form factor, and is
      absent when there is none. */
  lemma {:induction false} RsSlot(scores: seq<SiteScore>, u: string, ff: FormFactor)
    ensures SlotOf(Rs(scores), u, ff) == RefSlot(scores, u, ff)
    decreases |scores|
  {
    if scores != [] {
      var init := scores[..|scores| - 1];
      var last := scores[|scores| - 1];
      RsSlot(init, u, ff);
      AddScoreSlot(Rs(init), last, u, ff);
      if IsFor(last, u, ff) {
        StepFor(scores, u, ff);
      } else {
        StepOther(scores, u, ff);
      }
    }
  }

  /** The inductive step of `RsSlot` for a last report that is for another
      url or form factor. */
  lemma StepOther(scores: seq<SiteScore>, u: string, ff: FormFactor)
    requires scores != [] && !IsFor(scores[|scores| - 1], u, ff)
    ensures RefSlot(scores, u, ff) == RefSlot(scores[..|scores| - 1], u, ff)
  {
    var init := scores[..|scores| - 1];
    ReportedInit(scores, u, ff);
    assert KeysOf(scores, u, ff) == KeysOf(init, u, ff);
    assert forall k :: SumOf(scores, u, ff, k) == SumOf(init, u, ff, k);
    if Reported(init, u, ff) {
      var keys := KeysOf(init, u, ff);
      assert (map k | k in keys :: SumOf(scores, u, ff, k)) == (map k | k in keys :: SumOf(init, u, ff, k));
    }
  }

  /** The inductive step of `RsSlot` for a last report that is for (`u`, `ff`). */
  lemma StepFor(scores: seq<SiteScore>, u: string, ff: FormFactor)
    requires scores != [] && IsFor(scores[|scores| - 1], u, ff)
    ensures RefSlot(scores, u, ff) ==
      Some(Aggregate(RefSlot(scores[..|scores| - 1], u, ff).GetOr(map[]), scores[|scores| - 1].score))
  {
    var init := scores[..|scores| - 1];
    var last := scores[|scores| - 1];
    var previous := RefSlot(init, u, ff).GetOr(map[]);
    ReportedInit(scores, u, ff);
    if !Reported(init, u, ff) {
      KeysOfUnreported(init, u, ff);
    }
    assert previous.Keys == KeysOf(init, u, ff);
    forall k | k in previous ensures previous[k] == SumOf(init, u, ff, k) {
    }
    forall k ensures ValueOr0(previous, k) == SumOf(init, u, ff, k) {
      if k !in previous {
        SumOutsideKeys(init, u, ff, k);
      }
    }
    var expected := map k | k in KeysOf(scores, u, ff) :: SumOf(scores, u, ff, k);
    var got := Aggregate(previous, last.score);
    assert got.Keys == expected.Keys;
    forall k | k in got ensures got[k] == expected[k] {
      if k !in last.score {
        assert got[k] == previous[k];
      }
    }
    assert got == expected;
  }

  // ---------------------------------------------------------------------
  // The order of the groups

  /** The distinct elements of `xs`, in order of first appearance. */
  function Distinct(xs: seq<string>): (r: seq<string>)
    ensures forall i, j :: 0 <= i < j < |r| ==> r[i] != r[j]
    ensures forall x :: x in r <==> x in xs
    decreases |xs|
  {
    if xs == [] then []
    else
      var d := Distinct(xs[..|xs| - 1]);
      assert forall x :: x in xs <==> x in xs[..|xs| - 1] || x == xs[|xs| - 1];
      if xs[|xs| - 1] in d then d else d + [xs[|xs| - 1]]
  }

  /** `rs` keeps one group per url, in the order the urls first appear
      among the reports. */
  lemma {:induction false} RsUrls(scores: seq<SiteScore>)
    ensures GroupUrls(Rs(scores)) == Distinct(ScoreUrls(scores))
    decreases |scores|
  {
    if scores != [] {
      var init := scores[..|scores| - 1];
      RsUrls(init);
      AddScoreUrls(Rs(init), scores[|scores| - 1]);
      assert ScoreUrls(scores)[..|scores| - 1] == ScoreUrls(init);
    }
  }

  /** Hence no url has two groups, and the groups' urls are the reports'. */
  lemma RsUnique(scores: seq<SiteScore>)
    ensures UrlStore.UniqueUrls(Rs(scores), GroupUrl)
    ensures forall u :: UrlStore.Has(Rs(scores), GroupUrl, u) <==> u in ScoreUrls(scores)
  {
    var groups := Rs(scores);
    RsUrls(scores);
    assert forall i :: 0 <= i < |groups| ==> GroupUrls(groups)[i] == GroupUrl(groups[i]);
    forall u ensures UrlStore.Has(groups, GroupUrl, u) <==> u in GroupUrls(groups) {
      if u in GroupUrls(groups) {
        var i :| 0 <= i < |groups| && GroupUrls(groups)[i] == u;
      }
    }
  }

  // ---------------------------------------------------------------------
  // Averaging

  /** `toFixed(2)` then `parseFloat`, on exact values: the nearest multiple
      of 0.01; a half is rounded away from zero, since `toFixed` rounds the
      magnitude and keeps the sign. */
  function Round2(x: real): real {
    if x < 0.0 then -RoundMagnitude(-x) else RoundMagnitude(x)
  }

  /** The larger of the two nearest multiples of 0.01 on a tie. */
  function RoundMagnitude(y: real): real {
    (y * 100.0 + 0.5).Floor as real / 100.0
  }

  /** Rounding moves a value by at most half a hundredth. */
  lemma Round2Error(x: real)
    ensures -0.005 <= Round2(x) - x <= 0.005
  {
    var y := if x < 0.0 then -x else x;
    var f := (y * 100.0 + 0.5).Floor as real;
    assert f <= y * 100.0 + 0.5 < f + 1.0;
    assert -0.005 <= RoundMagnitude(y) - y <= 0.005;
  }

  /** A value with at most two decimals is left as it is. */
  lemma Round2Hundredths(n: int)
    ensures Round2(n as real / 100.0) == n as real / 100.0
  {
    var x := n as real / 100.0;
    if n < 0 {
      assert -x == (-n) as real / 100.0;
      assert (-x * 100.0 + 0.5).Floor == -n;
    } else {
      assert (x * 100.0 + 0.5).Floor == n;
    }
  }

  /** Rounding is symmetric about zero. */
  lemma Round2Negate(x: real)
    ensures Round2(-x) == -Round2(x)
  {
    if x == 0.0 {
      assert (0.5).Floor == 0;
    }
  }

  /** `averageScoresHelper`: every value divided and rounded; the audits
      are kept. */
  function AverageMap(m: AuditMap, divisor: real): (r: AuditMap)
    requires divisor != 0.0
    ensures r.Keys == m.Keys
  {
    map k | k in m :: Round2(m[k] / divisor)
  }

  lemma AverageMapError(m: AuditMap, divisor: real, k: string)
    requires divisor != 0.0 && k in m
    ensures -0.005 <= AverageMap(m, divisor)[k] - m[k] / divisor <= 0.005
  {
    Round2Error(m[k] / divisor);
  }

  function AverageSlot(s: Option<AuditMap>, divisor: real): (r: Option<AuditMap>)
    requires divisor != 0.0
    ensures r.Some? <==> s.Some?
  {
    match s
    case None => None
    case Some(m) => Some(AverageMap(m, divisor))
  }

  /** `averageScores`: the slots present (`Object.keys`) are averaged in
      place; groups, their order and absent slots are unchanged. */
  function AverageScores(groups: seq<Group>, divisor: real): (r: seq<Group>)
    requires divisor != 0.0
    ensures GroupUrls(r) == GroupUrls(groups)
  {
    seq(|groups|, i requires 0 <= i < |groups| =>
      Group(groups[i].url, Slots(AverageSlot(groups[i].slots.desktop, divisor), AverageSlot(groups[i].slots.mobile, divisor))))
  }

  lemma {:induction false} AverageSlotOf(groups: seq<Group>, divisor: real, u: string, ff: FormFactor)
    requires divisor != 0.0
    ensures SlotOf(AverageScores(groups, divisor), u, ff) == AverageSlot(SlotOf(groups, u, ff), divisor)
    decreases |groups|
  {
    if groups != [] {
      var r := AverageScores(groups, divisor);
      assert r[1..] == AverageScores(groups[1..], divisor);
      AverageSlotOf(groups[1..], divisor, u, ff);
      assert Slot(r[0].slots, ff) == AverageSlot(Slot(groups[0].slots, ff), divisor);
    }
  }

  /** Dividing by 1 changes nothing when every total has at most two
      decimals (the audits' floored scores, for instance). */
  lemma AverageByOne(m: AuditMap)
    requires forall k :: k in m ==> TwoDecimals(m[k])
    ensures AverageMap(m, 1.0) == m
  {
    forall k | k in m ensures Round2(m[k] / 1.0) == m[k] {
      var n := (m[k] * 100.0).Floor;
      assert m[k] == n as real / 100.0;
      Round2Hundredths(n);
    }
  }

  /** A whole number of hundredths. */
  predicate TwoDecimals(x: real) {
    (x * 100.0).Floor as real == x * 100.0
  }

  // ---------------------------------------------------------------------
  // Saving

  /** `transformScoresToSiteMetric`: one record per group, in order; an
      absent slot becomes an empty score record. */
  function Transform(groups: seq<Group>): (r: seq<SummaryMetrics.SiteMetric>)
    ensures |r| == |groups|
    ensures forall i :: 0 <= i < |groups| ==> SummaryMetrics.MetricUrl(r[i]) == groups[i].url
  {
    seq(|groups|, i requires 0 <= i < |groups| => ToMetric(groups[i]))
  }

  function ToMetric(g: Group): SummaryMetrics.SiteMetric {
    SummaryMetrics.SiteMetric(g.url, SummaryMetrics.Scores(g.slots.desktop.GetOr(map[]), g.slots.mobile.GetOr(map[])))
  }

  lemma {:induction false} TransformLookup(groups: seq<Group>, u: string)
    ensures SummaryMetrics.Find(Transform(groups), u) ==
      match UrlStore.Lookup(groups, GroupUrl, u)
      case None => None
      case Some(g) => Some(ToMetric(g))
    decreases |groups|
  {
    if groups != [] {
      var r := Transform(groups);
      assert r[1..] == Transform(groups[1..]);
      TransformLookup(groups[1..], u);
    }
  }

  /** `saveScores`: each record upserted in order. */
  function SaveScores(store: SummaryMetrics.Store, metrics: seq<SummaryMetrics.SiteMetric>): (r: SummaryMetrics.Store)
    ensures UrlStore.UniqueUrls(store, SummaryMetrics.MetricUrl) ==> UrlStore.UniqueUrls(r, SummaryMetrics.MetricUrl)
    decreases |metrics|
  {
    if metrics == [] then store
    else SaveScores(SummaryMetrics.CreateOrUpdate(store, metrics[0]), metrics[1..])
  }

  /** A url the store already held keeps its record; any other url holds
      the first record saved for it, if any. */
  lemma {:induction false} SaveScoresFind(store: SummaryMetrics.Store, metrics: seq<SummaryMetrics.SiteMetric>, u: string)
    ensures SummaryMetrics.Find(SaveScores(store, metrics), u) ==
      if UrlStore.Has(store, SummaryMetrics.MetricUrl, u) then SummaryMetrics.Find(store, u)
      else SummaryMetrics.Find(metrics, u)
    decreases |metrics|
  {
    if metrics != [] {
      var next := SummaryMetrics.CreateOrUpdate(store, metrics[0]);
      SaveScoresFind(next, metrics[1..], u);
      UrlStore.LookupNone(store, SummaryMetrics.MetricUrl, u);
      UrlStore.LookupNone(next, SummaryMetrics.MetricUrl, u);
    }
  }

  // ---------------------------------------------------------------------
  // The script

  /** The script's top level: read, group, average by 1, transform, save. */
  function Summarize(files: seq<ReportAnalyzer.Report>, store: SummaryMetrics.Store): (r: Result<SummaryMetrics.Store>)
    ensures r.Ok? <==> forall i :: 0 <= i < |files| ==> ReportAnalyzer.Readable(files[i])
    ensures r.Ok? && UrlStore.UniqueUrls(store, SummaryMetrics.MetricUrl) ==>
              UrlStore.UniqueUrls(r.value, SummaryMetrics.MetricUrl)
  {
    GetAllReportsSpec(files);
    match GetAllReports(files)
    case Throws(e) => Throws(e)
    case Ok(reports) => Ok(SaveSummary(store, GetSiteMetrics(reports)))
  }

  /** Everything after reading: group, average by 1, transform, save. */
  function SaveSummary(store: SummaryMetrics.Store, scores: seq<SiteScore>): (r: SummaryMetrics.Store)
    ensures UrlStore.UniqueUrls(store, SummaryMetrics.MetricUrl) ==> UrlStore.UniqueUrls(r, SummaryMetrics.MetricUrl)
  {
    SaveScores(store, Summarized(scores))
  }

  /** The records `transformScoresToSiteMetric` hands to `saveScores`. */
  function Summarized(scores: seq<SiteScore>): seq<SummaryMetrics.SiteMetric> {
    Transform(AverageScores(Rs(scores), 1.0))
  }

  /** The score record a url is expected to end up with for a form factor:
      the rounded sum of its reports, or empty when there is none. */
  function Expected(scores: seq<SiteScore>, u: string, ff: FormFactor): AuditMap {
    match RefSlot(scores, u, ff)
    case None => map[]
    case Some(m) => AverageMap(m, 1.0)
  }

  /** The record summarized for a url: present iff some report is for it,
      holding the rounded per-form-factor sums of its reports. */
  lemma SummarizedFind(scores: seq<SiteScore>, u: string)
    ensures SummaryMetrics.Find(Summarized(scores), u) ==
      if u in ScoreUrls(scores) then
        Some(SummaryMetrics.SiteMetric(u, SummaryMetrics.Scores(Expected(scores, u, SiteTracker.Desktop),
                                                                Expected(scores, u, SiteTracker.Mobile))))
      else None
  {
    var groups := Rs(scores);
    var averaged := AverageScores(groups, 1.0);
    TransformLookup(averaged, u);
    RsUnique(scores);
    UrlStore.LookupNone(groups, GroupUrl, u);
    UrlStore.LookupNone(averaged, GroupUrl, u);
    assert UrlStore.Has(averaged, GroupUrl, u) <==> UrlStore.Has(groups, GroupUrl, u) by {
      assert |averaged| == |groups|;
      assert forall i :: 0 <= i < |groups| ==> averaged[i].url == groups[i].url;
    }
    forall ff: FormFactor ensures SlotOf(averaged, u, ff) == AverageSlot(RefSlot(scores, u, ff), 1.0) {
      AverageSlotOf(groups, 1.0, u, ff);
      RsSlot(scores, u, ff);
    }
    if u in ScoreUrls(scores) {
      var g := UrlStore.Lookup(averaged, GroupUrl, u).value;
      assert Slot(g.slots, SiteTracker.Desktop) == SlotOf(averaged, u, SiteTracker.Desktop);
      assert Slot(g.slots, SiteTracker.Mobile) == SlotOf(averaged, u, SiteTracker.Mobile);
    }
  }

  /** End to end: a url the store did not hold gets, when some report is
      for it, the rounded per-form-factor sums of its reports; a url the
      store held is left alone; any other url stays absent. */
  lemma SummarizeFind(files: seq<ReportAnalyzer.Report>, store: SummaryMetrics.Store, u: string)
    requires forall k :: 0 <= k < |files| ==> ReportAnalyzer.Readable(files[k])
    ensures GetAllReports(files).Ok?
    ensures var scores := GetSiteMetrics(GetAllReports(files).value);
      SummaryMetrics.Find(Summarize(files, store).value, u) ==
        if UrlStore.Has(store, SummaryMetrics.MetricUrl, u) then SummaryMetrics.Find(store, u)
        else if u in ScoreUrls(scores) then
          Some(SummaryMetrics.SiteMetric(u, SummaryMetrics.Scores(Expected(scores, u, SiteTracker.Desktop),
                                                                  Expected(scores, u, SiteTracker.Mobile))))
        else None
  {
    GetAllReportsSpec(files);
    var scores := GetSiteMetrics(GetAllReports(files).value);
    assert Summarize(files, store).value == SaveSummary(store, scores);
    SaveScoresFind(store, Summarized(scores), u);
    SummarizedFind(scores, u);
  }
}

=== FILE: summary_metrics.dfy ===
/** The metric store of src/siteMetrics.ts, the one src/summary.ts saves
    into: one record per url holding a desktop and a mobile score record. */
module SummaryMetrics {
  import opened Wrappers
  import UrlStore

  /** A score record: audit name to value (`Record<string, number>`). */
  type AuditValues = map<string, real>

  datatype Scores = Scores(desktop: AuditValues, mobile: AuditValues)

  datatype SiteMetric = SiteMetric(url: string, scores: Scores)

  function MetricUrl(m: SiteMetric): string {
    m.url
  }

  type Store = seq<SiteMetric>

  /** `entryExists`: identity is the url, compared with `==`; both sides
      are strings, so this is plain string equality. */
  predicate EntryExists(store: Store, metric: SiteMetric) {
    UrlStore.Has(store, MetricUrl, metric.url)
  }

  function Find(store: Store, url: string): Option<SiteMetric> {
    UrlStore.Lookup(store, MetricUrl, url)
  }

  /** `create`: the record is stored as given, after the existing ones. */
  function Create(store: Store, metric: SiteMetric): (r: Store)
    ensures |r| == |store| + 1 && r[..|store|] == store
    ensures !EntryExists(store, metric) ==> Find(r, metric.url) == Some(metric)
    ensures forall u :: u != metric.url ==> Find(r, u) == Find(store, u)
  {
    UrlStore.LookupAppend(store, MetricUrl, metric, metric.url);
    forall u | u != metric.url ensures Find(store + [metric], u) == Find(store, u) {
      UrlStore.LookupAppend(store, MetricUrl, metric, u);
    }
    store + [metric]
  }

  /** `update`: `s => s = { ...s, ...site }` rebinds the callback's parameter
      and mutates nothing, so every stored record is unchanged. */
  function Update(store: Store, metric: SiteMetric): (r: Store)
    ensures forall u :: Find(r, u) == Find(store, u)
  {
    store
  }

  /** `createOrUpdate`: never duplicates a url; an existing url keeps the
      record first written for it. */
  function CreateOrUpdate(store: Store, metric: SiteMetric): (r: Store)
    ensures UrlStore.UniqueUrls(store, MetricUrl) ==> UrlStore.UniqueUrls(r, MetricUrl)
    ensures Find(r, metric.url) == (if EntryExists(store, metric) then Find(store, metric.url) else Some(metric))
    ensures forall u :: u != metric.url ==> Find(r, u) == Find(store, u)
  {
    if EntryExists(store, metric) then Update(store, metric) else Create(store, metric)
  }

  /** `clean`: no url is left in the collection. */
  function Clean(store: Store): (r: Store)
    ensures forall u :: Find(r, u) == None
  {
    []
  }
}

=== FILE: text.dfy ===
/** The JavaScript string operations the batch runner relies on:
    `trim`, `split` on one character, `startsWith`, a global one-character
    class `replace`, and decimal rendering of a non-negative integer. */
module Text {

  /** ECMAScript WhiteSpace and LineTerminator code points, the characters
      `String.prototype.trim` removes from both ends. */
  predicate IsTrimmable(c: char) {
    || c == ' ' || c == '\t' || c == '\n' || c == '\r'
    || c == '\U{000B}' || c == '\U{000C}' || c == '\U{00A0}' || c == '\U{FEFF}'
    || c == '\U{1680}' || ('\U{2000}' <= c <= '\U{200A}')
    || c == '\U{2028}' || c == '\U{2029}' || c == '\U{202F}' || c == '\U{205F}'
    || c == '\U{3000}'
  }

  function TrimStart(s: string): (r: string)
    ensures |r| <= |s| && r == s[|s| - |r|..]
    ensures forall i :: 0 <= i < |s| - |r| ==> IsTrimmable(s[i])
    ensures r == [] || !IsTrimmable(r[0])
  {
    if |s| > 0 && IsTrimmable(s[0]) then TrimStart(s[1..]) else s
  }

  function TrimEnd(s: string): (r: string)
    ensures |r| <= |s| && r == s[..|r|]
    ensures forall i :: |r| <= i < |s| ==> IsTrimmable(s[i])
    ensures r == [] || !IsTrimmable(r[|r| - 1])
  {
    if |s| > 0 && IsTrimmable(s[|s| - 1]) then TrimEnd(s[..|s| - 1]) else s
  }

  /** `s.trim()`: the longest slice of `s` that neither starts nor ends with
      white space; everything cut off on either side is white space. */
  function Trim(s: string): (r: string)
    ensures exists i, j | 0 <= i <= j <= |s| ::
              && r == s[i..j]
              && (forall k :: 0 <= k < i ==> IsTrimmable(s[k]))
              && (forall k :: j <= k < |s| ==> IsTrimmable(s[k]))
    ensures r == [] || (!IsTrimmable(r[0]) && !IsTrimmable(r[|r| - 1]))
  {
    var a := TrimStart(s);
    var r := TrimEnd(a);
    assert r == s[|s| - |a|..|s| - |a| + |r|];
    r
  }

  /** A string that neither starts nor ends with white space is its own trim. */
  lemma TrimFixed(s: string)
    requires s == [] || (!IsTrimmable(s[0]) && !IsTrimmable(s[|s| - 1]))
    ensures Trim(s) == s
  {
    assert TrimStart(s) == s;
    assert TrimEnd(s) == s;
  }

  /** `s.split(sep)` for a one-character separator. */
  function Split(s: string, sep: char): (r: seq<string>)
    ensures |r| >= 1
    ensures forall k :: 0 <= k < |r| ==> sep !in r[k]
  {
    if s == [] then [[]]
    else
      var rest := Split(s[1..], sep);
      if s[0] == sep then [[]] + rest
      else [[s[0]] + rest[0]] + rest[1..]
  }

  /** `pieces.join(sep)`, the inverse of `Split`. */
  function Join(pieces: seq<string>, sep: char): string
    requires |pieces| >= 1
  {
    if |pieces| == 1 then pieces[0] else pieces[0] + [sep] + Join(pieces[1..], sep)
  }

  lemma {:induction false} JoinSplit(s: string, sep: char)
    ensures Join(Split(s, sep), sep) == s
  {
    if s != [] {
      var rest := Split(s[1..], sep);
      JoinSplit(s[1..], sep);
      if s[0] == sep {
        assert Split(s, sep)[1..] == rest;
      } else {
        var r := Split(s, sep);
        if |rest| == 1 {
          assert r == [[s[0]] + rest[0]];
        } else {
          assert r[1..] == rest[1..];
          assert Join(rest, sep) == rest[0] + [sep] + Join(rest[1..], sep);
        }
      }
    }
  }

  lemma {:induction false} SplitJoin(pieces: seq<string>, sep: char)
    requires |pieces| >= 1
    requires forall k :: 0 <= k < |pieces| ==> sep !in pieces[k]
    ensures Split(Join(pieces, sep), sep) == pieces
    decreases |pieces|, |pieces[0]|
  {
    var p := pieces[0];
    if |pieces| == 1 {
      SplitNoSep(p, sep);
    } else if p == [] {
      var tail := Join(pieces[1..], sep);
      assert Join(pieces, sep) == [sep] + tail;
      assert ([sep] + tail)[1..] == tail;
      SplitJoin(pieces[1..], sep);
      assert Split(Join(pieces, sep), sep) == [[]] + pieces[1..];
    } else {
      var shorter := [p[1..]] + pieces[1..];
      assert shorter[1..] == pieces[1..];
      assert forall k :: 0 <= k < |shorter| ==> sep !in shorter[k] by {
        forall k | 0 <= k < |shorter| ensures sep !in shorter[k] {
          if k == 0 { assert forall c :: c in p[1..] ==> c in p; }
        }
      }
      SplitJoin(shorter, sep);
      var j := Join(pieces, sep);
      assert j == [p[0]] + Join(shorter, sep) by {
        assert p == [p[0]] + p[1..];
      }
      assert j[0] == p[0] && j[1..] == Join(shorter, sep);
      assert p[0] in p;
      assert [p[0]] + p[1..] == p;
      assert Split(j, sep) == [p] + pieces[1..];
      assert [p] + pieces[1..] == pieces;
    }
  }

  lemma {:induction false} SplitNoSep(s: string, sep: char)
    requires sep !in s
    ensures Split(s, sep) == [s]
  {
    if s != [] {
      assert forall c :: c in s[1..] ==> c in s;
      SplitNoSep(s[1..], sep);
      assert [s[0]] + s[1..] == s;
    }
  }

  /** The lines of a text file as the batch runner reads them:
      `content.trim().split('\n')`. */
  function Lines(content: string): (r: seq<string>)
    ensures |r| >= 1
    ensures forall k :: 0 <= k < |r| ==> '\n' !in r[k]
    ensures Join(r, '\n') == Trim(content)
  {
    JoinSplit(Trim(content), '\n');
    Split(Trim(content), '\n')
  }

  predicate StartsWith(s: string, prefix: string) {
    |prefix| <= |s| && s[..|prefix|] == prefix
  }

  /** `s.replace(/[...]/g, by)`: every character of the class `bad` becomes
      `with`, every other character is kept. */
  function ReplaceChars(s: string, bad: set<char>, with: char): (r: string)
    ensures |r| == |s|
    ensures forall i :: 0 <= i < |s| && s[i] !in bad ==> r[i] == s[i]
    ensures forall i :: 0 <= i < |s| && s[i] in bad ==> r[i] == with
  {
    if s == [] then []
    else [if s[0] in bad then with else s[0]] + ReplaceChars(s[1..], bad, with)
  }

  /** After replacing with a character outside the class, no character of
      the class is left. */
  lemma ReplaceCharsRemovesClass(s: string, bad: set<char>, with: char)
    requires with !in bad
    ensures forall c :: c in ReplaceChars(s, bad, with) ==> c !in bad
  {
    var r := ReplaceChars(s, bad, with);
    forall c | c in r ensures c !in bad {
      var i :| 0 <= i < |r| && r[i] == c;
    }
  }

  predicate IsDigit(c: char) {
    '0' <= c <= '9'
  }

  function DigitChar(d: nat): (c: char)
    requires d < 10
    ensures IsDigit(c)
  {
    ['0', '1', '2', '3', '4', '5', '6', '7', '8', '9'][d]
  }

  /** The decimal rendering JavaScript uses for a non-negative integer in a
      template literal. */
  function NatToString(n: nat): (r: string)
    ensures |r| >= 1
    ensures forall k :: 0 <= k < |r| ==> IsDigit(r[k])
  {
    if n < 10 then [DigitChar(n)] else NatToString(n / 10) + [DigitChar(n % 10)]
  }

  lemma DigitCharInjective(a: nat, b: nat)
    requires a < 10 && b < 10 && DigitChar(a) == DigitChar(b)
    ensures a == b
  {
  }

  /** Distinct integers render as distinct strings. */
  lemma {:induction false} NatToStringInjective(a: nat, b: nat)
    requires NatToString(a) == NatToString(b)
    ensures a == b
  {
    var sa, sb := NatToString(a), NatToString(b);
    if a < 10 && b < 10 {
      DigitCharInjective(a, b);
    } else if a >= 10 && b >= 10 {
      assert sa[|sa| - 1] == DigitChar(a % 10) && sb[|sb| - 1] == DigitChar(b % 10);
      DigitCharInjective(a % 10, b % 10);
      assert sa[..|sa| - 1] == NatToString(a / 10);
      assert sb[..|sb| - 1] == NatToString(b / 10);
      NatToStringInjective(a / 10, b / 10);
    }
  }
}

=== FILE: url_site_tracker.dfy ===
/** The older site queue of siteTracker.ts: records carry no form factor and
    are identified by url alone. */
module UrlSiteTracker {
  import opened Wrappers
  import UrlStore

  datatype Site = Site(url: string, finished: bool, errors: bool)

  function SiteUrl(s: Site): string {
    s.url
  }

  type Store = seq<Site>

  /** `entryExists`: identity is the url alone. */
  predicate EntryExists(store: Store, site: Site) {
    UrlStore.Has(store, SiteUrl, site.url)
  }

  function Find(store: Store, url: string): Option<Site> {
    UrlStore.Lookup(store, SiteUrl, url)
  }

  /** `create`: a copy of the site becomes the last record, found by its url
      when the url was new. */
  function Create(store: Store, site: Site): (r: Store)
    ensures |r| == |store| + 1 && r[..|store|] == store
    ensures !EntryExists(store, site) ==> Find(r, site.url) == Some(site)
    ensures forall u :: u != site.url ==> Find(r, u) == Find(store, u)
  {
    UrlStore.LookupAppend(store, SiteUrl, site, site.url);
    forall u | u != site.url ensures Find(store + [site], u) == Find(store, u) {
      UrlStore.LookupAppend(store, SiteUrl, site, u);
    }
    store + [site]
  }

  /** `update`: the callback `s => s = { ...site }` only rebinds its
      parameter, so the stored records are left exactly as they were. */
  function Update(store: Store, site: Site): (r: Store)
    ensures forall u :: Find(r, u) == Find(store, u)
  {
    store
  }

  /** `createOrUpdate`: never creates a second record for a url; a url
      already present keeps its first record. */
  function CreateOrUpdate(store: Store, site: Site): (r: Store)
    ensures UrlStore.UniqueUrls(store, SiteUrl) ==> UrlStore.UniqueUrls(r, SiteUrl)
    ensures Find(r, site.url) == (if EntryExists(store, site) then Find(store, site.url) else Some(site))
    ensures forall u :: u != site.url ==> Find(r, u) == Find(store, u)
  {
    if EntryExists(store, site) then Update(store, site) else Create(store, site)
  }

  /** `clean`: no url is left in the collection. */
  function Clean(store: Store): (r: Store)
    ensures forall u :: Find(r, u) == None
  {
    []
  }
}

=== FILE: url_store.dfy ===
/** The url-keyed upsert shared by siteTracker.ts, src/site-metrics.ts and
    src/siteMetrics.ts. In all three, `update` hands the matching record to a
    callback that only rebinds its own parameter (`s => s = {...}`), so the
    stored record is left as it was: an upsert on an existing url keeps the
    first record written for that url. Records are generic; `url` extracts
    the identity. */
module UrlStore {
  import opened Wrappers

  /** `entryExists`: some record has url `u`. */
  predicate Has<T>(store: seq<T>, url: T -> string, u: string) {
    exists i :: 0 <= i < |store| && url(store[i]) == u
  }

  /** The store's invariant: no two records share a url. */
  predicate UniqueUrls<T>(store: seq<T>, url: T -> string) {
    forall i, j :: 0 <= i < j < |store| ==> url(store[i]) != url(store[j])
  }

  function Urls<T>(store: seq<T>, url: T -> string): set<string> {
    set i | 0 <= i < |store| :: url(store[i])
  }

  /** The first record with url `u`, if any. */
  function Lookup<T>(store: seq<T>, url: T -> string, u: string): (r: Option<T>)
    ensures r.None? <==> !Has(store, url, u)
    ensures r.Some? ==> r.value in store && url(r.value) == u
  {
    if store == [] then None
    else if url(store[0]) == u then Some(store[0])
    else
      assert forall i :: 0 <= i < |store[1..]| ==> store[1..][i] == store[i + 1];
      Lookup(store[1..], url, u)
  }

  lemma {:induction false} LookupAppend<T>(store: seq<T>, url: T -> string, item: T, u: string)
    ensures Lookup(store + [item], url, u) ==
      (if Has(store, url, u) then Lookup(store, url, u) else if url(item) == u then Some(item) else None)
  {
    if store != [] {
      assert (store + [item])[1..] == store[1..] + [item];
      assert forall i :: 0 <= i < |store[1..]| ==> store[1..][i] == store[i + 1];
      LookupAppend(store[1..], url, item, u);
    }
  }

  lemma UrlsAppend<T>(store: seq<T>, url: T -> string, item: T)
    ensures Urls(store + [item], url) == Urls(store, url) + {url(item)}
  {
    var r := store + [item];
    forall u | u in Urls(r, url) ensures u in Urls(store, url) + {url(item)} {
      var i :| 0 <= i < |r| && u == url(r[i]);
      if i < |store| {
        assert u == url(store[i]);
      }
    }
    forall u | u in Urls(store, url) ensures u in Urls(r, url) {
      var i :| 0 <= i < |store| && u == url(store[i]);
      assert r[i] == store[i];
    }
    assert r[|store|] == item;
  }

  /** `createOrUpdate` with an `update` that leaves the record unchanged:
      the first record written for a url wins, and no url is ever stored
      twice. */
  function CreateOrUpdate<T>(store: seq<T>, item: T, url: T -> string): (r: seq<T>)
    ensures UniqueUrls(store, url) ==> UniqueUrls(r, url)
    ensures Urls(r, url) == Urls(store, url) + {url(item)}
    ensures Lookup(r, url, url(item)) ==
      (if Has(store, url, url(item)) then Lookup(store, url, url(item)) else Some(item))
    ensures forall u :: u != url(item) ==> Lookup(r, url, u) == Lookup(store, url, u)
  {
    if Has(store, url, url(item)) then
      assert url(item) in Urls(store, url) by {
        var i :| 0 <= i < |store| && url(store[i]) == url(item);
      }
      store
    else
      UrlsAppend(store, url, item);
      LookupAppend(store, url, item, url(item));
      forall u | u != url(item) ensures Lookup(store + [item], url, u) == Lookup(store, url, u) {
        LookupAppend(store, url, item, u);
      }
      store + [item]
  }

  /** Upserting a sequence of records, left to right. */
  function CreateOrUpdateAll<T>(store: seq<T>, items: seq<T>, url: T -> string): (r: seq<T>)
    ensures UniqueUrls(store, url) ==> UniqueUrls(r, url)
    decreases |items|
  {
    if items == [] then store
    else CreateOrUpdateAll(CreateOrUpdate(store, items[0], url), items[1..], url)
  }

  /** After upserting a batch, a url holds the record it held before, or
      else the first record of the batch with that url; the set of urls
      grows by exactly the batch's urls. */
  lemma {:induction false} CreateOrUpdateAllLookup<T>(store: seq<T>, items: seq<T>, url: T -> string, u: string)
    ensures Lookup(CreateOrUpdateAll(store, items, url), url, u) ==
      (if Has(store, url, u) then Lookup(store, url, u) else Lookup(items, url, u))
    ensures Urls(CreateOrUpdateAll(store, items, url), url) == Urls(store, url) + Urls(items, url)
    decreases |items|
  {
    if items != [] {
      var s1 := CreateOrUpdate(store, items[0], url);
      CreateOrUpdateAllLookup(s1, items[1..], url, u);
      assert forall i :: 0 <= i < |items[1..]| ==> items[1..][i] == items[i + 1];
      assert Has(s1, url, u) <==> Has(store, url, u) || url(items[0]) == u by {
        LookupNone(s1, url, u);
      }
      UrlsCons(items, url);
    }
  }

  lemma LookupNone<T>(store: seq<T>, url: T -> string, u: string)
    ensures Has(store, url, u) <==> Lookup(store, url, u).Some?
  {
  }

  lemma UrlsCons<T>(items: seq<T>, url: T -> string)
    requires items != []
    ensures Urls(items, url) == {url(items[0])} + Urls(items[1..], url)
  {
    forall u | u in Urls(items, url) ensures u in {url(items[0])} + Urls(items[1..], url) {
      var i :| 0 <= i < |items| && u == url(items[i]);
      if i > 0 {
        assert u == url(items[1..][i - 1]);
      }
    }
    forall u | u in Urls(items[1..], url) ensures u in Urls(items, url) {
      var i :| 0 <= i < |items[1..]| && u == url(items[1..][i]);
      assert u == url(items[i + 1]);
    }
    assert url(items[0]) in Urls(items, url);
  }
}

=== FILE: wrappers.dfy ===
/** Failure-compatible wrappers shared by the whole model.
    `Option` stands for JavaScript's `undefined`/`null` or a value; `Result`
    stands for a value or a thrown exception. */
module Wrappers {

  datatype Option<+T> = None | Some(value: T) {

    /** The value, or `default` when absent (JavaScript's `??`). */
    function GetOr(default: T): T {
      match this
      case Some(v) => v
      case None => default
    }
  }

  /** `Throws` models an exception escaping the modelled code; its reason
      names the JavaScript error that would be raised. */
  datatype Result<+T> = Ok(value: T) | Throws(reason: string)
}
